=== FILE: README.md ===
# Lifestory.ai core, modelled in Dafny

Lifestory.ai helps a person tell their life story. A guided interview walks
them through fixed stages of questions and keeps its progress in a session.
The answers and other material become *cards* (events, memories, places,
time periods, years, days, locations, emotions, media). The cards are
validated, converted to and from dictionaries, stored as JSON files, and
filtered in the browser.

This project models the rule-bearing core of that system as pure Dafny
functions over immutable datatypes, and proves the properties the code
promises.

- **Interview state machine** (`interview.dfy`, module `Interview`).
  - `InterviewStage` of routes/interview.py: `advance`,
    `get_current_question`, `get_progress`, and the dict round trip.
  - Its question table `INTERVIEW_QUESTIONS`.
  - Every property is stated over an arbitrary table; the repository's own
    table is one instance.
- **Interview handlers** (`interview_routes.dfy`, module `InterviewRoutes`).
  - The two handlers `get_question` and `submit_answer`, over the session
    value.
  - A reply is a datatype whose status code follows the source.
- **The other two interview machines**, modelled separately and not merged.
  - `SimpleInterview` models models/interview_stage.py: 10 per answer,
    capped at 90.
  - `InterviewClient` models the browser's mirror in static/js/interview.js,
    with a progress bar per stage.
  - `InterviewClient.SubmitMirrorsAdvance` relates the client to the server
    machine on a table where the two agree.
- **Session store** (`SessionStore`): the upsert key-value table of
  db/session_db.py, as a map.
- **Small parsers and classifiers**:
  - `Analysis` models the section-header parser `_parse_analysis`.
  - `MediaUpload` models the upload whitelist, the media-type classifier and
    the validation branches of `upload_file`.
  - `MediaRecord` models the `Media` record and its dict form.
- **Cards**:
  - `CardBase` models `BaseCard`: validation and stripping, media list, `update`, dict round trip.
  - `EventCards`, `MemoryCards`, `LocationCards`, `EmotionCards`, `PlaceCards` and
    `TimePeriodCards` model the card classes of the same names.
  - `YearCards` and `DayCards` model period derivation over the Gregorian
    calendar of `Calendar`.
  - `IdLinks` holds the id lists shared by location and emotion cards.
  - `DataclassFields` models the field-order rule of Python's `@dataclass` for
    the card classes, and the keyword check of their constructors. EventCard
    and MemoryCard define their own `__init__`, which `@dataclass` keeps;
    the other card classes use the generated one.
  - `CardChecks` models `validate_card`, `format_card_for_display` and `card_to_model`.
- **Card storage** (`Storage`, `DroeCore`):
  - `StorageManager` over a map from directory to file name to file content;
  - the `DROECore` facade, which swallows errors, and its `create_*` helpers.
- **Client-side filters** (`Filters`): `filterCards`, `filterEvents` and
  `handleZoom`.

Foundations shared by all of the above:

- `Outcomes`: `Option`, `Result`, the Python exceptions as `PyError`, and
  `Entry` for a dict key that may be missing.
- `Text`: `str.strip`, JavaScript `trim`, lower-casing, substring tests,
  `split` and `replace`.
- `Seqs`: append-if-absent, `list.remove`, no-duplicates and filter.
- `Calendar`: dates and times, the next day, and ISO 8601 text with its
  parser.
- `Json`: JSON values and their truthiness.

Things the code cannot compute itself are passed in as parameters:

- the clock reading (`now`);
- a fresh `uuid4()` (`newId`);
- what the image generator returned (`ImageOutcome`);
- the translation of a card's dict to JSON (`encode`);
- the browser's inputs.

## Model

| member | source | states |
|---|---|---|
| Interview.StageIndex | routes/interview.py:66-70 | The stage's position in table order is the first entry with that name; None means no entry has the name (where Python raises ValueError). |
| Interview.Initial | routes/interview.py:25-30 | A fresh interview is on question 0 of "welcome", has no answers and is not complete. |
| Interview.Advance | routes/interview.py:54-78 | A completed state is returned unchanged with True. Within a stage the index goes up by one and the stage is kept. Past a stage's last question the machine moves to index 0 of the next stage in table order. After the last stage, or on a stage missing from the table, it completes. The answers and the creation time are never touched, and the flag returned is the new `completed`. |
| Interview.CurrentQuestion | routes/interview.py:80-87 | None exactly when the interview is complete or the index is past the stage's questions; otherwise the question at the index. |
| Interview.Progress | routes/interview.py:89-112 | 100 once complete; 0 for an empty table or a stage missing from it; otherwise the questions before the current one as a share of the table, times 100. |
| Interview.InRangeProgress | routes/interview.py:89-112 | A reachable unfinished state has a current question. Its progress is (questions in earlier stages + index) / total × 100, strictly below 100. |
| Interview.ProgressHundredIffCompleted | routes/interview.py:89-112 | For reachable states, progress is 100 if and only if the interview is complete. |
| Interview.UnknownStageProgress | routes/interview.py:89-112 | A stage missing from the table gives progress 0, and `advance` completes the interview instead of resetting it. |
| Interview.AdvanceStep | routes/interview.py:54-78 | One `advance` from a reachable unfinished state either completes it (only from the last question) or reaches the question next in table order, still in range. |
| Interview.AdvanceProgress | routes/interview.py:89-112 | Each non-final `advance` raises progress by exactly one question's share of 100. |
| Interview.ProgressMonotone | routes/interview.py:89-112 | Progress never decreases along `advance`. |
| Interview.RunVisitsEveryQuestion | routes/interview.py:7-78 | Starting from the first question, the n-th `advance` lands on the n-th (stage, index) pair of the table, in declared order. After exactly as many advances as there are questions, the interview is complete. |
| Interview.RunStep | routes/interview.py:54-78 | The inductive step of that walk: one more `advance` from entry n − 1 gives entry n, or completion after the last. |
| Interview.InterviewQuestionsShape | routes/interview.py:7-22 | The repository's table has unique stage names, starts with "welcome", has a question in every stage and holds eight questions. |
| Interview.EightAdvancesComplete | routes/interview.py:7-78 | A fresh interview is still running after 0 to 7 advances and is complete after exactly 8. |
| Interview.ToDict | routes/interview.py:32-39 | Every field is written out; the creation time is ISO text that parses back to it. |
| Interview.FromDict | routes/interview.py:41-52 | A non-dict raises ValueError. Missing keys take the fresh interview's values. Otherwise the result succeeds exactly when the creation time parses; every present field is copied and the creation time is the one parsed (now when absent). |
| Interview.DictRoundTrip | routes/interview.py:32-52 | `from_dict(to_dict(s))` gives back stage, index, answers, completion and creation time. |
| Interview.EmptyDictIsFresh | routes/interview.py:41-52 | An empty dict reads as a fresh interview created now. |
| InterviewRoutes.GetQuestion | routes/interview.py:114-146 | Afterwards the session always holds an interview. An existing interview is re-stored only in the form it reads back as. The reply is 200 exactly when the stored interview reads back and is complete or on a question. |
| InterviewRoutes.Show | routes/interview.py:121-135 | The reply is 200 exactly when the interview is complete or serves a question; a served question is the current one. |
| InterviewRoutes.SubmitAnswer | routes/interview.py:148-196 | Without an interview it replies 400 "Interview not started". With a readable interview, no body or a body without the `answer` key gets 400 "No answer provided" and the session as it was. A body whose answer cannot be read (a number, a list or string holding "answer", a non-text answer) reaches the 500 handler with TypeError or AttributeError. A 400 reply or a caught exception leaves the session untouched. A changed session holds exactly one more answer. |
| InterviewRoutes.Record | routes/interview.py:168-194 | The accepting tail stores the interview advanced once after one logged answer. It never replies 400, and it reports completion exactly when that `advance` completes. |
| InterviewRoutes.GetQuestionIdempotent | routes/interview.py:114-146 | Asking again at any later time gives the same reply and leaves the session as the first request left it. |
| InterviewRoutes.ReadAtTwoTimes | routes/interview.py:41-52 | Reading a stored interview at two clock times succeeds at both or at neither, and gives the same interview when its creation time is present. |
| InterviewRoutes.FirstVisit | routes/interview.py:114-146 | On the first visit the session gains a fresh interview, and the reply is its opening question with progress 0. |
| InterviewRoutes.OpeningQuestion | routes/interview.py:80-112 | A fresh interview asks "Are you ready to begin your life story interview?" with progress 0. |
| InterviewRoutes.BlankAnswerRejected | routes/interview.py:157-162 | An empty or whitespace-only answer gets 400 "Answer cannot be empty", and the session is unchanged. |
| InterviewRoutes.CompletedRejectsAnswers | routes/interview.py:164-166 | A complete interview answers 400 "No current question", and the session is unchanged. |
| InterviewRoutes.AcceptedAnswerLogged | routes/interview.py:168-194 | An accepted answer is logged once: stripped, against the current question and its pre-advance stage. The stored interview is the old one advanced by one step, and the reply is the completion message exactly when that step completes. |
| InterviewRoutes.NoFailedNextQuestion | routes/interview.py:175-194 | For a reachable unfinished interview, an accepted answer either completes it or reports the next question with strictly larger progress. The 500 "Failed to get next question" branch cannot happen. |
| InterviewRoutes.RecordMovesOn | routes/interview.py:175-194 | The same step, stated for the accepting tail. |
| SimpleInterview.Initial | models/interview_stage.py:5-10 | A new interview starts at "foundations" with no current question and no answers, not complete, created now. |
| SimpleInterview.Progress | models/interview_stage.py:43-52 | 100 once complete; otherwise ten per answer, capped at 90. |
| SimpleInterview.ToDict | models/interview_stage.py:12-20 | Every field is written under its key. |
| SimpleInterview.AddAnswer | models/interview_stage.py:33-41 | Without a current question nothing changes. Otherwise exactly one record is appended, holding the current question, the answer, the stage and the time; nothing else changes. |
| SimpleInterview.ProgressBounds | models/interview_stage.py:43-52 | Progress is 100 if and only if complete. Otherwise it is between 0 and 90, and it equals 10 per answer up to nine answers. |
| SimpleInterview.ProgressOnlyCountsAnswers | models/interview_stage.py:47-52 | Two states with the same completion flag and answer count have the same progress, whatever their stage. |
| SimpleInterview.AddAnswerProgress | models/interview_stage.py:33-52 | Adding an answer never lowers progress, and raises it by 10 while below the cap. |
| SimpleInterview.FromDict | models/interview_stage.py:22-31 | A non-dict raises AttributeError. Missing keys default to foundations, None, no answers, not complete and now; present keys are copied. |
| SimpleInterview.DictRoundTrip | models/interview_stage.py:12-31 | `from_dict(to_dict(s))` preserves all five fields. |
| SimpleInterview.EmptyDictIsFresh | models/interview_stage.py:22-31 | An empty dict reads as a fresh interview. |
| InterviewClient.Initial | static/js/interview.js:10-11 | The page starts on question 0 of "foundations". |
| InterviewClient.Submit | static/js/interview.js:43-97 | An answer that trims to empty is ignored: nothing is sent and nothing changes. A refused answer changes nothing. An accepted answer moves to the next index within the stage, to index 0 of `stage.next`, or leaves the page after the last stage. |
| InterviewClient.Progress | static/js/interview.js:20-24 | The bar width times the number of stages equals the stage's position × 100. It exists exactly when the stage is in the table, and it lies in [0, 100). |
| InterviewClient.ProgressIgnoresIndex | static/js/interview.js:22-23 | The bar does not depend on the question index. |
| InterviewClient.WithinStageKeepsProgress | static/js/interview.js:14-73 | A submission that stays within its stage leaves the bar where it was. |
| InterviewClient.SubmitMirrorsAdvance | static/js/interview.js:62-73 | The client finds a stage as the server does. On a table the client and server share, an accepted answer moves the page exactly as the server's `advance` moves its interview. |
| SessionStore.Save | db/session_db.py:40-66 | Data `json.dumps` cannot write raises TypeError, exactly then. Otherwise an existing row gets the new data and update time and keeps its creation time, a new row is inserted, and no other row changes. |
| SessionStore.Get | db/session_db.py:68-86 | The decoded data exactly when the row exists and decodes; None for an unknown id or undecodable data. |
| SessionStore.Delete | db/session_db.py:88-98 | The row is removed if present; the others are kept. |
| SessionStore.GetAfterSave | db/session_db.py:40-86 | Reading after saving gives the saved data; saving data `json.dumps` cannot write raises TypeError. |
| SessionStore.LastWriteWins | db/session_db.py:45-61 | A second save under the same id hides the first, for every reader; a second save that raises TypeError leaves the first in place. |
| SessionStore.SaveIsolated | db/session_db.py:40-66 | A save of one id that succeeds leaves every other session as it was. |
| SessionStore.DeleteRemoves | db/session_db.py:88-98 | After a delete the session reads as None, and other ids read as before. |
| SessionStore.DeleteUndoesInsert | db/session_db.py:40-98 | Inserting a new id with writable data and then deleting it restores the store. |
| Analysis.HeaderOf | ai/assistant.py:181-186 | A line announces emotions exactly when it contains "emotions:". It announces no header exactly when it contains none of the three markers. |
| Analysis.ParseAnalysis | ai/assistant.py:176-199 | The line-by-line loop computes the reference reading: each section holds, in input order, the cleaned non-empty lines that are read while it is the current section and are not headers. |
| Analysis.Record | ai/assistant.py:187-193 | Recording appends the item to exactly one section and leaves the other two alone. |
| Analysis.ReadOneMore | ai/assistant.py:179-193 | Reading one more line either switches the section (a header, not recorded), appends the line to the current section, or drops it (empty, or before any header). |
| Analysis.ReadLast | ai/assistant.py:179-193 | The same step, for the last line of a list read after all the others. |
| Analysis.CleanIsNormal | ai/assistant.py:180 | A cleaned line is already lower-case and stripped. |
| Analysis.ItemsAreRecordable | ai/assistant.py:179-193 | Every recorded item is non-empty, lower-case, stripped and not a header. |
| Analysis.AtMostOneItemPerLine | ai/assistant.py:187-193 | The three sections together hold at most one item per line. |
| Analysis.NothingBeforeAHeader | ai/assistant.py:176-193 | Before any header line nothing is recorded. |
| Analysis.AppendLine | ai/assistant.py:179-193 | What a line does depends only on the lines before it. It is recorded exactly when it is non-empty, not a header, and some header came before it. |
| Text.JoinSplit | ai/assistant.py:176 | Splitting on newlines loses nothing: joining the pieces gives the text back. |
| MediaUpload.MediaTypeOf | routes/media.py:18-26 | Image exactly for png, jpg, jpeg and gif; video exactly for mp4; audio exactly for mp3 and wav; document exactly when the lower-cased last extension is none of the seven. |
| MediaUpload.MediaTypeExamples | tests/test_media.py:15-28 | The repository's test names: jpg, png, mp4 and mp3 are allowed, exe and txt are not; jpg and png are images, mp4 a video, mp3 audio, txt a document. |
| MediaUpload.JpgIsImage | tests/test_media.py:24 | `test.jpg` is allowed and is an image. |
| MediaUpload.PngIsImage | tests/test_media.py:25 | `test.png` is allowed and is an image. |
| MediaUpload.Mp4IsVideo | tests/test_media.py:26 | `test.mp4` is allowed and is a video. |
| MediaUpload.Mp3IsAudio | tests/test_media.py:27 | `test.mp3` is allowed and is audio. |
| MediaUpload.ExeRefused | tests/test_media.py:20 | `test.exe` is not allowed. |
| MediaUpload.TxtIsDocument | tests/test_media.py:28 | `test.txt` is not allowed and is a document. |
| MediaUpload.AllowedFileIff | routes/media.py:13-16 | A name is allowed exactly when it contains a dot and the lower-cased text after its last dot is one of the seven extensions. |
| MediaUpload.AllowedIsNeverDocument | routes/media.py:13-26 | Every allowed file is an image, a video or an audio file, never a document. |
| MediaUpload.FinalExtensionOnly | routes/media.py:15-16 | Only the final extension counts, whatever its case and whatever comes before it. |
| MediaUpload.CheckUpload | routes/media.py:28-70 | 400 exactly for a missing file part ("No file part"), an empty name ("No selected file") or a disallowed extension ("File type not allowed"). An accepted file is stored with the type its name classifies as, never a document. |
| MediaRecord.FromValue | cards/media.py:6-39 | An unknown type value raises ValueError. |
| MediaRecord.ValueBijection | cards/media.py:6-10 | The four members and their values correspond one to one. |
| MediaRecord.ToDict | cards/media.py:20-28 | The type is written as its value and the creation time as ISO text; both read back. |
| MediaRecord.FromDict | cards/media.py:30-39 | Missing keys take their defaults. The result succeeds exactly when the type value names a member and the time parses; its type is that member (image when absent) and its creation time the one parsed (now when absent). |
| MediaRecord.DictRoundTrip | cards/media.py:20-39 | `from_dict(to_dict(m))` equals m field for field. |
| MediaRecord.EmptyDictDefaults | cards/media.py:30-39 | An empty dict gives an image with no id, empty path and description, created now. |
| MediaRecord.UnknownTypeRefused | cards/media.py:36 | A type string that names no member is refused with ValueError. |
| CardBase.ResolveImage | cards/base_card.py:36-55 | A given image path is kept. An empty path takes the generator's URL when it gives one, the fallback image when it fails, and stays empty only when the generator returns an empty URL. |
| CardBase.New | cards/base_card.py:21-43 | ValueError exactly when the title or the description strips to empty. Otherwise both are stored stripped, a missing id becomes a fresh uuid, and metadata defaults to `{}`. |
| Text.StripEmptyIffAllSpace | cards/base_card.py:24-27 | A text strips to empty exactly when it consists of whitespace only. |
| CardBase.AddMedia | cards/base_card.py:57-63 | Append-if-absent. An item already present leaves the card unchanged; otherwise `updated_at` is stamped. |
| CardBase.RemoveMedia | cards/base_card.py:65-69 | The first occurrence is removed and the card stamped; an absent item leaves the card unchanged. |
| CardBase.MediaListsStayDuplicateFree | cards/base_card.py:57-69 | Both operations keep the media list free of duplicates, a removed item is gone, and re-adding is a no-op. |
| CardBase.RemoveUndoesAddMedia | cards/base_card.py:57-69 | Removing a just-added item gives the media list back. |
| CardBase.SetText | cards/base_card.py:117 | Setting one text attribute changes only that attribute. |
| CardBase.ApplyAsWritten | cards/base_card.py:113-117 | The keyword loop as written. It raises only ValueError, and it never touches timestamps or media. |
| CardBase.RaisesIffEmptyText | cards/base_card.py:115-116 | The loop raises exactly when some title or description value is the empty string. |
| CardBase.Update | cards/base_card.py:111-118 | After a successful update the card is the loop's result with `updated_at` stamped. A raised error leaves `updated_at` alone. |
| CardBase.ApplyAsWrittenSplits | cards/base_card.py:113 | Keywords are applied one at a time in order: a prefix that raises nothing is applied first, then the rest. |
| CardBase.EarlierKeysStayApplied | cards/base_card.py:113-118 | A failing key keeps what the keys before it set, and `updated_at` is left alone. |
| CardBase.UnknownKeysIgnored | cards/base_card.py:114 | Names the card does not have are ignored. |
| CardBase.BlankTitleSlipsThrough | cards/base_card.py:115-117 | As written, a whitespace-only title passes the emptiness test and is stored as "", leaving a card that construction would have refused. |
| CardBase.UpdateChecked | cards/base_card.py:111-118 | Corrected `update`: the emptiness test is made on the stripped value. A refused update leaves `updated_at` alone. |
| CardBase.NextChecked | cards/base_card.py:115-117 | One corrected keyword step: refused exactly for a title or description that strips to empty; otherwise the stripped value is set. |
| CardBase.ApplyCheckedKeepsText | cards/base_card.py:113-117 | The corrected loop keeps title and description non-empty and stripped. |
| CardBase.UpdateCheckedKeepsText | cards/base_card.py:111-118 | The corrected update keeps title and description non-empty and stripped. |
| CardBase.CheckedAgreesOnNonBlank | cards/base_card.py:113-117 | Where no title or description value is whitespace-only, the corrected and the written loop agree. |
| CardBase.ToDict | cards/base_card.py:71-85 | Every field is written. The times are ISO text that parses back, an unset `updated_at` is written as None, and the media as their dicts. |
| CardBase.MediaFromDicts | cards/base_card.py:96 | Each media dict is read in turn; a failure of any one of them is raised. |
| CardBase.MediaListRoundTrip | cards/base_card.py:71-96 | A media list written out reads back as itself. |
| CardBase.ReadUpdatedAt | cards/base_card.py:98 | A missing key gives None, a present None raises TypeError, and a present text is parsed. |
| CardBase.ReadArgs | cards/base_card.py:90-98 | The reads before the constructor: a falsy title or description raises ValueError, then media, `created_at` and `updated_at` are read; the arguments are the dict's values with `.get` defaults. |
| CardBase.FromDict | cards/base_card.py:87-109 | The reads fail first; then ValueError exactly for text that strips to empty. A result has the stripped title and description, the dict's id (a new one when falsy), the parsed times (now when `created_at` is absent), the dict's media, metadata ({} for None) and image path (resolved when empty). |
| CardBase.DictRoundTrip | cards/base_card.py:71-109 | `from_dict(to_dict(c))` gives c back for a well-formed card with `updated_at` set, an image and metadata. |
| CardBase.NewKeepsWellFormed | cards/base_card.py:21-43 | Construction from the fields of a well-formed card gives it back unchanged. |
| CardBase.UnsetUpdatedAtBreaksRoundTrip | cards/base_card.py:71-98 | A card whose `updated_at` was never set does not survive the round trip: reading it raises TypeError. |
| Calendar.IsoFormat | cards/base_card.py:80 | The text has 19 characters, or 26 when the microsecond is non-zero; it has '-' at positions 4 and 7, 'T' at 10 and ':' at 13 and 16, and '.' at 19 when it carries a fraction. `Calendar.IsoRoundTrip` states that `fromisoformat` reads it back. |
| Calendar.IsoRoundTrip | cards/base_card.py:71-98 | `fromisoformat(isoformat(d))` gives back every valid date-time. |
| EventCards.New | cards/event_card.py:32-68 | The base card's checks apply. The lists default to empty, and the times are given or now. |
| EventCards.Add | cards/event_card.py:111-144 | Append-if-absent on the chosen list (participants, emotions or media ids). The other lists and every other field are unchanged; the card is stamped only when something was added. |
| EventCards.Remove | cards/event_card.py:117-150 | Remove-if-present on the chosen list; the other lists are unchanged, and the card is stamped only when something was removed. |
| EventCards.SetLocation | cards/event_card.py:123-126 | The location becomes the place's id and the card is stamped; nothing else changes. |
| EventCards.ListOpsKeepDistinct | cards/event_card.py:111-150 | Each operation keeps every list free of duplicates; an added id is present and a removed one is gone. |
| EventCards.AddRemoveInverse | cards/event_card.py:111-150 | Adding twice is adding once, and removing a just-added id gives the list back. |
| EventCards.ToDict | cards/event_card.py:70-81 | The base dict plus the date (None when unset, else ISO text that parses back), location, the three lists and creator. |
| EventCards.FromDict | cards/event_card.py:83-109 | A missing title or description raises KeyError; the date is parsed before the constructor refuses blank text. A result has the stripped text, the dict's id (a new one when falsy), the date read when truthy, the parsed times, the dict's lists, metadata and image path, and no media. |
| EventCards.DictRoundTrip | cards/event_card.py:70-109 | `from_dict(to_dict(e))` gives e back when e has no media. |
| MemoryCards.New | cards/memory_card.py:34-70 | The base card's checks apply, and None lists become empty lists. |
| MemoryCards.Clamp | cards/memory_card.py:96 | The result lies in [0, 10]: in-range values are kept, values below become 0 and values above become 10. |
| MemoryCards.ClampMonotone | cards/memory_card.py:96 | Clamping is idempotent and keeps order. |
| MemoryCards.SetEmotion | cards/memory_card.py:93-97 | The emotion is stored with its intensity clamped into [0, 10], and the card is stamped. |
| MemoryCards.SetLink | cards/memory_card.py:72-91 | The associated event, place or time period now exists and the card is stamped. |
| MemoryCards.AddPerson | cards/memory_card.py:77-81 | AttributeError exactly while `associated_people` does not exist. Otherwise append-if-absent, stamping only when something was added. |
| MemoryCards.AddPersonKeepsDistinct | cards/memory_card.py:77-81 | Given the list, `add_person` succeeds and never introduces a duplicate. |
| MemoryCards.AddPersonFailsAfterSetters | cards/memory_card.py:62-97 | No modelled operation creates `associated_people`, so `add_person` fails on a new card, even after the setters. |
| MemoryCards.ToDict | cards/memory_card.py:99-111 | Writing out raises AttributeError exactly when an attribute it reads was never set. Otherwise it gives the base dict and the date as ISO text. |
| MemoryCards.NoPeopleNoDict | cards/memory_card.py:105 | A memory without `associated_people` cannot be written out. |
| IdLinks.Add | cards/location_card.py:68-84 | Append-if-absent on one id list; the other list is unchanged, and the card is stamped only when the id was new. |
| IdLinks.Remove | cards/location_card.py:74-90 | Remove-if-present on one id list; the other list is unchanged, and the card is stamped only when the id was there. |
| IdLinks.OpsKeepDistinct | cards/location_card.py:68-90 | Both operations keep both lists free of duplicates; an added id is present and a removed one is gone. |
| IdLinks.RemoveUndoesAdd | cards/location_card.py:68-90 | Removing a new id just added gives both lists back. |
| IdLinks.ToDict | cards/location_card.py:44-45 | Both id lists are written as they are. |
| IdLinks.FromDict | cards/location_card.py:63-64 | A missing list key reads as `[]`; a present one is taken as it is. |
| IdLinks.DictRoundTrip | cards/location_card.py:37-64 | The id lists written out read back as themselves. |
| LocationCards.New | cards/location_card.py:8-35 | The base card's checks apply. The coordinates and creator are kept, and both id lists start empty. |
| LocationCards.AddId | cards/location_card.py:68-84 | Append-if-absent on `event_ids` or `memory_ids`; the other list, the coordinates and the creator are unchanged. |
| LocationCards.RemoveId | cards/location_card.py:74-90 | Remove-if-present on one list; the other list, the coordinates and the creator are unchanged. |
| LocationCards.ToDict | cards/location_card.py:37-47 | The base dict with the coordinates, the creator and both id lists laid over it. |
| LocationCards.RestoreIds | cards/location_card.py:63-64 | The last steps of `from_dict` take both lists from the dict and change nothing else. |
| LocationCards.IdsRoundTrip | cards/location_card.py:37-64 | Whatever card `from_dict` builds, it ends with the id lists that were written out. |
| EmotionCards.New | cards/emotion_card.py:8-32 | The base card's checks apply. The intensity and creator are kept, and both id lists start empty. |
| EmotionCards.AddId | cards/emotion_card.py:63-79 | Append-if-absent on one id list; the other list, the intensity and the creator are unchanged. |
| EmotionCards.RemoveId | cards/emotion_card.py:69-85 | Remove-if-present on one id list; the other list, the intensity and the creator are unchanged. |
| EmotionCards.ToDict | cards/emotion_card.py:34-43 | The base dict with the intensity, the creator and both id lists laid over it. |
| EmotionCards.RestoreIds | cards/emotion_card.py:58-59 | The last steps of `from_dict` take both lists from the dict and change nothing else. |
| EmotionCards.IdsRoundTrip | cards/emotion_card.py:34-59 | Whatever card `from_dict` builds, it ends with the id lists that were written out. |
| PlaceCards.New | cards/place_card.py:6-11 | The base card's checks apply; the coordinates and lists are the given ones. |
| PlaceCards.SetCoordinates | cards/place_card.py:13-16 | Latitude and longitude are set and nothing else changes. |
| PlaceCards.AddEvent | cards/place_card.py:18-21 | Append-if-absent on the events; nothing else changes. |
| PlaceCards.AddMemory | cards/place_card.py:23-26 | Append-if-absent on the memories; nothing else changes. |
| PlaceCards.AddsKeepDistinct | cards/place_card.py:18-26 | Both lists stay free of duplicates, and adding twice is adding once. |
| PlaceCards.ToDict | cards/place_card.py:28-37 | Writing out succeeds exactly when every attached card can be written. The dict holds the base dict, the coordinates, and the attached cards' dicts in insertion order. |
| PlaceCards.FromDict | cards/place_card.py:39-54 | The base card's `from_dict`, then coordinates defaulting to 0.0. Missing or empty lists stay empty. A non-empty `events` or `memories` list is read element by element into the card's list. The base card's exception is raised first, then an element's exception from `events`, then from `memories`, and the result is a card exactly when none of them raises. |
| PlaceCards.DictRoundTrip | cards/place_card.py:28-54 | With readers that undo the writers, `from_dict(to_dict(p))` gives p back. |
| TimePeriodCards.New | cards/time_period_card.py:6-11 | The base card's checks apply; the dates and lists are the given ones. |
| TimePeriodCards.SetDates | cards/time_period_card.py:13-16 | Both dates are assigned (the end may be None) and nothing else changes. |
| TimePeriodCards.AddEvent | cards/time_period_card.py:18-21 | Append-if-absent on the events; nothing else changes. |
| TimePeriodCards.AddMemory | cards/time_period_card.py:23-26 | Append-if-absent on the memories; nothing else changes. |
| TimePeriodCards.AddsKeepDistinct | cards/time_period_card.py:18-26 | Both lists stay free of duplicates. |
| TimePeriodCards.ToDict | cards/time_period_card.py:28-37 | Writing out succeeds exactly when every attached card can be written. The start is ISO text; the end is ISO text, or None exactly when it is unset. |
| TimePeriodCards.FromDictAs | cards/time_period_card.py:39-55 | A base failure is raised, and a missing start date raises KeyError. The start is parsed. The end is parsed only when present and non-empty; otherwise the constructor's end is kept. Missing or empty lists stay empty. A non-empty `events` or `memories` list is read element by element, and an element's exception is raised after the dates are read. The result is a card exactly when no read raises. |
| TimePeriodCards.FromDict | cards/time_period_card.py:39-55 | For a plain time period, an end date exists exactly when the dict holds a non-empty one. |
| TimePeriodCards.DictRoundTrip | cards/time_period_card.py:28-55 | With readers that undo the writers, `from_dict(to_dict(t))` gives t back. |
| YearCards.YearBounds | cards/year_card.py:12-22 | January 1, 00:00:00 and December 31, 23:59:59 of the year, in order. It raises ValueError exactly for a year outside 1 to 9999. |
| YearCards.New | cards/year_card.py:8-16 | The year defaults to the current one, and the dates are its bounds. |
| YearCards.SetYear | cards/year_card.py:18-22 | The year is assigned first. The dates follow it, unless the year is out of range, in which case ValueError is raised and the old dates stay. |
| YearCards.SetYearFailureLeavesStaleDates | cards/year_card.py:18-22 | A failed `set_year` leaves dates that belong to another year; a later valid `set_year` repairs the card. |
| YearCards.BoundsCoverYear | cards/year_card.py:14-15 | A moment between the bounds lies in the card's year, and every moment of that year lies between them. |
| YearCards.ToDict | cards/year_card.py:24-30 | The time period's dict plus the year. |
| YearCards.FromDict | cards/year_card.py:32-37 | The time period's reading with the constructor's year-end default; the year is read or defaults to the current year. |
| YearCards.DictRoundTrip | cards/year_card.py:24-37 | With readers that undo the writers, a consistent year card reads back as itself. |
| YearCards.FromDictTrustsDates | cards/year_card.py:32-37 | A dict whose year disagrees with its start date gives an inconsistent card. |
| DayCards.DayRange | cards/day_card.py:12-22 | The start is the date at midnight and the end is one calendar day later, with start ≤ date < end. OverflowError is raised exactly for December 31 of year 9999. |
| DayCards.RangeIsTheDay | cards/day_card.py:14-15 | A valid moment lies in [start, end) exactly when it falls on the same calendar day. |
| Calendar.AddOneDay | cards/day_card.py:15 | Adding a day advances the day ordinal by one, rolling over month and year by the Gregorian leap rules. |
| DayCards.New | cards/day_card.py:8-16 | The date defaults to now, and the dates are its range. |
| DayCards.SetDate | cards/day_card.py:18-22 | The date and the start are assigned first. The end follows, unless the day after overflows, in which case the old end stays. |
| DayCards.SetLastDayLeavesStaleEnd | cards/day_card.py:18-22 | Setting the last representable day raises OverflowError and leaves an end that is not after the start. |
| DayCards.ToDict | cards/day_card.py:24-30 | The time period's dict plus the date as ISO text that parses back. |
| DayCards.FromDict | cards/day_card.py:32-37 | The base reads fail first; then the constructor's range overflows on the last representable day, before the blank-text check; then the time period's reading, with the constructor's end of the current day. The date is parsed, or defaults to now. |
| DayCards.BlankTitleOnLastDayOverflows | cards/day_card.py:12-16 | On 9999-12-31 a blank title gives OverflowError, although the base card alone refuses it with ValueError. |
| DayCards.DictRoundTrip | cards/day_card.py:24-37 | With readers that undo the writers and a clock before the last day, a consistent day card reads back as itself. |
| DataclassFields.Declare | cards/base_card.py:12-19 | An annotated field replaces an inherited field of the same name in place, or is appended. |
| DataclassFields.MergeShape | cards/place_card.py:7-11 | A subclass keeps the inherited fields in their places, with redeclarations taking their place, and then the new fields. Names stay unique. |
| DataclassFields.ScanOkIff | cards/person_card.py:11-13 | The scan fails exactly at a required field that follows a defaulted one. |
| DataclassFields.CheckOrder | cards/person_card.py:11-13 | TypeError exactly when a field without a default follows one with a default. |
| DataclassFields.Define | cards/person_card.py:6-22 | A class is defined exactly when its merged fields are in order. |
| DataclassFields.CallWithKeywords | core/droe_core.py:172-178 | An `__init__` accepts keywords exactly when every keyword names a parameter and every required parameter is given; otherwise it raises TypeError. |
| DataclassFields.CardShapedAccepts | cards/base_card.py:100-109 | The generated `__init__` of a card-shaped class accepts the title and description with any other keywords that name inherited or declared fields. |
| DataclassFields.PlaceFromDictCallAccepted | cards/base_card.py:100-109 | PlaceCard keeps the generated `__init__`, which accepts the eight keywords the inherited `from_dict` passes to `cls(...)`. |
| DataclassFields.TimePeriodFromDictCallAccepted | cards/base_card.py:100-109 | TimePeriodCard's generated `__init__` accepts the same call. |
| DataclassFields.YearDayFromDictCallAccepted | cards/base_card.py:100-109 | So do the generated `__init__`s of YearCard and DayCard. |
| DataclassFields.EventInitRefusesMedia | cards/event_card.py:32-43 | EventCard's own `__init__` has no `media` parameter, so passing `media` raises TypeError. |
| DataclassFields.GeneratedEventInitTakesMedia | cards/event_card.py:8-30 | The `__init__` `@dataclass` would generate from EventCard's fields would take `media`, with every other keyword of `BaseCard.from_dict`. The hand-written one is what runs. |
| DataclassFields.EventFromDictCallAccepted | cards/event_card.py:91-101 | EventCard's own `__init__` accepts the keywords of `EventCard.from_dict`. |
| DataclassFields.MemoryFromDictCallAccepted | cards/memory_card.py:122-127 | MemoryCard's own `__init__` accepts the keywords of `MemoryCard.from_dict`. |
| DroeCore.EventKeywordsAccepted | core/droe_core.py:128-133 | EventCard's own `__init__` accepts the title, description, location and participants that `create_event` passes. |
| DataclassFields.UnknownKeywordRefused | core/droe_core.py:172-178 | A keyword that names no field is refused with TypeError. |
| DataclassFields.BaseCardDefines | cards/base_card.py:12-19 | BaseCard's fields are in order: title and description, then only defaulted fields. |
| DataclassFields.EventCardDefines | cards/event_card.py:25-30 | EventCard is defined. |
| DataclassFields.MemoryCardDefines | cards/memory_card.py:14-32 | MemoryCard is defined. |
| DataclassFields.PlaceCardDefines | cards/place_card.py:6-11 | PlaceCard is defined. |
| DataclassFields.TimePeriodCardsDefine | cards/time_period_card.py:6-11 | TimePeriodCard is defined, and so are YearCard and DayCard on top of it. |
| DataclassFields.RequiredAfterDefaultRefused | cards/person_card.py:11-13 | A body that declares a new required field over inherited defaulted ones is refused. |
| DataclassFields.PersonCardDoesNotDefine | cards/person_card.py:11 | As written, PersonCard's required `name` follows inherited defaulted fields, so the class definition raises TypeError. |
| DataclassFields.PersonCardCorrectedDefines | cards/person_card.py:11 | With a default for `name`, the class is defined and `name` is among its fields. |
| CardChecks.AllPresent | utils/card_utils.py:797 | True exactly when every listed attribute is present and truthy. |
| CardChecks.ValidateCard | utils/card_utils.py:776-797 | False for a non-card and for a missing or empty image. Otherwise true exactly when every attribute required for the card's class is present and truthy; any other card needs only the image. |
| CardChecks.FalsyFieldsFail | utils/card_utils.py:797 | A required attribute that is 0, 0.0, [], "" or None fails validation. |
| CardChecks.FormatCard | utils/card_utils.py:799-808 | ValueError exactly when validation fails. A valid card without `expandable_data` raises AttributeError. Otherwise the result has the fresh id, the image path and the data. |
| CardChecks.ReadColumns | db/utils.py:18-53 | Reading the columns succeeds exactly when every copied attribute exists, and yields their values in order. |
| CardChecks.CardToModel | db/utils.py:16-55 | A non-card or an unlisted class raises ValueError. Each listed class maps to its table, copying its columns in order; a missing attribute raises AttributeError. |
| CardChecks.ValidCardsConvert | db/utils.py:16-55 | A card that passes validation and has an id converts. |
| CardChecks.MissingFieldFails | utils/card_utils.py:786-797 | A class whose required attribute and column is missing neither validates nor converts. |
| CardChecks.EventCardsFailChecks | utils/card_utils.py:786-787 | EventCard never sets `people` or `memories`, so an event card never validates, never formats and never converts. |
| CardChecks.LocationCardsFailChecks | utils/card_utils.py:788-789 | LocationCard never sets `name`, so a location card neither validates nor converts. |
| CardChecks.EmotionCardsFailChecks | utils/card_utils.py:792-793 | EmotionCard never sets `name`, so an emotion card neither validates nor converts. |
| CardChecks.OtherCardsNeedImage | utils/card_utils.py:794-795 | Any other card validates exactly when its image path is non-empty. It then fails to format for lack of `expandable_data`, and it does not convert. |
| Storage.PathJoin | storage/storage_manager.py:40 | POSIX join: an absolute second part replaces the first, and otherwise the second part ends the path. |
| Storage.CardPath | storage/storage_manager.py:38-40 | The path ends in `<id>.json`; an id starting with '/' is the whole path. |
| Storage.CardPathShape | storage/storage_manager.py:38-40 | For plain names, a card's path is storage_path/type/id.json. |
| Storage.CardPathsDistinct | storage/storage_manager.py:38-40 | Distinct (id, type) pairs of plain names have distinct paths. |
| Storage.SaveKey | storage/storage_manager.py:49 | The save key is the lower-cased class name with every "card" removed; it is strictly shorter whenever "card" occurs. |
| Storage.TypeName | storage/storage_manager.py:156-166 | `get_card_type` is the lower-cased class name, of the same length. |
| Storage.TypeNameIsNotSaveKey | storage/storage_manager.py:156-166 | Whenever the class name contains "card", `get_card_type` disagrees with the key `save_card` uses. |
| Storage.TimePeriodKey | storage/storage_manager.py:25-51 | TimePeriodCard is filed under "timeperiod", not "time_period". |
| Storage.New | storage/storage_manager.py:16-36 | A fresh manager registers the five types in order and has a directory for each; existing directories keep their files. |
| Storage.Register | storage/storage_manager.py:168-176 | Exactly one registry entry is added or replaced, and nothing else changes. |
| Storage.Write | storage/storage_manager.py:59-60 | One file is written or overwritten; every other file is unchanged. |
| Storage.SaveCard | storage/storage_manager.py:42-60 | An unregistered key raises ValueError and writes nothing. An error from `to_dict` is raised, and so is a missing directory. A record that cannot be dumped raises TypeError. Otherwise the record, `to_dict()` plus its type, is written. |
| Storage.LoadCard | storage/storage_manager.py:62-89 | An unregistered type raises ValueError, and a missing file gives None. A file that is not JSON raises. A parsed file is handed to the registered class's `from_dict`: its card is returned and its exception is raised. |
| Storage.DeleteCard | storage/storage_manager.py:91-112 | An unregistered type raises ValueError. The result is True exactly when the file existed; afterwards it is gone and nothing else changes. |
| Storage.SaveThenLoad | storage/storage_manager.py:42-89 | A saved card loads back through its class's `from_dict` from the record that was written. |
| Storage.SaveOverwrites | storage/storage_manager.py:59-60 | Saving the same card again replaces the first record. |
| Storage.DeleteThenLoad | storage/storage_manager.py:78-112 | After a successful delete, a load gives None and a second delete gives False. |
| Storage.InitialRefusesTimePeriod | storage/storage_manager.py:25-51 | A fresh manager refuses to save a TimePeriodCard with ValueError, and writes nothing. |
| Storage.InitialSavesEvent | storage/storage_manager.py:25-60 | A fresh manager files a dumpable EventCard record under "event". |
| Storage.InitialRefusesEventLoad | storage/storage_manager.py:62-74 | Loading under `get_card_type`'s name for EventCard raises ValueError. |
| Storage.RegisteredTypeNeedsDirectory | storage/storage_manager.py:168-176 | A type registered later has no directory, so saving under it fails. |
| Storage.TypesToList | storage/storage_manager.py:125 | The visited types are the one asked for, or every registered type once each. |
| Storage.ListType | storage/storage_manager.py:131-152 | One entry per readable .json file of the type, once each, reporting the file's fields and its type. Every such file is reported. |
| Storage.ListCards | storage/storage_manager.py:114-154 | Only registered types and their readable .json files are reported, each once, with id, title, description, type and times. Every such file of a visited type is covered. |
| DroeCore.LoadCard | core/droe_core.py:47-62 | Whatever storage raises becomes None. A card is returned only from an existing, parsed file whose `from_dict` succeeded. |
| DroeCore.DeleteCard | core/droe_core.py:64-79 | True exactly when the type is registered and the file existed. An unregistered type gives False instead of raising, and the store changes only on a delete. |
| DroeCore.SearchCards | core/droe_core.py:97-112 | The storage manager has no `search_cards`, so the result is always empty. |
| DroeCore.CreateEvent | core/droe_core.py:114-135 | Blank text raises ValueError before anything is saved. A returned event has its participants (or `[]`) and location, and its record is stored under "event". Otherwise the result is an error exactly when saving raises, with the storage error: ValueError if "event" is unregistered, FileNotFoundError without its directory, TypeError for a record `json.dump` cannot write (the file is left truncated). |
| DroeCore.CreateEventSaves | core/droe_core.py:114-135 | On a fresh manager, every event with non-blank text and a dumpable record is created and saved. |
| DroeCore.CreatePlaceRaises | core/droe_core.py:172-178 | PlaceCard has no `name` field, so `create_place` always raises TypeError before saving. |
| DroeCore.CreateMemory | core/droe_core.py:182-198 | Blank text raises ValueError. A returned memory has been stored under "memory". |
| DroeCore.CreateMemoryAlwaysFails | core/droe_core.py:182-198 | A new memory cannot be written out, so `create_memory` never succeeds and never changes the store. With valid text the error is AttributeError. |
| Filters.FilterCards | static/js/card_viewer.js:47-56 | The result is a subsequence of the cards in their order. Every result matches the search case-insensitively and matches the type. Every matching card is kept as many times as it occurs. |
| Filters.EmptySearchShowsAll | static/js/card_viewer.js:48-56 | An empty search with type "all" shows every card. |
| Filters.SearchIgnoresCase | static/js/card_viewer.js:48 | The case of the search term does not matter. |
| Filters.FilterEvents | static/js/timeline.js:51-56 | With "all" the events are returned unchanged. Otherwise the result is exactly the events of the selected type, in their order. |
| Filters.FilterEventsIdempotent | static/js/timeline.js:51-56 | Filtering twice by a type is filtering once. |
| Filters.Zoom | static/js/timeline.js:77-80 | The level always lies in [0.5, 2]: it is the sum when that is in range, and otherwise the nearer bound. |
| Filters.ZoomAll | static/js/timeline.js:77-84 | Any run of zoom clicks leaves the level within bounds. |
| Filters.ZoomAllAppend | static/js/timeline.js:77-84 | Clicking through a and then b is clicking through a + b. |
| Text.StripWith | cards/base_card.py:30-31 | Stripping removes whitespace only, and only at the ends. The result is a contiguous middle of the input, everything cut off on either side is whitespace, and a non-empty result neither starts nor ends with whitespace. |
| Text.Lower | ai/assistant.py:180 | Lower-casing keeps the length and maps each character on its own. |
| Text.Split | ai/assistant.py:176 | Splitting gives at least one piece, and no piece contains the separator. |
| Text.LastIndexOf | routes/media.py:16 | `rsplit('.', 1)` finds the last dot: None exactly when there is no dot; otherwise a position holding a dot with no dot after it. |
| Text.AfterLast | routes/media.py:16 | The final extension is the text after some dot, and it contains no dot itself. |
| Seqs.AddIfAbsent | cards/base_card.py:61-62 | The item is present afterwards. The list is unchanged exactly when the item was already there; otherwise the item is appended at the end. A duplicate-free list stays duplicate-free. |
| Seqs.RemoveFirstNoDup | cards/base_card.py:67-68 | On a duplicate-free list, removal leaves no copy of the item and keeps the list duplicate-free. |
| Outcomes.MapAll | cards/place_card.py:34-35 | A list comprehension whose step may raise: it succeeds exactly when every element succeeds, and then yields their results in order. Otherwise it raises the first element's error. |
| Calendar.NextDay | cards/day_card.py:15 | The following day is returned at midnight, and it is a valid date unless the input falls on December 31 of year 9999. |
| Calendar.IsoParse | cards/base_card.py:97 | `fromisoformat` reads `YYYY-MM-DD` alone as midnight, or followed by any one separator and a time; it yields only valid date-times whose fields are the digits read, and fails with ValueError. |
| Calendar.TimeParse | cards/base_card.py:97 | The time part: `HH`, `HH:MM`, `HH:MM:SS`, with 3 or 6 fraction digits after the seconds; missing parts are zero, milliseconds are scaled to microseconds, anything else is ValueError. |
| Calendar.AnySeparator | cards/base_card.py:97 | Any single character between date and time is accepted, as with `' '` or `'T'`. |
| Calendar.MinutePrecision | cards/base_card.py:97 | `HH:MM` without seconds reads back a date-time whose seconds are zero. |
| Calendar.Milliseconds | cards/base_card.py:97 | A 3-digit fraction reads as milliseconds. |
| Calendar.OddFractionRefused | cards/base_card.py:97 | A fraction of other than 3 or 6 digits is refused. |
| CardBase.ApplyChecked | cards/base_card.py:113-117 | The corrected keyword loop raises only ValueError, and it never touches timestamps or media. |
| CardBase.MediaToDicts | cards/base_card.py:84 | One dict per media item, in order, each the item's own `to_dict()`. |
| CardBase.ReadIfTruthy | cards/event_card.py:95-105 | A falsy value (missing, None or "") reads as None. A truthy text reads exactly when it parses, and as the parsed date-time. |
| CardBase.ReadListIfTruthy | cards/place_card.py:49-52 | A missing or empty list reads as []. A non-empty list reads element by element, all or nothing. |
| CardChecks.BaseAttrs | cards/base_card.py:12-19 | A BaseCard object has exactly the base attributes, with its id and image path as given. |
| CardChecks.EventAttrs | cards/event_card.py:32-68 | An EventCard object has exactly the base attributes plus date, location, participants, emotions, created_by and media_ids: no `people` and no `memories`. |
| CardChecks.LocationAttrs | cards/location_card.py:8-35 | A LocationCard object has exactly the base attributes plus the coordinates, created_by and the two id lists: no `name`. |
| CardChecks.EmotionAttrs | cards/emotion_card.py:8-32 | An EmotionCard object has exactly the base attributes plus intensity, created_by and the two id lists: no `name`. |
| DataclassFields.CardShapedDefines | cards/event_card.py:25-30 | A card class whose body adds only defaulted fields, apart from title and description, is defined and keeps the card shape. |
| Storage.Open | storage/storage_manager.py:25-36 | The registry is the one given, every registered type gets a directory, and existing directories keep their files. |
| Storage.WriteTwice | storage/storage_manager.py:59-60 | Writing one file twice leaves the second content. |
| Storage.EventKey | storage/storage_manager.py:49 | EventCard is filed under "event", while `get_card_type` names it "eventcard". |
| Seqs.RemoveFirst | cards/base_card.py:68 | `list.remove`: the first occurrence is cut out, and an absent item leaves the list alone. |
| Seqs.RemoveFirstMultiset | cards/base_card.py:68 | Removal takes away exactly one copy of the item. |
| Seqs.RemoveUndoesAdd | cards/event_card.py:111-121 | Removing an item just appended gives the list back. |

## Left out

- I/O is modelled as values. The session database, the card files, `json.dump` and `json.load`, logging and `print` have no direct model:
  - the database and the files are maps;
  - `json.dump` and `json.load` are the `encode` parameter and the `Parsed`/`Unreadable` file contents;
  - logging and `print` have no effect on any result.
- The clock, `uuid4()` and the image generator (`generate_default_image`) are parameters. What the generator returns, or the fallback after its exception, is an `ImageOutcome`.
- The OpenAI-backed code, the Streamlit and DOM interface, the SQL/ORM plumbing and the app wiring are not part of this model.
- Only `_parse_analysis` of ai/assistant.py is modelled.
- Answer-text entity extraction, answer→card classification and follow-up templates exist in no source file, so they are not modelled.
- Floating point is not modelled exactly. Coordinates, intensities, progress and zoom are Dafny `real`s, without IEEE rounding. The JavaScript `0.1` zoom steps are taken as exact in the model.
- Lower-casing covers ASCII letters only. Python's `str.lower` and JavaScript's `toLowerCase` also map other letters.
- Python's `str.strip` whitespace is the ASCII and Latin-1 set together with the Unicode separators that `str.isspace` accepts. JavaScript's `trim` is modelled with its own set.
- The interview's question index is a `nat`: the session is only ever written by the handlers, so a negative index never occurs.
- Interview.FromDict: field values are taken at their modelled types. A stored dict whose fields have other JSON types is not modelled.
- CardBase.Update: the modelled keywords are title, description, id, image path, and names the card does not have. Other attributes, values that are not strings, and dunder names are left out. The emptiness test on those follows the same code path.
- PersonCard: the class cannot be defined as written (see Findings). `create_person`, `PersonCard.to_dict` and `PersonCard.add_event` are therefore not modelled.
- Several modules import PersonCard at top level. The rest of the model describes the code as if that import succeeded.
- LocationCards.New: the constructor is modelled without `created_at`, `updated_at` and `metadata`. The source passes them positionally into BaseCard's `id`, `created_at` and `updated_at`, so they land in the wrong fields.
- EmotionCards.New: the same positional misbinding applies, and it is left out the same way.
- LocationCards.RestoreIds: `from_dict` is modelled only from the point where it restores the id lists. The constructor call before it suffers the misbinding above.
- EmotionCards.RestoreIds: the same as for location cards.
- MemoryCards.ToDict: the `associated_*`, `emotion` and `intensity` attributes are read but never set by `__init__`. Only whether each one exists is modelled; their dict forms are not. `from_dict` of memory_card.py is not modelled.
- DroeCore.CreateMemory: the contract states only that a returned memory is stored. `CreateMemoryAlwaysFails` shows that no memory is ever returned.
- DroeCore `list_cards` and `save_card`: the facade passes these through to storage. The model's `Storage.ListCards` never raises, so the facade's `[]` fallback is not stated separately. `save_card`'s re-raise is part of `DroeCore.CreateEvent` and `DroeCore.CreateMemory`.
- Storage.SaveCard / LoadCard / DeleteCard: card ids are taken as plain file names without '/'. With a '/' in the id, `os.path.join` reaches a sub-directory or another directory, or raises FileNotFoundError; the store models only the registered type directories, so those paths are not modelled.
- Calendar.IsoParse: only naive date-times in the Python 3.7–3.10 grammar are read. Time-zone offsets, the wider Python 3.11 grammar (basic format, week dates, a fraction right after `HH` or `HH:MM`) are refused by the model.
- Storage.CardPathShape: stated only for ids without '/' and a storage path without a trailing '/'. Other paths follow `PathJoin`, but their shape is not stated.
- Storage.ListType: the order of `os.listdir` is taken as the directory map's order. Files that fail while being read are skipped, as in the source. Other exceptions (a missing directory handle, for instance) are not modelled.
- YearCards.New: the year is taken as given; `datetime` refuses years outside 1 to 9999, and that is stated through `YearBounds`.
- DayCards.FromDict: the contract ties the result to the time-period reading and to the parsed date. It does not state the order of those two reads, which matters only when both fail.
- InterviewRoutes.SubmitAnswer: a request that is not JSON is taken as having no body. Flask versions that raise on such a request instead reach the 500 handler.
- MediaUpload.CheckUpload: the stored type is classified from the uploaded name. The source classifies the name after `secure_filename`, which keeps the final extension of an allowed name.
- Tests written for other interview variants are not reconciled with routes/interview.py.
- Concurrent access to the session store is not modelled. The store is sequential, and last write wins.
- utils/filters.py is not modelled, because it depends on the local time zone.
- `calculatePosition` of static/js/timeline.js is not modelled; it is floating-point geometry.

## Findings

| source | as written | input that shows it | evidently intended | confidence | as-written member | corrected member |
|---|---|---|---|---|---|---|
| cards/base_card.py:115-117 | `update` tests `not value` before stripping, so a whitespace-only title or description passes and is stored as "" | `card.update(title="   ")` leaves `title == ""`, a card construction refuses | refuse a title or description that strips to empty, as `__post_init__` does | not executed | CardBase.BlankTitleSlipsThrough | CardBase.UpdateCheckedKeepsText |
| cards/person_card.py:11 | `name: str` without a default follows BaseCard's defaulted fields, so `@dataclass` raises TypeError when the class is defined | importing cards/person_card.py | a default for `name` (or keyword-only fields), so the class can be defined | not executed | DataclassFields.PersonCardDoesNotDefine | DataclassFields.PersonCardCorrectedDefines |

=== FILE: analysis.dfy ===
/** The section-header parser `_parse_analysis` of ai/assistant.py.

    The analysis text is split into lines; each line is stripped and
    lower-cased.  A line mentioning one of the three headers switches the
    current section and is not recorded; any other non-empty line is
    recorded under the current section, once there is one.
 */
module Analysis {
  import opened Outcomes
  import opened Text

  datatype Section = Emotions | KeyPoints | StoryArcs

  /** The returned dict: its three keys and their lists. */
  datatype Parsed = Parsed(emotions: seq<string>, keyPoints: seq<string>, storyArcs: seq<string>)

  function Items(p: Parsed, sec: Section): seq<string> {
    match sec
    case Emotions => p.emotions
    case KeyPoints => p.keyPoints
    case StoryArcs => p.storyArcs
  }

  /** A line as the parser sees it. */
  function Clean(line: string): string {
    Lower(Strip(line))
  }

  /** The header a cleaned line announces, testing the three in order. */
  function HeaderOf(line: string): (h: Option<Section>)
    ensures h == Some(Emotions) <==> Contains(line, "emotions:")
    ensures h.None? <==> !Contains(line, "emotions:") && !Contains(line, "key points:") && !Contains(line, "story arcs:")
  {
    if Contains(line, "emotions:") then Some(Emotions)
    else if Contains(line, "key points:") then Some(KeyPoints)
    else if Contains(line, "story arcs:") then Some(StoryArcs)
    else None
  }

  // ---------------------------------------------------------------------
  // Reference definition: what each section holds after reading `lines`

  /** The section in force after reading `lines`: the one announced by the
      last header line, if any. */
  function SectionAfter(lines: seq<string>): Option<Section> {
    if |lines| == 0 then None
    else
      var h := HeaderOf(Clean(lines[|lines| - 1]));
      if h.Some? then h else SectionAfter(lines[..|lines| - 1])
  }

  /** Whether line `i` of `lines` is recorded, and under which section. */
  function Destination(lines: seq<string>, i: nat): Option<Section>
    requires i < |lines|
  {
    var line := Clean(lines[i]);
    if HeaderOf(line).None? && line != "" then SectionAfter(lines[..i]) else None
  }

  /** The items of section `sec` after reading `lines`: the cleaned lines whose
      destination is `sec`, in input order. */
  function Collect(lines: seq<string>, sec: Section): seq<string> {
    if |lines| == 0 then []
    else
      var i := |lines| - 1;
      Collect(lines[..i], sec) + (if Destination(lines, i) == Some(sec) then [Clean(lines[i])] else [])
  }

  function Reference(lines: seq<string>): Parsed {
    Parsed(Collect(lines, Emotions), Collect(lines, KeyPoints), Collect(lines, StoryArcs))
  }

  // ---------------------------------------------------------------------
  // The parser

  /** `_parse_analysis(analysis)`, line by line as the source loops. */
  method ParseAnalysis(analysis: string) returns (r: Parsed)
    ensures r == Reference(Split(analysis, '\n'))
  {
    var lines := Split(analysis, '\n');
    var current: Option<Section> := None;
    var emotions, keyPoints, storyArcs := [], [], [];
    var i := 0;
    while i < |lines|
      invariant 0 <= i <= |lines|
      invariant current == SectionAfter(lines[..i])
      invariant Parsed(emotions, keyPoints, storyArcs) == Reference(lines[..i])
    {
      var line := Clean(lines[i]);
      ReadOneMore(lines, i);
      if Contains(line, "emotions:") {
        current := Some(Emotions);
      } else if Contains(line, "key points:") {
        current := Some(KeyPoints);
      } else if Contains(line, "story arcs:") {
        current := Some(StoryArcs);
      } else if line != "" && current.Some? {
        match current.value
        case Emotions => emotions := emotions + [line];
        case KeyPoints => keyPoints := keyPoints + [line];
        case StoryArcs => storyArcs := storyArcs + [line];
      }
      i := i + 1;
    }
    assert lines[..i] == lines;
    r := Parsed(emotions, keyPoints, storyArcs);
  }

  /** `p` with `item` appended to section `sec`. */
  function Record(p: Parsed, sec: Section, item: string): (q: Parsed)
    ensures Items(q, sec) == Items(p, sec) + [item]
    ensures forall other :: other != sec ==> Items(q, other) == Items(p, other)
  {
    match sec
    case Emotions => p.(emotions := p.emotions + [item])
    case KeyPoints => p.(keyPoints := p.keyPoints + [item])
    case StoryArcs => p.(storyArcs := p.storyArcs + [item])
  }

  /** Reading line `i` after the first `i` lines: a header switches the
      section; otherwise a non-empty line is recorded under the current one. */
  lemma ReadOneMore(lines: seq<string>, i: nat)
    requires i < |lines|
    ensures var line := Clean(lines[i]);
      var before := SectionAfter(lines[..i]);
      && SectionAfter(lines[..i + 1]) == (if HeaderOf(line).Some? then HeaderOf(line) else before)
      && Reference(lines[..i + 1]) ==
           (if HeaderOf(line).None? && line != "" && before.Some?
            then Record(Reference(lines[..i]), before.value, line)
            else Reference(lines[..i]))
  {
    var pre := lines[..i + 1];
    assert pre[..i] == lines[..i];
    assert pre[i] == lines[i];
    ReadLast(pre);
  }

  /** One section's items after the last line is read. */
  lemma CollectLast(lines: seq<string>, sec: Section)
    requires |lines| > 0
    ensures var i := |lines| - 1;
      Collect(lines, sec) ==
        if Destination(lines, i) == Some(sec) then Collect(lines[..i], sec) + [Clean(lines[i])]
        else Collect(lines[..i], sec)
  {
    var i := |lines| - 1;
    assert Collect(lines[..i], sec) + [] == Collect(lines[..i], sec);
  }

  /** Reading the last of `lines` after all the others. */
  lemma ReadLast(lines: seq<string>)
    requires |lines| > 0
    ensures var i := |lines| - 1;
      var line := Clean(lines[i]);
      var before := SectionAfter(lines[..i]);
      && SectionAfter(lines) == (if HeaderOf(line).Some? then HeaderOf(line) else before)
      && Reference(lines) ==
           (if HeaderOf(line).None? && line != "" && before.Some?
            then Record(Reference(lines[..i]), before.value, line)
            else Reference(lines[..i]))
  {
    var i := |lines| - 1;
    var line := Clean(lines[i]);
    var h := HeaderOf(line);
    var before := SectionAfter(lines[..i]);
    var dest := Destination(lines, i);
    assert dest == (if h.None? && line != "" then before else None);
    var p := Reference(lines[..i]);
    CollectLast(lines, Emotions);
    CollectLast(lines, KeyPoints);
    CollectLast(lines, StoryArcs);
    var r := Reference(lines);
    assert r == Parsed(Collect(lines, Emotions), Collect(lines, KeyPoints), Collect(lines, StoryArcs));
    if dest.Some? {
      var q := Record(p, dest.value, line);
      match dest.value
      case Emotions =>
        assert q == p.(emotions := p.emotions + [line]);
        assert r == q;
      case KeyPoints =>
        assert q == p.(keyPoints := p.keyPoints + [line]);
        assert r == q;
      case StoryArcs =>
        assert q == p.(storyArcs := p.storyArcs + [line]);
        assert r == q;
    } else {
      assert r == p;
    }
  }

  // ---------------------------------------------------------------------
  // Properties of the result

  /** A cleaned line is stripped, lower-case and announces no header when it is recorded. */
  predicate Recordable(item: string) {
    item != "" && IsLower(item) && Strip(item) == item && HeaderOf(item).None?
  }

  /** Cleaning is a fixpoint: a cleaned line is already lower-case and stripped. */
  lemma CleanIsNormal(line: string)
    ensures IsLower(Clean(line)) && Strip(Clean(line)) == Clean(line)
  {
    var s := Strip(line);
    var c := Clean(line);
    LowerIsLower(s);
    if |c| > 0 {
      LowerPreservesSpace(PySpaces, s[0]);
      LowerPreservesSpace(PySpaces, s[|s| - 1]);
    }
    StripLeftNoop(PySpaces, c);
    StripRightNoop(PySpaces, c);
  }

  /** Every recorded item is non-empty, lower-case, stripped and not a header. */
  lemma {:induction false} ItemsAreRecordable(lines: seq<string>, sec: Section)
    ensures forall k :: 0 <= k < |Collect(lines, sec)| ==> Recordable(Collect(lines, sec)[k])
    decreases |lines|
  {
    if |lines| > 0 {
      var i := |lines| - 1;
      ItemsAreRecordable(lines[..i], sec);
      CleanIsNormal(lines[i]);
    }
  }

  /** The three sections together hold at most one item per line. */
  lemma {:induction false} AtMostOneItemPerLine(lines: seq<string>)
    ensures |Collect(lines, Emotions)| + |Collect(lines, KeyPoints)| + |Collect(lines, StoryArcs)| <= |lines|
    decreases |lines|
  {
    if |lines| > 0 {
      AtMostOneItemPerLine(lines[..|lines| - 1]);
    }
  }

  /** Before any header line nothing is recorded. */
  lemma {:induction false} NothingBeforeAHeader(lines: seq<string>, sec: Section)
    requires SectionAfter(lines).None?
    ensures Collect(lines, sec) == []
    decreases |lines|
  {
    if |lines| > 0 {
      var i := |lines| - 1;
      NothingBeforeAHeader(lines[..i], sec);
    }
  }

  /** Recording depends only on lines read so far: appending a line appends at
      most that cleaned line, to exactly the current section. */
  lemma AppendLine(lines: seq<string>, line: string, sec: Section)
    ensures var d := Destination(lines + [line], |lines|);
      Collect(lines + [line], sec) == Collect(lines, sec) + (if d == Some(sec) then [Clean(line)] else [])
    ensures Destination(lines + [line], |lines|).Some? <==>
      Clean(line) != "" && HeaderOf(Clean(line)).None? && SectionAfter(lines).Some?
  {
    assert (lines + [line])[..|lines|] == lines;
  }
}

=== FILE: base_card.dfy ===
/** `BaseCard` of cards/base_card.py: the fields every card has, the
    validation and clean-up its constructor performs, its media list, the
    keyword `update`, and its dict form.

    The clock, `uuid4()` and the image generator are parameters: `now`,
    `newId` (the text of a new uuid, never empty) and the generator's outcome.
 */
module CardBase {
  import opened Outcomes
  import opened Text
  import opened Calendar
  import opened Seqs
  import Json
  import opened MediaRecord

  /** The text of a fresh `uuid4()`. */
  type Uuid = s: string | s != "" witness "0"

  /** What `generate_default_image` got from the image generator. */
  datatype ImageOutcome = Generated(url: string) | GenerationFailed

  const DefaultImage := "/static/images/default_card.png"

  datatype Card = Card(
    title: string,
    description: string,
    id: string,
    createdAt: DateTime,
    updatedAt: Option<DateTime>,
    metadata: Json.Value,
    imagePath: string,
    media: seq<Media>)

  /** Title and description are present and already stripped. */
  predicate TextValid(c: Card) {
    c.title != "" && Strip(c.title) == c.title && c.description != "" && Strip(c.description) == c.description
  }

  /** What every freshly constructed card satisfies. */
  predicate WellFormed(c: Card) {
    TextValid(c) && c.id != ""
  }

  /** The image path after `__post_init__`: a given path is kept; otherwise the
      generator's URL when it returns a non-empty one, the default picture
      when it raises, and the empty path when it returns nothing. */
  function ResolveImage(imagePath: string, image: ImageOutcome): (p: string)
    ensures imagePath != "" ==> p == imagePath
    ensures p == "" <==> imagePath == "" && image == Generated("")
  {
    if imagePath != "" then imagePath
    else
      match image
      case Generated(url) => url
      case GenerationFailed => DefaultImage
  }

  /** `BaseCard(...)`: the dataclass constructor followed by `__post_init__`. */
  function New(title: string, description: string, id: Option<string>, createdAt: DateTime,
               updatedAt: Option<DateTime>, metadata: Json.Value, imagePath: string, media: seq<Media>,
               newId: Uuid, image: ImageOutcome): (r: Result<Card>)
    // blank title or description is refused
    ensures r.Err? <==> Strip(title) == "" || Strip(description) == ""
    ensures r.Err? ==> r.error == ValueError
    ensures r.Ok? ==> WellFormed(r.value)
    ensures r.Ok? ==>
      && r.value.title == Strip(title) && r.value.description == Strip(description)
      && r.value.id == (if id.Some? && id.value != "" then id.value else newId)
      && r.value.imagePath == ResolveImage(imagePath, image)
      && r.value.metadata == (if metadata.Null? then Json.Object(map[]) else metadata)
      && r.value.createdAt == createdAt && r.value.updatedAt == updatedAt && r.value.media == media
  {
    if title == "" || Strip(title) == "" then Err(ValueError)
    else if description == "" || Strip(description) == "" then Err(ValueError)
    else
      StripIdempotent(PySpaces, title);
      StripIdempotent(PySpaces, description);
      Ok(Card(
        Strip(title), Strip(description),
        if id.Some? && id.value != "" then id.value else newId,
        createdAt, updatedAt,
        if metadata.Null? then Json.Object(map[]) else metadata,
        ResolveImage(imagePath, image),
        media))
  }

  /** `add_media(m)` at clock reading `now`. */
  function AddMedia(c: Card, m: Media, now: DateTime): (r: Card)
    ensures r.media == AddIfAbsent(c.media, m)
    ensures m in c.media ==> r == c
    ensures m !in c.media ==> r == c.(media := c.media + [m], updatedAt := Some(now))
  {
    if m in c.media then c else c.(media := c.media + [m], updatedAt := Some(now))
  }

  /** `remove_media(m)` at clock reading `now`. */
  function RemoveMedia(c: Card, m: Media, now: DateTime): (r: Card)
    ensures r.media == RemoveFirst(c.media, m)
    ensures m !in c.media ==> r == c
    ensures m in c.media ==> r == c.(media := RemoveFirst(c.media, m), updatedAt := Some(now))
  {
    if m in c.media then c.(media := RemoveFirst(c.media, m), updatedAt := Some(now)) else c
  }

  /** The media list never holds a duplicate, and adding what is there already changes nothing. */
  lemma MediaListsStayDuplicateFree(c: Card, m: Media, now: DateTime)
    requires NoDup(c.media)
    ensures NoDup(AddMedia(c, m, now).media) && NoDup(RemoveMedia(c, m, now).media)
    ensures m !in RemoveMedia(c, m, now).media
    ensures AddMedia(AddMedia(c, m, now), m, now) == AddMedia(c, m, now)
  {
    RemoveFirstNoDup(c.media, m);
  }

  /** Removing a just-added media item gives the media list back. */
  lemma RemoveUndoesAddMedia(c: Card, m: Media, now: DateTime)
    requires m !in c.media
    ensures RemoveMedia(AddMedia(c, m, now), m, now).media == c.media
  {
    RemoveUndoesAdd(c.media, m);
  }

  // ---------------------------------------------------------------------
  // update(**kwargs)

  /** A keyword of `update(**kwargs)` as the model handles it: one of the
      four attributes `update` can set to text, or a name the card has no
      attribute for, which the `hasattr` test skips. */
  datatype Key = TitleKey | DescriptionKey | IdKey | ImagePathKey | NoAttribute(name: string)

  /** The keys whose value must not be empty. */
  predicate Checked(k: Key) {
    k == TitleKey || k == DescriptionKey
  }

  function SetText(c: Card, key: Key, value: string): (r: Card)
    ensures key.NoAttribute? ==> r == c
    ensures key == TitleKey ==> r.title == value
    ensures key == DescriptionKey ==> r.description == value
    ensures r.title != c.title ==> key == TitleKey
    ensures r.description != c.description ==> key == DescriptionKey
    ensures r.createdAt == c.createdAt && r.updatedAt == c.updatedAt && r.media == c.media
      && r.metadata == c.metadata
  {
    match key
    case TitleKey => c.(title := value)
    case DescriptionKey => c.(description := value)
    case IdKey => c.(id := value)
    case ImagePathKey => c.(imagePath := value)
    case NoAttribute(_) => c
  }

  /** Setting an attribute to a stripped value, non-empty for title and
      description, keeps the card's text valid. */
  lemma SetTextKeepsText(c: Card, key: Key, value: string)
    requires TextValid(c) && Strip(value) == value
    requires Checked(key) ==> value != ""
    ensures TextValid(SetText(c, key, value))
  {
  }

  /** The card as far as `update` got, and the exception it raised, if any. */
  datatype Partial = Partial(card: Card, raised: Option<PyError>)

  /** The keyword loop of `update` as written: a title or description that is
      the empty string raises ValueError; every other value of an attribute
      is stripped and set; unknown names are skipped. */
  function ApplyAsWritten(c: Card, kwargs: seq<(Key, string)>): (p: Partial)
    ensures p.raised.Some? ==> p.raised.value == ValueError
    ensures p.card.createdAt == c.createdAt && p.card.updatedAt == c.updatedAt && p.card.media == c.media
    decreases |kwargs|
  {
    if |kwargs| == 0 then Partial(c, None)
    else
      var (k, v) := kwargs[0];
      if Checked(k) && v == "" then Partial(c, Some(ValueError))
      else ApplyAsWritten(SetText(c, k, Strip(v)), kwargs[1..])
  }

  /** The loop as written raises exactly when some title or description
      keyword is given the empty string. */
  lemma {:induction false} RaisesIffEmptyText(c: Card, kwargs: seq<(Key, string)>)
    ensures ApplyAsWritten(c, kwargs).raised.Some? <==>
      exists i :: 0 <= i < |kwargs| && Checked(kwargs[i].0) && kwargs[i].1 == ""
    decreases |kwargs|
  {
    if |kwargs| > 0 {
      var (k, v) := kwargs[0];
      var rest := kwargs[1..];
      if !(Checked(k) && v == "") {
        RaisesIffEmptyText(SetText(c, k, Strip(v)), rest);
        if exists i :: 0 <= i < |kwargs| && Checked(kwargs[i].0) && kwargs[i].1 == "" {
          var i :| 0 <= i < |kwargs| && Checked(kwargs[i].0) && kwargs[i].1 == "";
          assert rest[i - 1] == kwargs[i];
        }
        if exists i :: 0 <= i < |rest| && Checked(rest[i].0) && rest[i].1 == "" {
          var i :| 0 <= i < |rest| && Checked(rest[i].0) && rest[i].1 == "";
          assert kwargs[i + 1] == rest[i];
        }
      }
    }
  }

  /** `update(**kwargs)` at clock reading `now`, as written: `updated_at` is set
      only when the whole loop succeeds; keys applied before a failing one
      stay applied. */
  function Update(c: Card, kwargs: seq<(Key, string)>, now: DateTime): (p: Partial)
    ensures p.raised.None? ==> p.card == ApplyAsWritten(c, kwargs).card.(updatedAt := Some(now))
    ensures p.raised.Some? ==> p == ApplyAsWritten(c, kwargs) && p.card.updatedAt == c.updatedAt
  {
    var p := ApplyAsWritten(c, kwargs);
    if p.raised.None? then p.(card := p.card.(updatedAt := Some(now))) else p
  }

  /** The keywords are handled one at a time, in order: a prefix that goes
      through is applied in full before the rest is looked at. */
  lemma {:induction false} ApplyAsWrittenSplits(c: Card, pre: seq<(Key, string)>, post: seq<(Key, string)>)
    requires ApplyAsWritten(c, pre).raised.None?
    ensures ApplyAsWritten(c, pre + post) == ApplyAsWritten(ApplyAsWritten(c, pre).card, post)
    decreases |pre|
  {
    if |pre| == 0 {
      assert pre + post == post;
    } else {
      var all := pre + post;
      assert all[0] == pre[0];
      assert all[1..] == pre[1..] + post;
      var (k, v) := pre[0];
      var c' := SetText(c, k, Strip(v));
      assert ApplyAsWritten(c, pre) == ApplyAsWritten(c', pre[1..]);
      ApplyAsWrittenSplits(c', pre[1..], post);
    }
  }

  /** A failing key keeps what the keys before it set, and `updated_at` is left alone. */
  lemma EarlierKeysStayApplied(c: Card, pre: seq<(Key, string)>, key: Key, post: seq<(Key, string)>, now: DateTime)
    requires Checked(key)
    requires ApplyAsWritten(c, pre).raised.None?
    ensures var p := Update(c, pre + [(key, "")] + post, now);
      p == Partial(ApplyAsWritten(c, pre).card, Some(ValueError)) && p.card.updatedAt == c.updatedAt
  {
    var tail := [(key, "")] + post;
    assert pre + [(key, "")] + post == pre + tail;
    ApplyAsWrittenSplits(c, pre, tail);
    assert tail[0] == (key, "");
  }

  /** Unknown names are ignored: the card is left as it was. */
  lemma {:induction false} UnknownKeysIgnored(c: Card, kwargs: seq<(Key, string)>)
    requires forall i :: 0 <= i < |kwargs| ==> kwargs[i].0.NoAttribute?
    ensures ApplyAsWritten(c, kwargs) == Partial(c, None)
    decreases |kwargs|
  {
    if |kwargs| > 0 {
      var rest := kwargs[1..];
      assert forall i :: 0 <= i < |rest| ==> rest[i] == kwargs[i + 1];
      assert SetText(c, kwargs[0].0, Strip(kwargs[0].1)) == c;
      UnknownKeysIgnored(c, rest);
    }
  }

  /** As written, the emptiness test looks at the value before stripping, so a
      whitespace title passes the test and is stored as the empty string. */
  lemma BlankTitleSlipsThrough(c: Card, v: string, now: DateTime)
    requires v != "" && AllSpace(PySpaces, v)
    ensures var p := Update(c, [(TitleKey, v)], now);
      p.raised.None? && p.card.title == "" && !TextValid(p.card)
  {
    StripEmptyIffAllSpace(PySpaces, v);
    var kw := [(TitleKey, v)];
    assert kw[0] == (TitleKey, v) && kw[1..] == [];
    var c' := SetText(c, TitleKey, Strip(v));
    assert c'.title == "";
    assert ApplyAsWritten(c, kw) == ApplyAsWritten(c', []);
  }

  /** The keyword loop with the emptiness test applied to the stripped value. */
  function ApplyChecked(c: Card, kwargs: seq<(Key, string)>): (p: Partial)
    ensures p.raised.Some? ==> p.raised.value == ValueError
    ensures p.card.createdAt == c.createdAt && p.card.updatedAt == c.updatedAt && p.card.media == c.media
    decreases |kwargs|
  {
    if |kwargs| == 0 then Partial(c, None)
    else
      match NextChecked(c, kwargs[0].0, kwargs[0].1)
      case None => Partial(c, Some(ValueError))
      case Some(c') => ApplyChecked(c', kwargs[1..])
  }

  /** `update` with the emptiness test on the stripped value. */
  function UpdateChecked(c: Card, kwargs: seq<(Key, string)>, now: DateTime): (p: Partial)
    ensures p.raised.Some? ==> p.card.updatedAt == c.updatedAt
  {
    var p := ApplyChecked(c, kwargs);
    if p.raised.None? then p.(card := p.card.(updatedAt := Some(now))) else p
  }

  /** The checked update keeps title and description non-empty and stripped,
      whether it succeeds or stops at a blank value. */
  lemma {:induction false} ApplyCheckedKeepsText(c: Card, kwargs: seq<(Key, string)>)
    requires TextValid(c)
    ensures TextValid(ApplyChecked(c, kwargs).card)
    decreases |kwargs|
  {
    if |kwargs| > 0 {
      var k, v := kwargs[0].0, kwargs[0].1;
      var next := NextChecked(c, k, v);
      if next.Some? {
        assert ApplyChecked(c, kwargs) == ApplyChecked(next.value, kwargs[1..]);
        StripIdempotent(PySpaces, v);
        SetTextKeepsText(c, k, Strip(v));
        ApplyCheckedKeepsText(next.value, kwargs[1..]);
      }
    }
  }

  /** The card after one checked keyword, or None when the keyword is refused. */
  function NextChecked(c: Card, k: Key, v: string): (r: Option<Card>)
    ensures r.None? <==> Checked(k) && Strip(v) == ""
    ensures r.Some? ==> r.value == SetText(c, k, Strip(v))
  {
    if Checked(k) && Strip(v) == "" then None
    else Some(SetText(c, k, Strip(v)))
  }

  lemma UpdateCheckedKeepsText(c: Card, kwargs: seq<(Key, string)>, now: DateTime)
    requires TextValid(c)
    ensures TextValid(UpdateChecked(c, kwargs, now).card)
  {
    ApplyCheckedKeepsText(c, kwargs);
  }

  /** Where no title or description is whitespace-only, both versions agree. */
  lemma {:induction false} CheckedAgreesOnNonBlank(c: Card, kwargs: seq<(Key, string)>)
    requires forall i :: 0 <= i < |kwargs| && Checked(kwargs[i].0) ==>
      (kwargs[i].1 == "" <==> Strip(kwargs[i].1) == "")
    ensures ApplyChecked(c, kwargs) == ApplyAsWritten(c, kwargs)
    decreases |kwargs|
  {
    if |kwargs| > 0 {
      var k, v := kwargs[0].0, kwargs[0].1;
      var rest := kwargs[1..];
      assert forall i :: 0 <= i < |rest| ==> rest[i] == kwargs[i + 1];
      if Checked(k) && v == "" {
        assert NextChecked(c, k, v).None?;
      } else {
        assert NextChecked(c, k, v) == Some(SetText(c, k, Strip(v)));
        CheckedAgreesOnNonBlank(SetText(c, k, Strip(v)), rest);
      }
    }
  }

  // ---------------------------------------------------------------------
  // The dict form

  /** The dict `to_dict` produces; every key may be missing from input data. */
  datatype CardDict = CardDict(
    id: Entry<string>,
    title: Entry<string>,
    description: Entry<string>,
    createdAt: Entry<string>,
    updatedAt: Entry<Option<string>>,
    metadata: Entry<Json.Value>,
    imagePath: Entry<string>,
    media: Entry<seq<MediaDict>>)

  predicate MediaValid(ms: seq<Media>) {
    forall i :: 0 <= i < |ms| ==> Valid(ms[i].createdAt)
  }

  function MediaToDicts(ms: seq<Media>): (ds: seq<MediaDict>)
    requires MediaValid(ms)
    ensures |ds| == |ms|
    ensures forall i :: 0 <= i < |ms| ==> ds[i] == MediaRecord.ToDict(ms[i])
  {
    seq(|ms|, i requires 0 <= i < |ms| => MediaRecord.ToDict(ms[i]))
  }

  /** `[Media.from_dict(m) for m in ds]`: the first failure is raised. */
  function MediaFromDicts(ds: seq<MediaDict>, now: DateTime): (r: Result<seq<Media>>)
    requires Valid(now)
    ensures r.Ok? ==> |r.value| == |ds| && MediaValid(r.value)
    ensures r.Ok? ==> forall i :: 0 <= i < |ds| ==> MediaRecord.FromDict(ds[i], now) == Ok(r.value[i])
    ensures r.Err? ==> exists i :: 0 <= i < |ds| && MediaRecord.FromDict(ds[i], now).Err?
    decreases |ds|
  {
    if |ds| == 0 then Ok([])
    else
      match MediaRecord.FromDict(ds[0], now)
      case Err(e) => Err(e)
      case Ok(m) =>
        var tail := ds[1..];
        assert forall i :: 0 <= i < |tail| ==> tail[i] == ds[i + 1];
        match MediaFromDicts(tail, now)
        case Err(e) => Err(e)
        case Ok(rest) =>
          assert forall i :: 0 < i < |ds| ==> ([m] + rest)[i] == rest[i - 1];
          Ok([m] + rest)
  }

  lemma {:induction false} MediaListRoundTrip(ms: seq<Media>, now: DateTime)
    requires MediaValid(ms) && Valid(now)
    ensures MediaFromDicts(MediaToDicts(ms), now) == Ok(ms)
    decreases |ms|
  {
    if |ms| > 0 {
      var ds := MediaToDicts(ms);
      assert ds[1..] == MediaToDicts(ms[1..]);
      MediaListRoundTrip(ms[1..], now);
      MediaRecord.DictRoundTrip(ms[0], now);
      MediaFromDictsCons(ds, now, ms[0], ms[1..]);
      assert ms == [ms[0]] + ms[1..];
    }
  }

  /** One step of the list comprehension. */
  lemma MediaFromDictsCons(ds: seq<MediaDict>, now: DateTime, m: Media, rest: seq<Media>)
    requires Valid(now) && |ds| > 0
    requires MediaRecord.FromDict(ds[0], now) == Ok(m) && MediaFromDicts(ds[1..], now) == Ok(rest)
    ensures MediaFromDicts(ds, now) == Ok([m] + rest)
  {
  }

  /** `to_dict()`: an unset `updated_at` is written as None. */
  function ToDict(c: Card): (d: CardDict)
    requires Valid(c.createdAt) && (c.updatedAt.Some? ==> Valid(c.updatedAt.value)) && MediaValid(c.media)
    ensures d.id == Has(c.id) && d.title == Has(c.title) && d.description == Has(c.description)
    ensures d.metadata == Has(c.metadata) && d.imagePath == Has(c.imagePath)
    ensures d.createdAt.Has? && IsoParse(d.createdAt.value) == Ok(c.createdAt)
    ensures d.updatedAt.Has? && (d.updatedAt.value.None? <==> c.updatedAt.None?)
    ensures c.updatedAt.Some? ==> IsoParse(d.updatedAt.value.value) == Ok(c.updatedAt.value)
    ensures d.media == Has(MediaToDicts(c.media))
  {
    IsoRoundTrip(c.createdAt);
    assert c.updatedAt.Some? ==> IsoParse(IsoFormat(c.updatedAt.value)) == Ok(c.updatedAt.value) by {
      if c.updatedAt.Some? { IsoRoundTrip(c.updatedAt.value); }
    }
    CardDict(Has(c.id), Has(c.title), Has(c.description), Has(IsoFormat(c.createdAt)),
             Has(if c.updatedAt.Some? then Some(IsoFormat(c.updatedAt.value)) else None),
             Has(c.metadata), Has(c.imagePath), Has(MediaToDicts(c.media)))
  }

  /** `fromisoformat` applied to `updated_at` when the key is present; None
      there raises TypeError. */
  function ReadUpdatedAt(e: Entry<Option<string>>): (r: Result<Option<DateTime>>)
    ensures e.Missing? ==> r == Ok(None)
    ensures e == Has(None) ==> r == Err(TypeError)
    ensures r.Ok? && r.value.Some? ==> Valid(r.value.value)
  {
    match e
    case Missing => Ok(None)
    case Has(None) => Err(TypeError)
    case Has(Some(s)) =>
      match IsoParse(s)
      case Err(err) => Err(err)
      case Ok(t) => Ok(Some(t))
  }

  /** Python's truth value of an optional text: present, not None and not empty. */
  predicate TruthyText(e: Entry<Option<string>>) {
    e.Has? && e.value.Some? && e.value.value != ""
  }

  /** `datetime.fromisoformat(data[k]) if data.get(k) else None`. */
  function ReadIfTruthy(e: Entry<Option<string>>): (r: Result<Option<DateTime>>)
    ensures !TruthyText(e) ==> r == Ok(None)
    ensures TruthyText(e) ==> (r.Ok? <==> IsoParse(e.value.value).Ok?)
    ensures r.Ok? && r.value.Some? ==> TruthyText(e) && IsoParse(e.value.value) == Ok(r.value.value)
  {
    if TruthyText(e) then
      match IsoParse(e.value.value)
      case Err(err) => Err(err)
      case Ok(t) => Ok(Some(t))
    else Ok(None)
  }

  /** `[read(x) for x in data[k]] if data.get(k) else []`: a missing or empty
      list reads as the empty list. */
  function ReadListIfTruthy<D, T>(e: Entry<seq<D>>, read: D -> Result<T>): (r: Result<seq<T>>)
    ensures e.Missing? || e.value == [] ==> r == Ok([])
    ensures e.Has? && e.value != [] ==> r == MapAll(e.value, read)
  {
    if e.Has? && e.value != [] then MapAll(e.value, read) else Ok([])
  }

  /** A list written element by element reads back as itself. */
  lemma ListRoundTrip<T, D>(xs: seq<T>, write: T -> Result<D>, read: D -> Result<T>)
    requires forall i :: 0 <= i < |xs| ==> write(xs[i]).Ok? && read(write(xs[i]).value) == Ok(xs[i])
    ensures MapAll(xs, write).Ok? && ReadListIfTruthy(Has(MapAll(xs, write).value), read) == Ok(xs)
  {
    MapAllInverse(xs, write, read);
  }

  /** The keyword arguments `from_dict` passes to the class's constructor. */
  datatype Args = Args(
    title: string,
    description: string,
    id: Option<string>,
    createdAt: DateTime,
    updatedAt: Option<DateTime>,
    metadata: Json.Value,
    imagePath: string,
    media: seq<Media>)

  /** The reads `BaseCard.from_dict(data)` performs before it calls the
      constructor: the truthiness of title and description, then the media,
      `created_at` (now when absent) and `updated_at`. */
  function ReadArgs(d: CardDict, now: DateTime): (r: Result<Args>)
    requires Valid(now)
    // an absent or empty title or description is refused first
    ensures d.title.GetOr("") == "" || d.description.GetOr("") == "" ==> r == Err(ValueError)
    ensures r.Ok? <==>
      && d.title.GetOr("") != "" && d.description.GetOr("") != ""
      && MediaFromDicts(d.media.GetOr([]), now).Ok?
      && (d.createdAt.Has? ==> IsoParse(d.createdAt.value).Ok?)
      && ReadUpdatedAt(d.updatedAt).Ok?
    ensures r.Ok? ==>
      && r.value.title == d.title.value && r.value.description == d.description.value
      && r.value.id == (if d.id.Has? then Some(d.id.value) else None)
      && MediaFromDicts(d.media.GetOr([]), now) == Ok(r.value.media)
      && (d.createdAt.Has? ==> IsoParse(d.createdAt.value) == Ok(r.value.createdAt))
      && (d.createdAt.Missing? ==> r.value.createdAt == now)
      && ReadUpdatedAt(d.updatedAt) == Ok(r.value.updatedAt)
      && r.value.metadata == d.metadata.GetOr(Json.Object(map[]))
      && r.value.imagePath == d.imagePath.GetOr("")
    ensures r.Ok? ==> Valid(r.value.createdAt)
    // a present `updated_at` of None cannot be parsed
    ensures d.updatedAt == Has(None) && d.title.GetOr("") != "" && d.description.GetOr("") != ""
            && MediaFromDicts(d.media.GetOr([]), now).Ok? && IsoParse(d.createdAt.GetOr(IsoFormat(now))).Ok? ==>
      r == Err(TypeError)
  {
    if d.title.GetOr("") == "" then Err(ValueError)
    else if d.description.GetOr("") == "" then Err(ValueError)
    else
      var media :- MediaFromDicts(d.media.GetOr([]), now);
      var created :- if d.createdAt.Has? then IsoParse(d.createdAt.value) else Ok(now);
      var updated :- ReadUpdatedAt(d.updatedAt);
      Ok(Args(d.title.value, d.description.value, if d.id.Has? then Some(d.id.value) else None, created, updated,
              d.metadata.GetOr(Json.Object(map[])), d.imagePath.GetOr(""), media))
  }

  /** `BaseCard.from_dict(data)` at clock reading `now`, with `newId` and
      `image` feeding the constructor it calls. */
  function FromDict(d: CardDict, now: DateTime, newId: Uuid, image: ImageOutcome): (r: Result<Card>)
    requires Valid(now)
    // an absent or empty title or description is refused first
    ensures d.title.GetOr("") == "" || d.description.GetOr("") == "" ==> r == Err(ValueError)
    // a present `updated_at` of None cannot be parsed
    ensures d.updatedAt == Has(None) && d.title.GetOr("") != "" && d.description.GetOr("") != ""
            && MediaFromDicts(d.media.GetOr([]), now).Ok? && IsoParse(d.createdAt.GetOr(IsoFormat(now))).Ok? ==>
      r == Err(TypeError)
    // the reads fail first; then the constructor refuses blank text
    ensures ReadArgs(d, now).Err? ==> r == Err(ReadArgs(d, now).error)
    ensures ReadArgs(d, now).Ok? ==>
      (r.Err? <==> Strip(d.title.value) == "" || Strip(d.description.value) == "")
    ensures r.Ok? ==> WellFormed(r.value) && Valid(r.value.createdAt)
    // every field comes from the dict, with the constructor's defaults
    ensures r.Ok? ==>
      && r.value.title == Strip(d.title.value) && r.value.description == Strip(d.description.value)
      && r.value.id == (if d.id.GetOr("") != "" then d.id.value else newId)
      && (d.createdAt.Has? ==> IsoParse(d.createdAt.value) == Ok(r.value.createdAt))
      && (d.createdAt.Missing? ==> r.value.createdAt == now)
      && ReadUpdatedAt(d.updatedAt) == Ok(r.value.updatedAt)
      && MediaFromDicts(d.media.GetOr([]), now) == Ok(r.value.media)
      && r.value.metadata == (if d.metadata == Has(Json.Null) then Json.Object(map[]) else d.metadata.GetOr(Json.Object(map[])))
      && r.value.imagePath == ResolveImage(d.imagePath.GetOr(""), image)
  {
    match ReadArgs(d, now)
    case Err(e) => Err(e)
    case Ok(a) =>
      ConstructFromArgs(d, now, a, newId, image);
      New(a.title, a.description, a.id, a.createdAt, a.updatedAt, a.metadata, a.imagePath, a.media, newId, image)
  }

  /** The constructor, called with the arguments read from `d`, keeps the
      dict's values with its own defaults filled in. */
  lemma ConstructFromArgs(d: CardDict, now: DateTime, a: Args, newId: Uuid, image: ImageOutcome)
    requires Valid(now) && ReadArgs(d, now) == Ok(a)
    ensures var r := New(a.title, a.description, a.id, a.createdAt, a.updatedAt, a.metadata, a.imagePath, a.media, newId, image);
      && (r.Err? <==> Strip(d.title.value) == "" || Strip(d.description.value) == "")
      && (r.Ok? ==>
        && r.value.id == (if d.id.GetOr("") != "" then d.id.value else newId)
        && r.value.metadata == (if d.metadata == Has(Json.Null) then Json.Object(map[]) else d.metadata.GetOr(Json.Object(map[])))
        && r.value.imagePath == ResolveImage(d.imagePath.GetOr(""), image))
  {
  }

  /** `from_dict(to_dict(c))` gives `c` back for a well-formed card with an
      image and a set `updated_at`. */
  lemma DictRoundTrip(c: Card, now: DateTime, newId: Uuid, image: ImageOutcome)
    requires WellFormed(c) && c.imagePath != "" && c.updatedAt.Some? && c.metadata != Json.Null
    requires Valid(c.createdAt) && Valid(c.updatedAt.value) && MediaValid(c.media) && Valid(now)
    ensures FromDict(ToDict(c), now, newId, image) == Ok(c)
  {
    var d := ToDict(c);
    MediaListRoundTrip(c.media, now);
    assert ReadUpdatedAt(d.updatedAt) == Ok(c.updatedAt);
    ReadArgsParts(d, now, c.media, c.createdAt, c.updatedAt);
    NewKeepsWellFormed(c, newId, image);
  }

  /** `ReadArgs` assembled from the results of its reads. */
  lemma ReadArgsParts(d: CardDict, now: DateTime, media: seq<Media>, created: DateTime, updated: Option<DateTime>)
    requires Valid(now) && d.title.GetOr("") != "" && d.description.GetOr("") != ""
    requires MediaFromDicts(d.media.GetOr([]), now) == Ok(media)
    requires d.createdAt.Has? && IsoParse(d.createdAt.value) == Ok(created)
    requires ReadUpdatedAt(d.updatedAt) == Ok(updated)
    ensures ReadArgs(d, now) == Ok(Args(d.title.value, d.description.value, if d.id.Has? then Some(d.id.value) else None,
                                        created, updated, d.metadata.GetOr(Json.Object(map[])), d.imagePath.GetOr(""), media))
  {
  }

  /** Constructing a card from the fields of a well-formed one gives it back. */
  lemma NewKeepsWellFormed(c: Card, newId: Uuid, image: ImageOutcome)
    requires WellFormed(c) && c.imagePath != "" && c.metadata != Json.Null
    ensures New(c.title, c.description, Some(c.id), c.createdAt, c.updatedAt, c.metadata, c.imagePath, c.media, newId, image) == Ok(c)
  {
  }

  /** A card whose `updated_at` was never set does not survive the round trip:
      `to_dict` writes None and `from_dict` cannot parse it. */
  lemma UnsetUpdatedAtBreaksRoundTrip(c: Card, now: DateTime, newId: Uuid, image: ImageOutcome)
    requires WellFormed(c) && c.updatedAt.None?
    requires Valid(c.createdAt) && MediaValid(c.media) && Valid(now)
    ensures FromDict(ToDict(c), now, newId, image) == Err(TypeError)
  {
    MediaListRoundTrip(c.media, now);
  }
}

=== FILE: calendar.dfy ===
/** Python `datetime` values as the repository uses them: construction with
    range checks, truncation to midnight, adding one day (Gregorian leap
    rules), chronological order, and the `isoformat` / `fromisoformat`
    text form the serialisers write and read back.
 */
module Calendar {
  import opened Outcomes

  /** A naive `datetime.datetime` (no time zone). */
  datatype DateTime = DateTime(year: int, month: int, day: int,
                               hour: int, minute: int, second: int, microsecond: int)

  const MinYear := 1
  const MaxYear := 9999

  predicate IsLeap(y: int) {
    y % 4 == 0 && (y % 100 != 0 || y % 400 == 0)
  }

  function DaysInMonth(y: int, m: int): (n: int)
    requires 1 <= m <= 12
    ensures 28 <= n <= 31
  {
    if m == 2 then (if IsLeap(y) then 29 else 28)
    else if m == 4 || m == 6 || m == 9 || m == 11 then 30
    else 31
  }

  function DaysInYear(y: int): int {
    if IsLeap(y) then 366 else 365
  }

  /** The field ranges `datetime(...)` accepts; any other value raises ValueError. */
  predicate Valid(d: DateTime) {
    && MinYear <= d.year <= MaxYear
    && 1 <= d.month <= 12
    && 1 <= d.day <= DaysInMonth(d.year, d.month)
    && 0 <= d.hour < 24 && 0 <= d.minute < 60 && 0 <= d.second < 60
    && 0 <= d.microsecond < 1000000
  }

  /** `datetime(year, month, day, hour, minute, second)`. */
  function Make(year: int, month: int, day: int, hour: int, minute: int, second: int): (r: Result<DateTime>)
    ensures r.Ok? <==> Valid(DateTime(year, month, day, hour, minute, second, 0))
    ensures r.Ok? ==> r.value == DateTime(year, month, day, hour, minute, second, 0)
    ensures r.Err? ==> r.error == ValueError
  {
    var d := DateTime(year, month, day, hour, minute, second, 0);
    if Valid(d) then Ok(d) else Err(ValueError)
  }

  // ---------------------------------------------------------------------
  // Day numbers

  /** Days in the years before `y`, counting from year 1. */
  function DaysBeforeYear(y: int): int
    decreases y
  {
    if y <= MinYear then 0 else DaysBeforeYear(y - 1) + DaysInYear(y - 1)
  }

  /** Days in the months of year `y` before month `m`. */
  function DaysBeforeMonth(y: int, m: int): int
    requires 1 <= m <= 13
    decreases m
  {
    if m == 1 then 0 else DaysBeforeMonth(y, m - 1) + DaysInMonth(y, m - 1)
  }

  /** The proleptic Gregorian day number of a date (1 for 0001-01-01), as `date.toordinal()`. */
  function Ordinal(d: DateTime): int
    requires 1 <= d.month <= 12
  {
    DaysBeforeYear(d.year) + DaysBeforeMonth(d.year, d.month) + d.day
  }

  /** The twelve months add up to the length of the year. */
  lemma MonthsFillYear(y: int)
    ensures DaysBeforeMonth(y, 13) == DaysInYear(y)
  {
  }

  /** The calendar day after the date of `d`, at midnight. */
  function NextDay(d: DateTime): (r: DateTime)
    requires Valid(d)
    ensures r.hour == 0 && r.minute == 0 && r.second == 0 && r.microsecond == 0
    ensures d.year < MaxYear || d.month < 12 || d.day < 31 ==> Valid(r)
  {
    if d.day < DaysInMonth(d.year, d.month) then DateTime(d.year, d.month, d.day + 1, 0, 0, 0, 0)
    else if d.month < 12 then DateTime(d.year, d.month + 1, 1, 0, 0, 0, 0)
    else DateTime(d.year + 1, 1, 1, 0, 0, 0, 0)
  }

  /** The next day is exactly one day number later, across month and year ends. */
  lemma NextDayOrdinal(d: DateTime)
    requires Valid(d)
    ensures Ordinal(NextDay(d)) == Ordinal(d) + 1
  {
    if d.day == DaysInMonth(d.year, d.month) && d.month == 12 {
      MonthsFillYear(d.year);
    }
  }

  /** `d.replace(hour=0, minute=0, second=0, microsecond=0)`. */
  function Midnight(d: DateTime): (r: DateTime)
    requires Valid(d)
    ensures Valid(r)
    ensures r.year == d.year && r.month == d.month && r.day == d.day
    ensures r.hour == 0 && r.minute == 0 && r.second == 0 && r.microsecond == 0
  {
    d.(hour := 0, minute := 0, second := 0, microsecond := 0)
  }

  /** `d + timedelta(days=1)` for a value at midnight; past year 9999 Python raises OverflowError. */
  function AddOneDay(d: DateTime): (r: Result<DateTime>)
    requires Valid(d)
    ensures r.Err? <==> d.year == MaxYear && d.month == 12 && d.day == 31
    ensures r.Err? ==> r.error == OverflowError
    ensures r.Ok? ==> Valid(r.value) && Ordinal(r.value) == Ordinal(d) + 1
  {
    if d.year == MaxYear && d.month == 12 && d.day == 31 then Err(OverflowError)
    else
      NextDayOrdinal(d);
      Ok(NextDay(d))
  }

  // ---------------------------------------------------------------------
  // Chronological order

  /** `a < b` on datetimes: lexicographic on the fields, most significant first. */
  predicate Before(a: DateTime, b: DateTime) {
    if a.year != b.year then a.year < b.year
    else if a.month != b.month then a.month < b.month
    else if a.day != b.day then a.day < b.day
    else if a.hour != b.hour then a.hour < b.hour
    else if a.minute != b.minute then a.minute < b.minute
    else if a.second != b.second then a.second < b.second
    else a.microsecond < b.microsecond
  }

  predicate AtOrBefore(a: DateTime, b: DateTime) {
    a == b || Before(a, b)
  }

  /** A datetime lies strictly before the start of the next day, and its own midnight is not after it. */
  lemma DayBounds(d: DateTime)
    requires Valid(d)
    ensures AtOrBefore(Midnight(d), d)
    ensures Before(d, NextDay(d))
  {
  }

  // ---------------------------------------------------------------------
  // ISO 8601 text

  function Pow10(n: nat): (p: nat)
    ensures p >= 1
  {
    if n == 0 then 1 else 10 * Pow10(n - 1)
  }

  predicate IsDigit(c: char) {
    '0' <= c <= '9'
  }

  predicate AllDigits(s: string) {
    forall i :: 0 <= i < |s| ==> IsDigit(s[i])
  }

  /** `n` written in decimal with exactly `width` digits (`%0<width>d`). */
  function Pad(n: nat, width: nat): (s: string)
    requires n < Pow10(width)
    ensures |s| == width && AllDigits(s)
  {
    if width == 0 then ""
    else Pad(n / 10, width - 1) + [('0' as int + n % 10) as char]
  }

  /** The value of a string of decimal digits. */
  function DigitsValue(s: string): nat
    requires AllDigits(s)
  {
    if |s| == 0 then 0
    else 10 * DigitsValue(s[..|s| - 1]) + (s[|s| - 1] as int - '0' as int)
  }

  /** Reading back a padded number gives the number. */
  lemma {:induction false} PadRoundTrip(n: nat, width: nat)
    requires n < Pow10(width)
    ensures DigitsValue(Pad(n, width)) == n
  {
    if width > 0 {
      PadRoundTrip(n / 10, width - 1);
      var s := Pad(n, width);
      assert s[..|s| - 1] == Pad(n / 10, width - 1);
    }
  }

  /** `YYYY-MM-DD`. */
  function IsoDate(d: DateTime): (s: string)
    requires Valid(d)
    ensures |s| == 10 && s[4] == '-' && s[7] == '-'
    ensures s[0..4] == Pad(d.year, 4) && s[5..7] == Pad(d.month, 2) && s[8..10] == Pad(d.day, 2)
  {
    Pad(d.year, 4) + "-" + Pad(d.month, 2) + "-" + Pad(d.day, 2)
  }

  /** `HH:MM:SS`. */
  function IsoTime(d: DateTime): (s: string)
    requires Valid(d)
    ensures |s| == 8 && s[2] == ':' && s[5] == ':'
    ensures s[0..2] == Pad(d.hour, 2) && s[3..5] == Pad(d.minute, 2) && s[6..8] == Pad(d.second, 2)
  {
    Pad(d.hour, 2) + ":" + Pad(d.minute, 2) + ":" + Pad(d.second, 2)
  }

  /** `.ffffff` when the microsecond is not zero, otherwise nothing. */
  function IsoFraction(d: DateTime): (s: string)
    requires Valid(d)
    ensures d.microsecond == 0 ==> s == ""
    ensures d.microsecond != 0 ==> |s| == 7 && s[0] == '.' && s[1..7] == Pad(d.microsecond, 6)
  {
    if d.microsecond == 0 then "" else "." + Pad(d.microsecond, 6)
  }

  /** `d.isoformat()`: `YYYY-MM-DDTHH:MM:SS`, followed by `.ffffff` only when the microsecond is not zero. */
  function IsoFormat(d: DateTime): (s: string)
    requires Valid(d)
    ensures |s| == (if d.microsecond == 0 then 19 else 26)
    ensures s[4] == '-' && s[7] == '-' && s[10] == 'T' && s[13] == ':' && s[16] == ':'
    ensures d.microsecond != 0 ==> s[19] == '.'
  {
    IsoDate(d) + "T" + IsoTime(d) + IsoFraction(d)
  }

  /** The numeric field at `s[from..from + width]`, if it is all digits. */
  function Field(s: string, from: nat, width: nat): Option<nat>
    requires from + width <= |s|
  {
    if AllDigits(s[from..from + width]) then Some(DigitsValue(s[from..from + width])) else None
  }

  /** A time of day as `fromisoformat` reads it. */
  datatype Clock = Clock(hour: nat, minute: nat, second: nat, microsecond: nat)

  /** The time part of `fromisoformat`: `HH`, `HH:MM`, `HH:MM:SS`, then
      optionally `.fff` or `.ffffff` (milliseconds or microseconds).  Missing
      components read as zero; any other shape raises ValueError.  Range
      checks are left to the caller. */
  function TimeParse(t: string): (r: Result<Clock>)
    ensures r.Err? ==> r.error == ValueError
    ensures r.Ok? ==> |t| in {2, 5, 8, 12, 15}
    ensures r.Ok? ==> Field(t, 0, 2) == Some(r.value.hour)
    ensures r.Ok? && |t| >= 5 ==> t[2] == ':' && Field(t, 3, 2) == Some(r.value.minute)
    ensures r.Ok? && |t| < 5 ==> r.value.minute == 0
    ensures r.Ok? && |t| >= 8 ==> t[5] == ':' && Field(t, 6, 2) == Some(r.value.second)
    ensures r.Ok? && |t| < 8 ==> r.value.second == 0
    ensures r.Ok? && |t| == 12 ==> t[8] == '.' && Field(t, 9, 3).Some? && r.value.microsecond == 1000 * Field(t, 9, 3).value
    ensures r.Ok? && |t| == 15 ==> t[8] == '.' && Field(t, 9, 6) == Some(r.value.microsecond)
    ensures r.Ok? && |t| < 12 ==> r.value.microsecond == 0
  {
    if |t| !in {2, 5, 8, 12, 15} then Err(ValueError)
    else if |t| >= 5 && t[2] != ':' then Err(ValueError)
    else if |t| >= 8 && t[5] != ':' then Err(ValueError)
    else if |t| >= 12 && t[8] != '.' then Err(ValueError)
    else
      var h := Field(t, 0, 2);
      var mi := if |t| >= 5 then Field(t, 3, 2) else Some(0);
      var se := if |t| >= 8 then Field(t, 6, 2) else Some(0);
      var us := if |t| == 12 then (if Field(t, 9, 3).Some? then Some(1000 * Field(t, 9, 3).value) else None)
                else if |t| == 15 then Field(t, 9, 6) else Some(0);
      if h.None? || mi.None? || se.None? || us.None? then Err(ValueError)
      else Ok(Clock(h.value, mi.value, se.value, us.value))
  }

  /** `datetime.fromisoformat(s)` for naive date-times: `YYYY-MM-DD`, alone
      or followed by any one separator character and a time `TimeParse`
      accepts.  Any other shape, and out-of-range fields, raise ValueError. */
  function IsoParse(s: string): (r: Result<DateTime>)
    ensures r.Ok? ==> Valid(r.value)
    ensures r.Err? ==> r.error == ValueError
    ensures r.Ok? ==> |s| >= 10 && s[4] == '-' && s[7] == '-'
    ensures r.Ok? ==> Field(s, 0, 4) == Some(r.value.year) && Field(s, 5, 2) == Some(r.value.month)
                      && Field(s, 8, 2) == Some(r.value.day)
    ensures r.Ok? && |s| == 10 ==> r.value.hour == 0 && r.value.minute == 0 && r.value.second == 0
                                   && r.value.microsecond == 0
    ensures r.Ok? && |s| > 10 ==>
      TimeParse(s[11..]) == Ok(Clock(r.value.hour, r.value.minute, r.value.second, r.value.microsecond))
  {
    if |s| < 10 || s[4] != '-' || s[7] != '-' then Err(ValueError)
    else
      var y := Field(s, 0, 4);
      var mo := Field(s, 5, 2);
      var d := Field(s, 8, 2);
      var t := if |s| == 10 then Ok(Clock(0, 0, 0, 0)) else TimeParse(s[11..]);
      if y.None? || mo.None? || d.None? || t.Err? then Err(ValueError)
      else
        var dt := DateTime(y.value, mo.value, d.value, t.value.hour, t.value.minute, t.value.second, t.value.microsecond);
        if Valid(dt) then Ok(dt) else Err(ValueError)
  }

  lemma FieldOfPad(s: string, from: nat, width: nat, n: nat)
    requires from + width <= |s| && n < Pow10(width)
    requires s[from..from + width] == Pad(n, width)
    ensures Field(s, from, width) == Some(n)
  {
    PadRoundTrip(n, width);
  }

  /** `fromisoformat(isoformat(d)) == d` for every valid datetime. */
  lemma IsoRoundTrip(d: DateTime)
    requires Valid(d)
    ensures IsoParse(IsoFormat(d)) == Ok(d)
  {
    AnySeparator(d, 'T');
    assert IsoFormat(d) == IsoDate(d) + ['T'] + (IsoTime(d) + IsoFraction(d));
  }

  /** Any one character may separate the date from the time: the form
      `str(d)` writes, with a space, reads back too. */
  lemma AnySeparator(d: DateTime, sep: char)
    requires Valid(d)
    ensures IsoParse(IsoDate(d) + [sep] + (IsoTime(d) + IsoFraction(d))) == Ok(d)
  {
    var s := IsoDate(d) + [sep] + (IsoTime(d) + IsoFraction(d));
    assert s[..10] == IsoDate(d) && s[11..] == IsoTime(d) + IsoFraction(d);
    DateFieldsRead(s, d);
    TimeRoundTrip(d);
  }

  /** A date-time given to the minute reads as that minute, at second zero. */
  lemma MinutePrecision(d: DateTime, sep: char)
    requires Valid(d) && d.second == 0 && d.microsecond == 0
    ensures IsoParse(IsoDate(d) + [sep] + IsoTime(d)[..5]) == Ok(d)
  {
    var time := IsoTime(d);
    var t := time[..5];
    var s := IsoDate(d) + [sep] + t;
    assert s[..10] == IsoDate(d) && s[11..] == t;
    DateFieldsRead(s, d);
    assert t[0..2] == time[0..2] && t[3..5] == time[3..5];
    FieldOfPad(t, 0, 2, d.hour);
    FieldOfPad(t, 3, 2, d.minute);
  }

  /** A three-digit fraction counts milliseconds. */
  lemma Milliseconds(d: DateTime, sep: char)
    requires Valid(d) && d.microsecond % 1000 == 0
    ensures IsoParse(IsoDate(d) + [sep] + MillisTime(d)) == Ok(d)
  {
    var s := IsoDate(d) + [sep] + MillisTime(d);
    assert s[..10] == IsoDate(d) && s[11..] == MillisTime(d);
    DateFieldsRead(s, d);
    MillisTimeRead(d);
  }

  /** `HH:MM:SS.fff`. */
  function MillisTime(d: DateTime): (t: string)
    requires Valid(d)
    ensures |t| == 12
  {
    assert Pow10(3) == 1000;
    IsoTime(d) + "." + Pad(d.microsecond / 1000, 3)
  }

  lemma MillisTimeRead(d: DateTime)
    requires Valid(d) && d.microsecond % 1000 == 0
    ensures TimeParse(MillisTime(d)) == Ok(Clock(d.hour, d.minute, d.second, d.microsecond))
  {
    var time := IsoTime(d);
    var t := MillisTime(d);
    assert t[0..2] == time[0..2] && t[3..5] == time[3..5] && t[6..8] == time[6..8];
    FieldOfPad(t, 0, 2, d.hour);
    FieldOfPad(t, 3, 2, d.minute);
    FieldOfPad(t, 6, 2, d.second);
    assert Pow10(3) == 1000;
    assert t[9..12] == Pad(d.microsecond / 1000, 3);
    FieldOfPad(t, 9, 3, d.microsecond / 1000);
  }

  /** The padded date fields of `isoformat` read back as the date. */
  lemma DateFieldsRead(s: string, d: DateTime)
    requires Valid(d) && |s| >= 10 && s[..10] == IsoDate(d)
    ensures s[4] == '-' && s[7] == '-'
    ensures Field(s, 0, 4) == Some(d.year) && Field(s, 5, 2) == Some(d.month) && Field(s, 8, 2) == Some(d.day)
  {
    var date := IsoDate(d);
    assert s[0..4] == date[0..4] && s[5..7] == date[5..7] && s[8..10] == date[8..10];
    FieldOfPad(s, 0, 4, d.year);
    FieldOfPad(s, 5, 2, d.month);
    FieldOfPad(s, 8, 2, d.day);
  }

  /** The time part `isoformat` writes reads back as the time of day. */
  lemma TimeRoundTrip(d: DateTime)
    requires Valid(d)
    ensures TimeParse(IsoTime(d) + IsoFraction(d)) == Ok(Clock(d.hour, d.minute, d.second, d.microsecond))
  {
    var time, frac := IsoTime(d), IsoFraction(d);
    var t := time + frac;
    assert t[0..2] == time[0..2] && t[3..5] == time[3..5] && t[6..8] == time[6..8];
    FieldOfPad(t, 0, 2, d.hour);
    FieldOfPad(t, 3, 2, d.minute);
    FieldOfPad(t, 6, 2, d.second);
    if d.microsecond != 0 {
      assert t[8] == '.' && t[9..15] == frac[1..7];
      FieldOfPad(t, 9, 6, d.microsecond);
    } else {
      assert t == time;
    }
  }

  /** A fraction of neither three nor six digits is refused. */
  lemma OddFractionRefused()
    ensures IsoParse("2024-01-01T10:00:00.5").Err?
  {
  }
}

=== FILE: card_checks.dfy ===
/** The duck-typed card checks: `validate_card` and `format_card_for_display`
    of utils/card_utils.py, and `card_to_model` of db/utils.py.  Both look a
    card up by class (`isinstance`) and then read attributes by name, so a
    card is modelled as its class and a map from attribute name to value.
 */
module CardChecks {
  import opened Outcomes
  import Json
  import opened CardBase
  import EventCards
  import LocationCards
  import EmotionCards

  /** The classes the checks test for.  None of the four derives from
      another; `OtherCard` is any other subclass of BaseCard. */
  datatype Kind = EventKind | LocationKind | PersonKind | EmotionKind | OtherCard

  /** The attribute names the checks read (`image_path`, `people`,
      `expandable_data`, ...), and the ones the card classes set. */
  datatype Attr =
    | Id | Title | Description | CreatedAt | UpdatedAt | Metadata | ImagePath | MediaList
    | Date | Location | Participants | Emotions | CreatedBy | MediaIds
    | Latitude | Longitude | EventIds | MemoryIds | Intensity
    | Name | Relationship | People | Events | Memories | ExpandableData

  /** An object handed to the checks: not a BaseCard at all, or a card of
      some class with its attributes. */
  datatype Obj = NotACard | CardObj(kind: Kind, attrs: map<Attr, Json.Value>)

  /** `hasattr(card, f) and getattr(card, f)`. */
  predicate Present(o: Obj, f: Attr) {
    o.CardObj? && f in o.attrs && Json.Truthy(o.attrs[f])
  }

  /** The attributes `validate_card` requires of each class. */
  function Required(k: Kind): seq<Attr> {
    match k
    case EventKind => [Title, Description, Location, People, Emotions, Memories]
    case LocationKind => [Name, Events, Memories]
    case PersonKind => [Name, Relationship, Events, Memories]
    case EmotionKind => [Name, Intensity, Memories]
    case OtherCard => []
  }

  /** `all(hasattr(card, f) and getattr(card, f) for f in fields)`, left to right. */
  function AllPresent(o: Obj, fields: seq<Attr>): (ok: bool)
    ensures ok <==> forall i :: 0 <= i < |fields| ==> Present(o, fields[i])
  {
    if |fields| == 0 then true else Present(o, fields[0]) && AllPresent(o, fields[1..])
  }

  /** `validate_card(card)`. */
  function ValidateCard(o: Obj): (ok: bool)
    // not a card, or no image: invalid whatever the class
    ensures o.NotACard? ==> !ok
    ensures !Present(o, ImagePath) ==> !ok
    // a card of another class needs nothing but the image
    ensures o.CardObj? && o.kind == OtherCard ==> (ok <==> Present(o, ImagePath))
    // otherwise every required attribute must exist and be truthy
    ensures ok <==> o.CardObj? && Present(o, ImagePath) && forall f :: f in Required(o.kind) ==> Present(o, f)
  {
    o.CardObj? && Present(o, ImagePath) && AllPresent(o, Required(o.kind))
  }

  /** A falsy value does not count: an emotion of intensity zero, or any
      class with an empty required list, is invalid. */
  lemma FalsyFieldsFail(o: Obj, f: Attr)
    requires o.CardObj? && f in Required(o.kind) && f in o.attrs
    requires o.attrs[f] in {Json.Int(0), Json.Real(0.0), Json.Array([]), Json.Str(""), Json.Null}
    ensures !ValidateCard(o)
  {
  }

  /** What `format_card_for_display` returns. */
  datatype Display = Display(id: string, image: Json.Value, data: Json.Value)

  /** `format_card_for_display(card)`, with `newId` standing for
      `generate_card_id()`: ValueError for an invalid card; otherwise the
      card's image and its `expandable_data`, which must exist. */
  function FormatCard(o: Obj, newId: string): (r: Result<Display>)
    ensures r == Err(ValueError) <==> !ValidateCard(o)
    ensures ValidateCard(o) && ExpandableData !in o.attrs ==> r == Err(AttributeError)
    ensures r.Ok? ==> o.CardObj? && ExpandableData in o.attrs
    ensures r.Ok? ==> r.value == Display(newId, o.attrs[ImagePath], o.attrs[ExpandableData])
  {
    if !ValidateCard(o) then Err(ValueError)
    else if ExpandableData !in o.attrs then Err(AttributeError)
    else Ok(Display(newId, o.attrs[ImagePath], o.attrs[ExpandableData]))
  }

  // ---------------------------------------------------------------------
  // card_to_model

  /** The model `card_to_model` builds: its table and its column values in
      the order of `Columns`. */
  datatype DbModel = DbModel(table: Kind, columns: seq<string>, values: seq<Json.Value>)

  /** For each table, the keyword argument and the card attribute it copies. */
  function Columns(k: Kind): seq<(string, Attr)> {
    match k
    case EventKind => [("id", Id), ("image_path", ImagePath), ("title", Title), ("description", Description),
                       ("location_data", Location), ("people_data", People), ("emotions_data", Emotions),
                       ("memories_data", Memories)]
    case LocationKind => [("id", Id), ("image_path", ImagePath), ("name", Name), ("events_data", Events),
                          ("memories_data", Memories)]
    case PersonKind => [("id", Id), ("image_path", ImagePath), ("name", Name), ("relationship", Relationship),
                        ("events_data", Events), ("memories_data", Memories)]
    case EmotionKind => [("id", Id), ("image_path", ImagePath), ("name", Name), ("intensity", Intensity),
                         ("memories_data", Memories)]
    case OtherCard => []
  }

  /** Reading the attributes in argument order; the first missing one raises AttributeError. */
  function ReadColumns(attrs: map<Attr, Json.Value>, cols: seq<(string, Attr)>): (r: Result<seq<Json.Value>>)
    ensures r.Ok? <==> forall i :: 0 <= i < |cols| ==> cols[i].1 in attrs
    ensures r.Err? ==> r.error == AttributeError
    ensures r.Ok? ==> |r.value| == |cols| && forall i :: 0 <= i < |cols| ==> r.value[i] == attrs[cols[i].1]
  {
    if |cols| == 0 then Ok([])
    else if cols[0].1 !in attrs then Err(AttributeError)
    else
      var rest :- ReadColumns(attrs, cols[1..]);
      Ok([attrs[cols[0].1]] + rest)
  }

  function ColumnNames(cols: seq<(string, Attr)>): (names: seq<string>)
    ensures |names| == |cols| && forall i :: 0 <= i < |cols| ==> names[i] == cols[i].0
  {
    seq(|cols|, i requires 0 <= i < |cols| => cols[i].0)
  }

  /** `card_to_model(card)`: the four card classes map to their tables; any
      other object raises ValueError. */
  function CardToModel(o: Obj): (r: Result<DbModel>)
    ensures o.NotACard? || o.kind == OtherCard ==> r == Err(ValueError)
    ensures o.CardObj? && o.kind != OtherCard ==>
      (r.Ok? <==> forall i :: 0 <= i < |Columns(o.kind)| ==> Columns(o.kind)[i].1 in o.attrs)
    ensures o.CardObj? && o.kind != OtherCard && r.Err? ==> r.error == AttributeError
    ensures r.Ok? ==>
      && o.CardObj? && r.value.table == o.kind && |r.value.values| == |Columns(o.kind)|
      && r.value.columns == ColumnNames(Columns(o.kind))
      && forall i :: 0 <= i < |Columns(o.kind)| ==> r.value.values[i] == o.attrs[Columns(o.kind)[i].1]
  {
    if o.NotACard? || o.kind == OtherCard then Err(ValueError)
    else
      var values :- ReadColumns(o.attrs, Columns(o.kind));
      Ok(DbModel(o.kind, ColumnNames(Columns(o.kind)), values))
  }

  /** A card that passes `validate_card` and has an id converts: every column
      except the id and image is a required attribute. */
  lemma ValidCardsConvert(o: Obj)
    requires ValidateCard(o) && o.kind != OtherCard && Id in o.attrs
    ensures CardToModel(o).Ok?
  {
    var cols := Columns(o.kind);
    forall i | 0 <= i < |cols| ensures cols[i].1 in o.attrs {
      if i >= 2 {
        assert cols[i].1 in Required(o.kind);
      }
    }
  }

  // ---------------------------------------------------------------------
  // The attributes of the repository's cards

  function Ints(xs: seq<int>): (v: Json.Value)
    ensures v.Array? && |v.items| == |xs|
  {
    Json.Array(seq(|xs|, i requires 0 <= i < |xs| => Json.Int(xs[i])))
  }

  function OptStr(x: Option<string>): Json.Value {
    if x.Some? then Json.Str(x.value) else Json.Null
  }

  function OptReal(x: Option<real>): Json.Value {
    if x.Some? then Json.Real(x.value) else Json.Null
  }

  function OptInt(x: Option<int>): Json.Value {
    if x.Some? then Json.Int(x.value) else Json.Null
  }

  /** The attributes every BaseCard instance sets. */
  predicate BaseAttr(a: Attr) {
    a in {Title, Description, Id, CreatedAt, UpdatedAt, Metadata, ImagePath, MediaList}
  }

  /** The attributes every BaseCard instance has; times and media are opaque objects. */
  function BaseAttrs(c: Card): (m: map<Attr, Json.Value>)
    ensures forall a :: a in m <==> BaseAttr(a)
    ensures ImagePath in m && Id in m && m[ImagePath] == Json.Str(c.imagePath) && m[Id] == Json.Str(c.id)
  {
    map[Title := Json.Str(c.title), Description := Json.Str(c.description), Id := Json.Str(c.id),
        CreatedAt := Json.Opaque, UpdatedAt := if c.updatedAt.Some? then Json.Opaque else Json.Null,
        Metadata := c.metadata, ImagePath := Json.Str(c.imagePath),
        MediaList := Json.Array(seq(|c.media|, _ => Json.Opaque))]
  }

  function EventAttrs(e: EventCards.EventCard): (m: map<Attr, Json.Value>)
    ensures forall a :: a in m <==> BaseAttr(a) || a in {Date, Location, Participants, Emotions, CreatedBy, MediaIds}
  {
    BaseAttrs(e.base) + map[Date := if e.date.Some? then Json.Opaque else Json.Null, Location := OptStr(e.location),
                            Participants := Json.StrArray(e.participants), Emotions := Json.StrArray(e.emotions),
                            CreatedBy := OptStr(e.createdBy), MediaIds := Json.StrArray(e.mediaIds)]
  }

  function LocationAttrs(l: LocationCards.LocationCard): (m: map<Attr, Json.Value>)
    ensures forall a :: a in m <==> BaseAttr(a) || a in {Latitude, Longitude, CreatedBy, EventIds, MemoryIds}
  {
    BaseAttrs(l.base) + map[Latitude := OptReal(l.latitude), Longitude := OptReal(l.longitude),
                            CreatedBy := OptInt(l.createdBy), EventIds := Ints(l.links.eventIds),
                            MemoryIds := Ints(l.links.memoryIds)]
  }

  function EmotionAttrs(c: EmotionCards.EmotionCard): (m: map<Attr, Json.Value>)
    ensures forall a :: a in m <==> BaseAttr(a) || a in {Intensity, CreatedBy, EventIds, MemoryIds}
  {
    BaseAttrs(c.base) + map[Intensity := OptReal(c.intensity), CreatedBy := OptInt(c.createdBy),
                            EventIds := Ints(c.links.eventIds), MemoryIds := Ints(c.links.memoryIds)]
  }

  /** A class whose required attribute (and column) `f` is missing neither
      validates nor converts. */
  lemma MissingFieldFails(o: Obj, f: Attr, i: nat, j: nat)
    requires o.CardObj? && o.kind != OtherCard && f !in o.attrs
    requires i < |Required(o.kind)| && Required(o.kind)[i] == f
    requires j < |Columns(o.kind)| && Columns(o.kind)[j].1 == f
    ensures !ValidateCard(o) && CardToModel(o) == Err(AttributeError)
  {
    assert !Present(o, Required(o.kind)[i]);
  }

  /** The event class never sets `people` (nor `memories`), so no event card
      validates, formats or converts. */
  lemma EventCardsFailChecks(e: EventCards.EventCard, newId: string)
    ensures !ValidateCard(CardObj(EventKind, EventAttrs(e)))
    ensures FormatCard(CardObj(EventKind, EventAttrs(e)), newId) == Err(ValueError)
    ensures CardToModel(CardObj(EventKind, EventAttrs(e))) == Err(AttributeError)
  {
    var m := EventAttrs(e);
    MissingFieldFails(CardObj(EventKind, m), People, 3, 5);
  }

  /** The location class never sets `name` (the name becomes the title), so
      no location card validates or converts. */
  lemma LocationCardsFailChecks(l: LocationCards.LocationCard)
    ensures !ValidateCard(CardObj(LocationKind, LocationAttrs(l)))
    ensures CardToModel(CardObj(LocationKind, LocationAttrs(l))) == Err(AttributeError)
  {
    var m := LocationAttrs(l);
    MissingFieldFails(CardObj(LocationKind, m), Name, 0, 2);
  }

  /** The emotion class never sets `name` either. */
  lemma EmotionCardsFailChecks(c: EmotionCards.EmotionCard)
    ensures !ValidateCard(CardObj(EmotionKind, EmotionAttrs(c)))
    ensures CardToModel(CardObj(EmotionKind, EmotionAttrs(c))) == Err(AttributeError)
  {
    var m := EmotionAttrs(c);
    MissingFieldFails(CardObj(EmotionKind, m), Name, 0, 2);
  }

  /** Any other card validates exactly when its image path is non-empty, but
      no card class has `expandable_data`, so formatting it then raises
      AttributeError. */
  lemma OtherCardsNeedImage(c: Card, newId: string)
    ensures ValidateCard(CardObj(OtherCard, BaseAttrs(c))) <==> c.imagePath != ""
    ensures c.imagePath != "" ==> FormatCard(CardObj(OtherCard, BaseAttrs(c)), newId) == Err(AttributeError)
    ensures CardToModel(CardObj(OtherCard, BaseAttrs(c))) == Err(ValueError)
  {
  }
}

=== FILE: dataclass_fields.dfy ===
/** The field-order rule Python's `@dataclass` enforces when a card class is
    defined (and so when its module is imported): the generated `__init__`
    takes the fields in order, and a field without a default may not follow
    one with a default, or the class statement raises TypeError.

    A subclass's fields are its bases' fields, in order, with a redeclared
    field keeping its inherited place and taking the new declaration, and
    the subclass's new fields appended in declaration order.

    A class body may define `__init__` itself, as EventCard and MemoryCard
    do; `@dataclass` then keeps that method and generates none, but it
    still checks the order of the class's fields.
 */
module DataclassFields {
  import opened Outcomes

  /** The field names the card classes declare. */
  datatype Name =
    | Title | Description | Id | CreatedAt | UpdatedAt | Metadata | ImagePath | Media
    | Date | Location | Participants | People | Emotions | CreatedBy | MediaIds
    | Latitude | Longitude | StartDate | EndDate | Events | Memories | Year
    | PersonName | BirthDate | DeathDate | Relationships

  datatype Field = Field(name: Name, hasDefault: bool)

  /** No two fields share a name, as in the ordered dict `dataclass` builds. */
  predicate UniqueNames(fs: seq<Field>) {
    forall i, j :: 0 <= i < j < |fs| ==> fs[i].name != fs[j].name
  }

  /** One annotated field of a class body, laid over the fields so far: it
      replaces the field of the same name in place, or is appended. */
  function Declare(fs: seq<Field>, f: Field): (r: seq<Field>)
    ensures |fs| <= |r| <= |fs| + 1
    ensures forall i :: 0 <= i < |fs| ==> r[i].name == fs[i].name
    ensures forall i :: 0 <= i < |r| ==> r[i] == f || (i < |fs| && r[i] == fs[i])
    ensures f in r
    ensures UniqueNames(fs) ==> UniqueNames(r)
  {
    if |fs| == 0 then [f]
    else if fs[0].name == f.name then
      var r := [f] + fs[1..];
      assert forall i :: 1 <= i < |r| ==> r[i] == fs[i];
      r
    else
      var rest := Declare(fs[1..], f);
      var r := [fs[0]] + rest;
      assert forall i :: 1 <= i < |r| ==> r[i] == rest[i - 1];
      r
  }

  /** The fields of a class whose body declares `own` over the fields it inherits. */
  function Merge(inherited: seq<Field>, own: seq<Field>): (r: seq<Field>)
    ensures |r| >= |inherited|
    decreases |own|
  {
    if |own| == 0 then inherited else Merge(Declare(inherited, own[0]), own[1..])
  }

  /** Inherited fields keep their places (taking a redeclaration when there
      is one), every declared field ends up among the class's fields, and
      names stay unique. */
  lemma {:induction false} MergeShape(fs: seq<Field>, own: seq<Field>)
    requires UniqueNames(fs) && UniqueNames(own)
    ensures UniqueNames(Merge(fs, own))
    ensures forall i :: 0 <= i < |fs| ==> Merge(fs, own)[i].name == fs[i].name
    ensures forall i :: 0 <= i < |Merge(fs, own)| ==> Merge(fs, own)[i] in own || (i < |fs| && Merge(fs, own)[i] == fs[i])
    ensures forall f :: f in own ==> f in Merge(fs, own)
    decreases |own|
  {
    if |own| > 0 {
      var fs' := Declare(fs, own[0]);
      var rest := own[1..];
      assert UniqueNames(rest) by {
        forall i, j | 0 <= i < j < |rest| ensures rest[i].name != rest[j].name {
          assert rest[i] == own[i + 1] && rest[j] == own[j + 1];
        }
      }
      MergeShape(fs', rest);
      var r := Merge(fs, own);
      assert r == Merge(fs', rest);
      forall f | f in own ensures f in r {
        if f == own[0] {
          var k :| 0 <= k < |fs'| && fs'[k] == own[0];
          assert r[k] == own[0];
        } else {
          var j :| 0 <= j < |own| && own[j] == f;
          assert f == rest[j - 1];
        }
      }
    }
  }

  /** Some field without a default comes after a field with one. */
  predicate OutOfOrder(fs: seq<Field>) {
    exists i, j :: 0 <= i < j < |fs| && fs[i].hasDefault && !fs[j].hasDefault
  }

  /** A left-to-right scan remembering whether a default has been seen. */
  function ScanOk(fs: seq<Field>, seenDefault: bool): bool
    decreases |fs|
  {
    if |fs| == 0 then true
    else if seenDefault && !fs[0].hasDefault then false
    else ScanOk(fs[1..], seenDefault || fs[0].hasDefault)
  }

  /** The scan fails exactly at a required field after a default, counting a
      default seen before the sequence. */
  lemma {:induction false} ScanOkIff(fs: seq<Field>, seenDefault: bool)
    ensures ScanOk(fs, seenDefault) <==>
      !((seenDefault && exists j :: 0 <= j < |fs| && !fs[j].hasDefault) || OutOfOrder(fs))
    decreases |fs|
  {
    if |fs| > 0 {
      ScanOkIff(fs[1..], seenDefault || fs[0].hasDefault);
      if OutOfOrder(fs[1..]) {
        var i, j :| 0 <= i < j < |fs[1..]| && fs[1..][i].hasDefault && !fs[1..][j].hasDefault;
        assert fs[i + 1].hasDefault && !fs[j + 1].hasDefault;
      }
      if OutOfOrder(fs) {
        var i, j :| 0 <= i < j < |fs| && fs[i].hasDefault && !fs[j].hasDefault;
        if i > 0 {
          assert fs[1..][i - 1].hasDefault && !fs[1..][j - 1].hasDefault;
        } else {
          assert !fs[1..][j - 1].hasDefault;
        }
      }
      if seenDefault && exists j :: 0 <= j < |fs| && !fs[j].hasDefault {
        var j :| 0 <= j < |fs| && !fs[j].hasDefault;
        if j > 0 {
          assert !fs[1..][j - 1].hasDefault;
        }
      }
      if (seenDefault || fs[0].hasDefault) && exists j :: 0 <= j < |fs[1..]| && !fs[1..][j].hasDefault {
        var j :| 0 <= j < |fs[1..]| && !fs[1..][j].hasDefault;
        assert !fs[j + 1].hasDefault;
        if !seenDefault {
          assert fs[0].hasDefault;
          assert OutOfOrder(fs) by { assert 0 < j + 1 < |fs|; }
        }
      }
    }
  }

  /** The check `dataclass` makes while writing `__init__`. */
  function CheckOrder(fs: seq<Field>): (r: Result<seq<Field>>)
    ensures r.Err? <==> OutOfOrder(fs)
    ensures r.Err? ==> r.error == TypeError
    ensures r.Ok? ==> r.value == fs
  {
    assert ScanOk(fs, false) <==> !OutOfOrder(fs) by { ScanOkIff(fs, false); }
    if ScanOk(fs, false) then Ok(fs) else Err(TypeError)
  }

  /** `@dataclass class C(Base): <own fields>`: the class's fields, or the
      TypeError that makes the defining module fail to import. */
  function Define(inherited: seq<Field>, own: seq<Field>): (r: Result<seq<Field>>)
    ensures r.Err? <==> OutOfOrder(Merge(inherited, own))
    ensures r.Ok? ==> r.value == Merge(inherited, own)
  {
    CheckOrder(Merge(inherited, own))
  }

  /** Some field is named `n`. */
  predicate HasField(fs: seq<Field>, n: Name) {
    exists i :: 0 <= i < |fs| && fs[i].name == n
  }

  /** Calling an `__init__` whose parameters are `fs` with keyword arguments
      `kws` (distinct, as Python demands): a keyword that names no parameter
      raises TypeError, and so does a parameter without a default that is
      not passed. */
  function CallWithKeywords(fs: seq<Field>, kws: seq<Name>): (r: Option<PyError>)
    ensures r.None? <==>
      && (forall k :: k in kws ==> HasField(fs, k))
      && (forall i :: 0 <= i < |fs| && !fs[i].hasDefault ==> fs[i].name in kws)
    ensures r.Some? ==> r.value == TypeError
  {
    if exists k :: k in kws && !HasField(fs, k) then Some(TypeError)
    else if exists i :: 0 <= i < |fs| && !fs[i].hasDefault && fs[i].name !in kws then Some(TypeError)
    else None
  }

  /** Position `p` among the inherited fields followed by the class body's. */
  function FieldAt(fs: seq<Field>, own: seq<Field>, p: nat): Field
    requires p < |fs| + |own|
  {
    if p < |fs| then fs[p] else own[p - |fs|]
  }

  /** The generated `__init__` of a card-shaped class accepts its title and
      description with any other keywords that name inherited or declared
      fields (the field each keyword names is at its place in `at`). */
  lemma CardShapedAccepts(fs: seq<Field>, own: seq<Field>, kws: seq<Name>, at: seq<nat>)
    requires UniqueNames(fs) && UniqueNames(own) && CardShaped(Merge(fs, own))
    requires Title in kws && Description in kws
    requires |at| == |kws| && forall j :: 0 <= j < |kws| ==> at[j] < |fs| + |own| && FieldAt(fs, own, at[j]).name == kws[j]
    ensures CallWithKeywords(Merge(fs, own), kws).None?
  {
    MergeShape(fs, own);
    var r := Merge(fs, own);
    forall k | k in kws ensures HasField(r, k) {
      var j :| 0 <= j < |kws| && kws[j] == k;
      if at[j] < |fs| {
        assert r[at[j]].name == k;
      } else {
        var f := own[at[j] - |fs|];
        assert f in own;
        var i :| 0 <= i < |r| && r[i] == f;
      }
    }
    forall i | 0 <= i < |r| && !r[i].hasDefault ensures r[i].name in kws {
      assert r[i] in r;
    }
  }

  /** A card-shaped base and a body that requires only the text give a
      generated `__init__` that accepts the text with any inherited fields
      (the field each keyword names is at its place in `at`). */
  lemma InheritedKeywordsAccepted(fs: seq<Field>, own: seq<Field>, kws: seq<Name>, at: seq<nat>)
    requires CardShaped(fs) && UniqueNames(own) && OnlyTextRequired(own)
    requires Title in kws && Description in kws
    requires |at| == |kws| && forall j :: 0 <= j < |kws| ==> at[j] < |fs| && fs[at[j]].name == kws[j]
    ensures CallWithKeywords(Merge(fs, own), kws).None?
  {
    CardShapedDefines(fs, own);
    forall j | 0 <= j < |kws| ensures at[j] < |fs| + |own| && FieldAt(fs, own, at[j]).name == kws[j] {}
    CardShapedAccepts(fs, own, kws, at);
  }

  /** The same for keywords that are the leading fields of the base, in order. */
  lemma LeadingKeywordsAccepted(fs: seq<Field>, own: seq<Field>, kws: seq<Name>)
    requires CardShaped(fs) && UniqueNames(own) && OnlyTextRequired(own)
    requires 2 <= |kws| <= |fs| && forall j :: 0 <= j < |kws| ==> fs[j].name == kws[j]
    ensures CallWithKeywords(Merge(fs, own), kws).None?
  {
    var at := seq(|kws|, j => j);
    assert kws[0] == Title && kws[1] == Description;
    InheritedKeywordsAccepted(fs, own, kws, at);
  }

  /** A hand-written `__init__` accepts keywords that each name one of its
      parameters (at its place in `at`) and cover its required ones. */
  lemma HandWrittenAccepts(params: seq<Field>, kws: seq<Name>, at: seq<nat>)
    requires |at| == |kws| && forall j :: 0 <= j < |kws| ==> at[j] < |params| && params[at[j]].name == kws[j]
    requires forall i :: 0 <= i < |params| && !params[i].hasDefault ==> params[i].name in kws
    ensures CallWithKeywords(params, kws).None?
  {
    forall k | k in kws ensures HasField(params, k) {
      var j :| 0 <= j < |kws| && kws[j] == k;
      assert params[at[j]].name == k;
    }
  }

  /** A keyword that neither the inherited fields nor the class body
      declares is refused. */
  lemma UnknownKeywordRefused(fs: seq<Field>, own: seq<Field>, kws: seq<Name>, n: Name)
    requires UniqueNames(fs) && UniqueNames(own) && n in kws
    requires forall i :: 0 <= i < |fs| ==> fs[i].name != n
    requires forall i :: 0 <= i < |own| ==> own[i].name != n
    ensures CallWithKeywords(Merge(fs, own), kws) == Some(TypeError)
  {
    MergeShape(fs, own);
    var r := Merge(fs, own);
    assert !HasField(r, n) by {
      forall i | 0 <= i < |r| ensures r[i].name != n {
        if r[i] in own {
          var j :| 0 <= j < |own| && own[j] == r[i];
        } else {
          assert r[i] == fs[i];
        }
      }
    }
  }

  // ---------------------------------------------------------------------
  // The card classes

  const BaseOwn: seq<Field> := [
    Field(Title, false), Field(Description, false), Field(Id, true), Field(CreatedAt, true),
    Field(UpdatedAt, true), Field(Metadata, true), Field(ImagePath, true), Field(Media, true)]

  /** EventCard and MemoryCard redeclare every base field and add six more. */
  const EventOwn: seq<Field> := BaseOwn + [
    Field(Date, true), Field(Location, true), Field(Participants, true), Field(Emotions, true),
    Field(CreatedBy, true), Field(MediaIds, true)]

  const MemoryOwn: seq<Field> := BaseOwn + [
    Field(Date, true), Field(Location, true), Field(People, true), Field(Emotions, true),
    Field(CreatedBy, true), Field(MediaIds, true)]

  /** EventCard's own `__init__`: the text, then defaulted date, location,
      participants, emotions, both times, id, creator and media ids.  It
      takes no metadata, image path or media. */
  const EventInit: seq<Field> := [
    Field(Title, false), Field(Description, false), Field(Date, true), Field(Location, true),
    Field(Participants, true), Field(Emotions, true), Field(CreatedAt, true), Field(UpdatedAt, true),
    Field(Id, true), Field(CreatedBy, true), Field(MediaIds, true)]

  /** MemoryCard's own `__init__`: as EventCard's, with `people` for `participants`. */
  const MemoryInit: seq<Field> := [
    Field(Title, false), Field(Description, false), Field(Date, true), Field(Location, true),
    Field(People, true), Field(Emotions, true), Field(CreatedAt, true), Field(UpdatedAt, true),
    Field(Id, true), Field(CreatedBy, true), Field(MediaIds, true)]

  const PlaceOwn: seq<Field> := [Field(Latitude, true), Field(Longitude, true), Field(Events, true), Field(Memories, true)]
  const TimePeriodOwn: seq<Field> := [Field(StartDate, true), Field(EndDate, true), Field(Events, true), Field(Memories, true)]
  const YearOwn: seq<Field> := [Field(Year, true)]
  const DayOwn: seq<Field> := [Field(Date, true)]

  /** PersonCard as written: `name` is declared without a default. */
  const PersonOwn: seq<Field> := [
    Field(PersonName, false), Field(Description, false), Field(Id, true),
    Field(BirthDate, true), Field(DeathDate, true), Field(Relationships, true), Field(CreatedBy, true),
    Field(MediaIds, true), Field(CreatedAt, true), Field(UpdatedAt, true)]

  /** PersonCard with a default for `name`, the smallest change that lets the
      class be defined with `name` still passed by keyword. */
  const PersonOwnCorrected: seq<Field> := [
    Field(PersonName, true), Field(Description, false), Field(Id, true),
    Field(BirthDate, true), Field(DeathDate, true), Field(Relationships, true), Field(CreatedBy, true),
    Field(MediaIds, true), Field(CreatedAt, true), Field(UpdatedAt, true)]

  /** A field is required exactly when it is the title or the description. */
  predicate OnlyTextRequired(fs: seq<Field>) {
    forall i :: 0 <= i < |fs| ==> (fs[i].hasDefault <==> !(fs[i].name == Title || fs[i].name == Description))
  }

  /** The shape every card class has: title, then description, then only
      defaulted fields, all names distinct. */
  predicate CardShaped(fs: seq<Field>) {
    && UniqueNames(fs) && |fs| >= 2 && fs[0].name == Title && fs[1].name == Description
    && OnlyTextRequired(fs)
  }

  /** Required fields first and defaulted fields after them are in order. */
  lemma RequiredThenDefaults(fs: seq<Field>, k: nat)
    requires k <= |fs|
    requires forall i :: 0 <= i < k ==> !fs[i].hasDefault
    requires forall i :: k <= i < |fs| ==> fs[i].hasDefault
    ensures !OutOfOrder(fs)
  {
  }

  /** A card-shaped class whose body requires nothing but the title and the
      description is defined, and is card-shaped itself. */
  lemma CardShapedDefines(fs: seq<Field>, own: seq<Field>)
    requires CardShaped(fs) && UniqueNames(own) && OnlyTextRequired(own)
    ensures Define(fs, own).Ok? && CardShaped(Define(fs, own).value)
  {
    MergeShape(fs, own);
    var r := Merge(fs, own);
    forall i | 0 <= i < |r| ensures r[i].hasDefault <==> !(r[i].name == Title || r[i].name == Description) {
      if r[i] in own {
        var j :| 0 <= j < |own| && own[j] == r[i];
      } else {
        assert r[i] == fs[i];
      }
    }
    forall i | 2 <= i < |r| ensures r[i].hasDefault {
      assert r[i].name != r[0].name && r[i].name != r[1].name;
    }
    RequiredThenDefaults(r, 2);
  }

  /** BaseCard declares its own fields only: title, description, then defaults. */
  lemma BaseCardDefines()
    ensures CardShaped(BaseOwn) && CheckOrder(BaseOwn).Ok?
  {
    IncreasingUnique(BaseOwn, Order);
    RequiredThenDefaults(BaseOwn, 2);
  }

  /** A class body with distinct names that requires only the text fields. */
  predicate BodyOk(own: seq<Field>) {
    UniqueNames(own) && OnlyTextRequired(own)
  }

  /** The position of a name in the declaration of `Name`; every class body
      except PersonCard's lists its fields in this order. */
  function Order(n: Name): int {
    match n
    case Title => 0 case Description => 1 case Id => 2 case CreatedAt => 3 case UpdatedAt => 4
    case Metadata => 5 case ImagePath => 6 case Media => 7 case Date => 8 case Location => 9
    case Participants => 10 case People => 11 case Emotions => 12 case CreatedBy => 13 case MediaIds => 14
    case Latitude => 15 case Longitude => 16 case StartDate => 17 case EndDate => 18 case Events => 19
    case Memories => 20 case Year => 21 case PersonName => 22 case BirthDate => 23 case DeathDate => 24
    case Relationships => 25
  }

  /** The order of PersonCard's body. */
  function PersonOrder(n: Name): int {
    match n
    case PersonName => 0 case Description => 1 case Id => 2 case BirthDate => 3 case DeathDate => 4
    case Relationships => 5 case CreatedBy => 6 case MediaIds => 7 case CreatedAt => 8 case UpdatedAt => 9
    case _ => 10
  }

  /** Names whose rank strictly increases along the fields are distinct. */
  lemma IncreasingUnique(fs: seq<Field>, rank: Name -> int)
    requires forall i :: 0 <= i < |fs| - 1 ==> rank(fs[i].name) < rank(fs[i + 1].name)
    ensures UniqueNames(fs)
  {
    forall i, j | 0 <= i < j < |fs| ensures fs[i].name != fs[j].name {
      RankGrows(fs, rank, i, j);
    }
  }

  lemma {:induction false} RankGrows(fs: seq<Field>, rank: Name -> int, i: nat, j: nat)
    requires forall k :: 0 <= k < |fs| - 1 ==> rank(fs[k].name) < rank(fs[k + 1].name)
    requires i < j < |fs|
    ensures rank(fs[i].name) < rank(fs[j].name)
    decreases j - i
  {
    if j > i + 1 {
      RankGrows(fs, rank, i, j - 1);
    }
  }

  // Each class body's facts, one lemma per body to keep each proof small.
  lemma EventBodyOk() ensures BodyOk(EventOwn) { EventUnique(); }
  lemma EventUnique() ensures UniqueNames(EventOwn) { IncreasingUnique(EventOwn, Order); }
  lemma MemoryBodyOk() ensures BodyOk(MemoryOwn) { MemoryUnique(); }
  lemma MemoryUnique() ensures UniqueNames(MemoryOwn) { IncreasingUnique(MemoryOwn, Order); }
  lemma PlaceBodyOk() ensures BodyOk(PlaceOwn) { IncreasingUnique(PlaceOwn, Order); }
  lemma TimePeriodBodyOk() ensures BodyOk(TimePeriodOwn) { IncreasingUnique(TimePeriodOwn, Order); }
  lemma YearDayBodyOk() ensures BodyOk(YearOwn) && BodyOk(DayOwn) {}
  lemma PersonUnique() ensures UniqueNames(PersonOwn) { IncreasingUnique(PersonOwn, PersonOrder); }
  lemma PersonCorrectedBodyOk() ensures BodyOk(PersonOwnCorrected) { PersonCorrectedUnique(); }
  lemma PersonCorrectedUnique() ensures UniqueNames(PersonOwnCorrected) {
    IncreasingUnique(PersonOwnCorrected, PersonOrder);
  }

  lemma EventCardDefines()
    ensures Define(BaseOwn, EventOwn).Ok?
  {
    BaseCardDefines();
    EventBodyOk();
    CardShapedDefines(BaseOwn, EventOwn);
  }

  lemma MemoryCardDefines()
    ensures Define(BaseOwn, MemoryOwn).Ok?
  {
    BaseCardDefines();
    MemoryBodyOk();
    CardShapedDefines(BaseOwn, MemoryOwn);
  }

  lemma PlaceCardDefines()
    ensures Define(BaseOwn, PlaceOwn).Ok?
  {
    BaseCardDefines();
    PlaceBodyOk();
    CardShapedDefines(BaseOwn, PlaceOwn);
  }

  /** TimePeriodCard is defined, and so are YearCard and DayCard on top of it. */
  lemma TimePeriodCardsDefine()
    ensures Define(BaseOwn, TimePeriodOwn).Ok?
    ensures Define(Merge(BaseOwn, TimePeriodOwn), YearOwn).Ok? && Define(Merge(BaseOwn, TimePeriodOwn), DayOwn).Ok?
  {
    BaseCardDefines();
    TimePeriodBodyOk();
    YearDayBodyOk();
    CardShapedDefines(BaseOwn, TimePeriodOwn);
    var period := Merge(BaseOwn, TimePeriodOwn);
    CardShapedDefines(period, YearOwn);
    CardShapedDefines(period, DayOwn);
  }

  /** A class body that declares a required field whose name is new, over
      inherited fields where a defaulted field keeps its default, is refused. */
  lemma RequiredAfterDefaultRefused(fs: seq<Field>, own: seq<Field>, k: nat, f: Field)
    requires UniqueNames(fs) && UniqueNames(own) && k < |fs| && fs[k].hasDefault
    requires forall i :: 0 <= i < |own| && own[i].name == fs[k].name ==> own[i].hasDefault
    requires f in own && !f.hasDefault && forall i :: 0 <= i <= k ==> fs[i].name != f.name
    ensures Define(fs, own) == Err(TypeError)
  {
    MergeShape(fs, own);
    var r := Merge(fs, own);
    assert r[k].hasDefault by {
      if r[k] in own {
        var i :| 0 <= i < |own| && own[i] == r[k];
      } else {
        assert r[k] == fs[k];
      }
    }
    var m :| 0 <= m < |r| && r[m] == f;
    assert m > k;
  }

  /** As written, PersonCard's fields put the required `name` after the
      defaulted `id`, so defining the class raises TypeError. */
  lemma PersonCardDoesNotDefine()
    ensures Define(BaseOwn, PersonOwn) == Err(TypeError)
  {
    BaseCardDefines();
    PersonUnique();
    PersonOwnFacts();
    RequiredAfterDefaultRefused(BaseOwn, PersonOwn, 2, Field(PersonName, false));
  }

  /** `name` is required and new, and `id` keeps its default. */
  lemma PersonOwnFacts()
    ensures Field(PersonName, false) in PersonOwn
    ensures forall i :: 0 <= i < |PersonOwn| && PersonOwn[i].name == BaseOwn[2].name ==> PersonOwn[i].hasDefault
    ensures BaseOwn[2].hasDefault && forall i :: 0 <= i <= 2 ==> BaseOwn[i].name != PersonName
  {
    assert PersonOwn[0] == Field(PersonName, false);
  }

  /** With a default for `name` the class is defined, and `name` is among its fields. */
  lemma PersonCardCorrectedDefines()
    ensures Define(BaseOwn, PersonOwnCorrected).Ok?
    ensures Field(PersonName, true) in Define(BaseOwn, PersonOwnCorrected).value
  {
    BaseCardDefines();
    PersonCorrectedBodyOk();
    CardShapedDefines(BaseOwn, PersonOwnCorrected);
    MergeShape(BaseOwn, PersonOwnCorrected);
  }

  // ---------------------------------------------------------------------
  // Keyword calls

  /** The keywords `BaseCard.from_dict` passes to `cls(...)`. */
  const FromDictKeywords: seq<Name> := [Title, Description, Id, CreatedAt, UpdatedAt, Metadata, ImagePath, Media]

  /** PlaceCard keeps the generated `__init__`, which accepts the keywords of
      the inherited `from_dict`. */
  lemma PlaceFromDictCallAccepted()
    ensures CallWithKeywords(Merge(BaseOwn, PlaceOwn), FromDictKeywords).None?
  {
    BaseCardDefines();
    PlaceBodyOk();
    FromDictKeywordsLead();
    LeadingKeywordsAccepted(BaseOwn, PlaceOwn, FromDictKeywords);
  }

  /** So does TimePeriodCard. */
  lemma TimePeriodFromDictCallAccepted()
    ensures CallWithKeywords(Merge(BaseOwn, TimePeriodOwn), FromDictKeywords).None?
  {
    BaseCardDefines();
    TimePeriodBodyOk();
    FromDictKeywordsLead();
    LeadingKeywordsAccepted(BaseOwn, TimePeriodOwn, FromDictKeywords);
  }

  /** And so do YearCard and DayCard, on top of TimePeriodCard. */
  lemma YearDayFromDictCallAccepted()
    ensures CallWithKeywords(Merge(Merge(BaseOwn, TimePeriodOwn), YearOwn), FromDictKeywords).None?
    ensures CallWithKeywords(Merge(Merge(BaseOwn, TimePeriodOwn), DayOwn), FromDictKeywords).None?
  {
    var period := Merge(BaseOwn, TimePeriodOwn);
    YearDayBodyOk();
    PeriodKeepsBaseFields(period);
    LeadingKeywordsAccepted(period, YearOwn, FromDictKeywords);
    LeadingKeywordsAccepted(period, DayOwn, FromDictKeywords);
  }

  /** The keywords of `from_dict` are BaseCard's fields, in order. */
  lemma FromDictKeywordsLead()
    ensures 2 <= |FromDictKeywords| <= |BaseOwn|
    ensures forall j :: 0 <= j < |FromDictKeywords| ==> BaseOwn[j].name == FromDictKeywords[j]
  {
  }

  /** TimePeriodCard's fields are card-shaped and start with BaseCard's. */
  lemma PeriodKeepsBaseFields(period: seq<Field>)
    requires period == Merge(BaseOwn, TimePeriodOwn)
    ensures CardShaped(period)
    ensures 2 <= |FromDictKeywords| <= |period|
    ensures forall j :: 0 <= j < |FromDictKeywords| ==> period[j].name == FromDictKeywords[j]
  {
    BaseCardDefines();
    TimePeriodBodyOk();
    CardShapedDefines(BaseOwn, TimePeriodOwn);
    MergeShape(BaseOwn, TimePeriodOwn);
    FromDictKeywordsLead();
  }

  /** EventCard's own `__init__` hides a field the generated one would take:
      passing `media` raises TypeError although `media` is a field of the
      class (`GeneratedEventInitTakesMedia`). */
  lemma EventInitRefusesMedia()
    ensures CallWithKeywords(EventInit, [Title, Description, Media]) == Some(TypeError)
  {
    assert forall i :: 0 <= i < |EventInit| ==> EventInit[i].name != Media;
    assert Media in [Title, Description, Media];
  }

  /** The `__init__` `@dataclass` would generate for EventCard takes `media`,
      and every other keyword of the inherited `from_dict`. */
  lemma GeneratedEventInitTakesMedia()
    ensures Media in FromDictKeywords
    ensures CallWithKeywords(Merge(BaseOwn, EventOwn), FromDictKeywords).None?
  {
    BaseCardDefines();
    EventBodyOk();
    FromDictKeywordsLead();
    LeadingKeywordsAccepted(BaseOwn, EventOwn, FromDictKeywords);
    assert FromDictKeywords[7] == Media;
  }

  /** EventCard's own `__init__` accepts the keywords `EventCard.from_dict` passes. */
  lemma EventFromDictCallAccepted()
    ensures CallWithKeywords(EventInit, [Title, Description, Id, Date, Location, Participants, Emotions, CreatedBy, MediaIds]).None?
  {
    HandWrittenAccepts(EventInit, [Title, Description, Id, Date, Location, Participants, Emotions, CreatedBy, MediaIds],
                       [0, 1, 8, 2, 3, 4, 5, 9, 10]);
  }

  /** MemoryCard's own `__init__` accepts the keywords `MemoryCard.from_dict` passes. */
  lemma MemoryFromDictCallAccepted()
    ensures CallWithKeywords(MemoryInit, [Title, Description, Id, Date]).None?
  {
    HandWrittenAccepts(MemoryInit, [Title, Description, Id, Date], [0, 1, 8, 2]);
  }
}

=== FILE: day_card.dfy ===
/** `DayCard` of cards/day_card.py: a time period that spans the calendar
    day of its `date`, from that day's midnight up to (not including) the
    next midnight.  The constructor and `set_date` compute both bounds from
    the date; `from_dict` reads them back from the dict instead.
 */
module DayCards {
  import opened Outcomes
  import opened Calendar
  import Json
  import Text
  import opened CardBase
  import MediaRecord
  import opened TimePeriodCards

  datatype DayCard<E, M> = DayCard(period: TimePeriodCard<E, M>, date: DateTime)

  /** The last day Python's `datetime` can represent; the day after it overflows. */
  predicate LastDay(d: DateTime) {
    d.year == MaxYear && d.month == 12 && d.day == 31
  }

  /** `start = date.replace(hour=0, minute=0, second=0, microsecond=0)` and
      `end = start + timedelta(days=1)`: the end overflows on the last day. */
  function DayRange(date: DateTime): (r: Result<(DateTime, DateTime)>)
    requires Valid(date)
    ensures r.Err? <==> LastDay(date)
    ensures r.Err? ==> r.error == OverflowError
    ensures r.Ok? ==> r.value.0 == Midnight(date) && Valid(r.value.1)
    ensures r.Ok? ==> Ordinal(r.value.1) == Ordinal(r.value.0) + 1
    ensures r.Ok? ==> AtOrBefore(r.value.0, date) && Before(date, r.value.1)
  {
    var start := Midnight(date);
    var end :- AddOneDay(start);
    DayBounds(date);
    Ok((start, end))
  }

  /** A valid moment lies in `[start, end)` of a date's range exactly when it
      falls on the same calendar day. */
  lemma RangeIsTheDay(date: DateTime, x: DateTime)
    requires Valid(date) && Valid(x) && !LastDay(date)
    ensures var (start, end) := DayRange(date).value;
      AtOrBefore(start, x) && Before(x, end) <==> x.year == date.year && x.month == date.month && x.day == date.day
  {
  }

  /** The dates of a day card are the range of its date. */
  predicate Consistent<E, M>(dc: DayCard<E, M>) {
    && Valid(dc.date) && !LastDay(dc.date)
    && dc.period.startDate == DayRange(dc.date).value.0
    && dc.period.endDate == Some(DayRange(dc.date).value.1)
  }

  /** `DayCard(...)` at clock reading `now`: the date defaults to now; its
      range is computed (and may overflow) before the base card's checks run.
      Any start or end date passed in is overwritten, so none is taken here. */
  function New<E, M>(title: string, description: string, id: Option<string>, createdAt: DateTime,
                     updatedAt: Option<DateTime>, metadata: Json.Value, imagePath: string, media: seq<MediaRecord.Media>,
                     events: seq<E>, memories: seq<M>, date: Option<DateTime>,
                     now: DateTime, newId: Uuid, image: ImageOutcome): (r: Result<DayCard<E, M>>)
    requires Valid(now) && (date.Some? ==> Valid(date.value))
    ensures var d := if date.Some? then date.value else now;
      && (r.Err? <==> LastDay(d)
                      || CardBase.New(title, description, id, createdAt, updatedAt, metadata, imagePath, media, newId, image).Err?)
      && (LastDay(d) ==> r == Err(OverflowError))
      && (r.Ok? ==> Consistent(r.value) && r.value.date == d)
    ensures r.Ok? ==>
      && r.value.period.base == CardBase.New(title, description, id, createdAt, updatedAt, metadata, imagePath, media, newId, image).value
      && r.value.period.events == events && r.value.period.memories == memories
  {
    var d := if date.Some? then date.value else now;
    var range :- DayRange(d);
    var p :- TimePeriodCards.New(title, description, id, createdAt, updatedAt, metadata, imagePath, media,
                                 range.0, Some(range.1), events, memories, newId, image);
    Ok(DayCard(p, d))
  }

  /** A day card together with the exception a method raised part-way, if any. */
  datatype Step<E, M> = Step(card: DayCard<E, M>, raised: Option<PyError>)

  /** `set_date(date)`: the date and the start are assigned, then the end is
      computed; on the last day that overflows with the old end left in
      place.  The card is not stamped. */
  function SetDate<E, M>(dc: DayCard<E, M>, date: DateTime): (r: Step<E, M>)
    requires Valid(date)
    ensures r.card.date == date && r.card.period.startDate == Midnight(date)
    ensures r.raised.None? <==> !LastDay(date)
    ensures r.raised.None? ==> Consistent(r.card)
    ensures r.raised.Some? ==> r.raised.value == OverflowError && r.card.period.endDate == dc.period.endDate
    ensures r.card.period.base == dc.period.base
    ensures r.card.period.events == dc.period.events && r.card.period.memories == dc.period.memories
  {
    var start := Midnight(date);
    var dc' := dc.(date := date, period := dc.period.(startDate := start));
    match AddOneDay(start)
    case Err(e) => Step(dc', Some(e))
    case Ok(end) => Step(dc'.(period := SetDates(dc.period, start, Some(end))), None)
  }

  /** Setting the last day leaves an end that is not after the start. */
  lemma SetLastDayLeavesStaleEnd<E, M>(dc: DayCard<E, M>, date: DateTime)
    requires Consistent(dc) && Valid(date) && LastDay(date)
    ensures SetDate(dc, date).raised == Some(OverflowError)
    ensures !Consistent(SetDate(dc, date).card)
    ensures !Before(SetDate(dc, date).card.period.startDate, SetDate(dc, date).card.period.endDate.value)
  {
    var r := SetDate(dc, date);
    var end := r.card.period.endDate.value;
    assert end == DayRange(dc.date).value.1;
    assert Valid(end);
  }

  // ---------------------------------------------------------------------
  // The dict form

  /** `to_dict()`: the time period's dict plus the date. */
  datatype DayDict<ED, MD> = DayDict(period: TimePeriodDict<ED, MD>, date: Entry<string>)

  predicate Dated<E, M>(dc: DayCard<E, M>) {
    TimePeriodCards.Dated(dc.period) && Valid(dc.date)
  }

  function ToDict<E, M, ED, MD>(dc: DayCard<E, M>, writeEvent: E -> Result<ED>, writeMemory: M -> Result<MD>)
    : (r: Result<DayDict<ED, MD>>)
    requires Dated(dc)
    ensures r.Ok? <==> TimePeriodCards.ToDict(dc.period, writeEvent, writeMemory).Ok?
    ensures r.Ok? ==> r.value.period == TimePeriodCards.ToDict(dc.period, writeEvent, writeMemory).value
    ensures r.Ok? ==> r.value.date.Has? && IsoParse(r.value.date.value) == Ok(dc.date)
  {
    var p :- TimePeriodCards.ToDict(dc.period, writeEvent, writeMemory);
    assert IsoParse(IsoFormat(dc.date)) == Ok(dc.date) by { IsoRoundTrip(dc.date); }
    Ok(DayDict(p, Has(IsoFormat(dc.date))))
  }

  /** `DayCard.from_dict(data)` at clock reading `now`: `BaseCard.from_dict`
      first reads its arguments; the constructor then computes the range for
      now's date (overflowing on the last day) before the base card's own
      checks; the time period's `from_dict` reads the dates, and finally the
      date is parsed (now when absent).  The range is not recomputed from the
      date read. */
  function FromDict<E, M, ED, MD>(d: DayDict<ED, MD>, now: DateTime, newId: Uuid, image: ImageOutcome,
                                  readEvent: ED -> Result<E>, readMemory: MD -> Result<M>): (r: Result<DayCard<E, M>>)
    requires Valid(now)
    // the reads of `BaseCard.from_dict` fail first
    ensures ReadArgs(d.period.base, now).Err? ==> r == Err(ReadArgs(d.period.base, now).error)
    // then the range overflows, before the constructor's checks of the text
    ensures ReadArgs(d.period.base, now).Ok? && LastDay(now) ==> r == Err(OverflowError)
    ensures r.Ok? ==> !LastDay(now)
    ensures !LastDay(now) ==>
      (r.Ok? <==> FromDictAs(d.period, now, newId, image, readEvent, readMemory, Some(DayRange(now).value.1)).Ok?
                  && IsoParse(d.date.GetOr(IsoFormat(now))).Ok?)
    ensures r.Ok? ==> FromDictAs(d.period, now, newId, image, readEvent, readMemory, Some(DayRange(now).value.1)) == Ok(r.value.period)
    ensures r.Ok? ==> IsoParse(d.date.GetOr(IsoFormat(now))) == Ok(r.value.date)
  {
    var _ :- ReadArgs(d.period.base, now);
    var range :- DayRange(now);
    var p :- FromDictAs(d.period, now, newId, image, readEvent, readMemory, Some(range.1));
    var date :- IsoParse(d.date.GetOr(IsoFormat(now)));
    Ok(DayCard(p, date))
  }

  /** A blank title on the last representable day: the range overflows
      before the constructor looks at the title. */
  lemma BlankTitleOnLastDayOverflows<ED, MD>(d: DayDict<ED, MD>, now: DateTime, newId: Uuid, image: ImageOutcome,
                                             readEvent: ED -> Result<()>, readMemory: MD -> Result<()>)
    requires Valid(now) && LastDay(now) && ReadArgs(d.period.base, now).Ok?
    requires Text.Strip(d.period.base.title.value) == ""
    ensures CardBase.FromDict(d.period.base, now, newId, image) == Err(ValueError)
    ensures FromDict(d, now, newId, image, readEvent, readMemory) == Err(OverflowError)
  {
  }

  /** With readers that undo the writers, and a clock before the last day,
      `from_dict(to_dict(dc))` gives `dc` back whenever its base card
      survives its own round trip. */
  lemma DictRoundTrip<E, M, ED, MD>(dc: DayCard<E, M>, now: DateTime, newId: Uuid, image: ImageOutcome,
                                    writeEvent: E -> Result<ED>, readEvent: ED -> Result<E>,
                                    writeMemory: M -> Result<MD>, readMemory: MD -> Result<M>)
    requires Consistent(dc) && Dated(dc) && Valid(now) && !LastDay(now)
    requires WellFormed(dc.period.base) && dc.period.base.imagePath != "" && dc.period.base.updatedAt.Some?
    requires dc.period.base.metadata != Json.Null
    requires forall i :: 0 <= i < |dc.period.events| ==>
      writeEvent(dc.period.events[i]).Ok? && readEvent(writeEvent(dc.period.events[i]).value) == Ok(dc.period.events[i])
    requires forall i :: 0 <= i < |dc.period.memories| ==>
      writeMemory(dc.period.memories[i]).Ok? && readMemory(writeMemory(dc.period.memories[i]).value) == Ok(dc.period.memories[i])
    ensures ToDict(dc, writeEvent, writeMemory).Ok?
    ensures FromDict(ToDict(dc, writeEvent, writeMemory).value, now, newId, image, readEvent, readMemory) == Ok(dc)
  {
    RoundTripAs(dc.period, now, newId, image, writeEvent, readEvent, writeMemory, readMemory, Some(DayRange(now).value.1));
    CardBase.DictRoundTrip(dc.period.base, now, newId, image);
    var d := ToDict(dc, writeEvent, writeMemory).value;
    assert d.period.base == CardBase.ToDict(dc.period.base);
    FromDictParts(d, now, newId, image, readEvent, readMemory, dc.period, dc.date);
  }

  /** `FromDict` assembled from the results of its reads. */
  lemma FromDictParts<E, M, ED, MD>(d: DayDict<ED, MD>, now: DateTime, newId: Uuid, image: ImageOutcome,
                                    readEvent: ED -> Result<E>, readMemory: MD -> Result<M>,
                                    p: TimePeriodCard<E, M>, date: DateTime)
    requires Valid(now) && !LastDay(now) && ReadArgs(d.period.base, now).Ok?
    requires FromDictAs(d.period, now, newId, image, readEvent, readMemory, Some(DayRange(now).value.1)) == Ok(p)
    requires IsoParse(d.date.GetOr(IsoFormat(now))) == Ok(date)
    ensures FromDict(d, now, newId, image, readEvent, readMemory) == Ok(DayCard(p, date))
  {
  }
}

=== FILE: droe_core.dfy ===
/** `DROECore` of core/droe_core.py: a facade over the storage manager that
    logs and swallows most storage errors, plus helpers that build a card
    and save it.

    A card's JSON form is what `json.dump` makes of its `to_dict()`; the
    translation from the modelled dict records to JSON values is passed in
    as `encode`.
 */
module DroeCore {
  import opened Outcomes
  import opened Text
  import opened Calendar
  import Json
  import opened CardBase
  import Storage
  import EventCards
  import MemoryCards
  import opened DataclassFields

  /** `load_card(card_id, card_type)`: whatever storage raises is logged and
      becomes None. */
  function LoadCard<C>(s: Storage.Store, id: string, cardType: string, fromDict: (string, Json.Value) -> Result<C>)
    : (r: Option<C>)
    ensures cardType !in s.types ==> r.None?
    ensures cardType in s.types && !Storage.Exists(s, cardType, Storage.FileName(id)) ==> r.None?
    ensures r.Some? ==>
      && Storage.Exists(s, cardType, Storage.FileName(id)) && s.dirs[cardType][Storage.FileName(id)].Parsed?
      && fromDict(s.types[cardType], s.dirs[cardType][Storage.FileName(id)].value) == Ok(r.value)
    ensures Storage.LoadCard(s, id, cardType, fromDict).Ok? ==> r == Storage.LoadCard(s, id, cardType, fromDict).value
  {
    match Storage.LoadCard(s, id, cardType, fromDict)
    case Ok(card) => card
    case Err(_) => None
  }

  /** `delete_card(card_id, card_type)`: an unregistered type gives False
      instead of raising; the store changes only when a file was deleted. */
  function DeleteCard(s: Storage.Store, id: string, cardType: string): (r: (Storage.Store, bool))
    ensures r.1 <==> cardType in s.types && Storage.Exists(s, cardType, Storage.FileName(id))
    ensures !r.1 ==> r.0 == s
    ensures !Storage.Exists(r.0, cardType, Storage.FileName(id)) || cardType !in s.types
  {
    match Storage.DeleteCard(s, id, cardType)
    case Ok(res) => res
    case Err(_) => (s, false)
  }

  /** `search_cards(query, card_type)`: the storage manager has no
      `search_cards`, so the call raises AttributeError, which is logged and
      swallowed: the result is always empty. */
  function SearchCards(s: Storage.Store, query: string, cardType: Option<string>): (r: seq<Storage.Summary>)
    ensures r == []
  {
    []
  }

  /** A helper's outcome: the store afterwards, and the card or the exception raised. */
  datatype Created<C> = Created(store: Storage.Store, card: Result<C>)

  /** The keywords `create_event` passes to EventCard. */
  const EventKeywords: seq<Name> := [Title, Description, Location, Participants]

  /** EventCard's own `__init__`, which `@dataclass` keeps, accepts them. */
  lemma EventKeywordsAccepted()
    ensures CallWithKeywords(EventInit, EventKeywords).None?
  {
    HandWrittenAccepts(EventInit, EventKeywords, [0, 1, 3, 4]);
  }

  /** The card `create_event` builds: participants `or []`, everything
      else left to the constructor's defaults. */
  function EventFor(title: string, description: string, location: Option<string>, participants: Option<seq<string>>,
                    now: DateTime, newId: Uuid, image: ImageOutcome): Result<EventCards.EventCard>
    requires Valid(now)
  {
    EventCards.New(title, description, None, location, Some(if participants.Some? then participants.value else []),
                   None, None, None, None, None, None, now, newId, image)
  }

  /** `create_event(title, description, location, participants)` at clock
      reading `now`: the event is built and saved through `save_card`, which
      re-raises any storage error; only a saved event is returned. */
  function CreateEvent(s: Storage.Store, title: string, description: string, location: Option<string>,
                       participants: Option<seq<string>>, now: DateTime, newId: Uuid, image: ImageOutcome,
                       encode: EventCards.EventDict -> map<string, Json.Value>): (r: Created<EventCards.EventCard>)
    requires Valid(now)
    ensures Strip(title) == "" || Strip(description) == "" ==> r == Created(s, Err(ValueError))
    ensures r.card.Ok? ==>
      && r.card.value.participants == (if participants.Some? then participants.value else [])
      && r.card.value.location == location && r.card.value.emotions == [] && r.card.value.date.None?
      && r.card.value.base.title == Strip(title) && r.card.value.base.description == Strip(description)
    ensures r.card.Ok? ==>
      && EventCards.Dated(r.card.value)
      && Storage.Exists(r.store, "event", Storage.FileName(r.card.value.base.id))
      && r.store.dirs["event"][Storage.FileName(r.card.value.base.id)]
         == Storage.Parsed(Storage.Record(encode(EventCards.ToDict(r.card.value)), "event"))
    // with non-blank text the card is built, and whatever saving it raises is re-raised
    ensures Strip(title) != "" && Strip(description) != "" ==>
      && EventFor(title, description, location, participants, now, newId, image).Ok?
      && var e := EventFor(title, description, location, participants, now, newId, image).value;
         var record := Storage.Record(encode(EventCards.ToDict(e)), "event");
         && (r.card.Ok? <==> "event" in s.types && "event" in s.dirs && Json.Dumpable(record))
         && ("event" !in s.types ==> r == Created(s, Err(ValueError)))
         && ("event" in s.types && "event" !in s.dirs ==> r == Created(s, Err(FileNotFoundError)))
         && ("event" in s.types && "event" in s.dirs && !Json.Dumpable(record) ==> r.card == Err(TypeError))
         && (r.card == Err(TypeError) && encode(EventCards.ToDict(e)) != map[] ==>
               r.store == Storage.Write(s, "event", Storage.FileName(e.base.id), Storage.Unreadable))
  {
    EventKeywordsAccepted();
    match EventFor(title, description, location, participants, now, newId, image)
    case Err(e) => Created(s, Err(e))
    case Ok(event) =>
      var step := Storage.SaveCard(s, "EventCard", event.base.id, Ok(encode(EventCards.ToDict(event))));
      Storage.EventKey();
      if step.raised.Some? then Created(step.store, Err(step.raised.value)) else Created(step.store, Ok(event))
  }

  /** On a fresh manager every event with non-blank text whose JSON form can
      be written is created and saved under "event". */
  lemma CreateEventSaves(root: string, existing: map<string, map<string, Storage.FileContent>>, title: string,
                         description: string, location: Option<string>, participants: Option<seq<string>>,
                         now: DateTime, newId: Uuid, image: ImageOutcome,
                         encode: EventCards.EventDict -> map<string, Json.Value>)
    requires Valid(now) && Strip(title) != "" && Strip(description) != ""
    requires forall d :: Json.Dumpable(Storage.Record(encode(d), "event"))
    ensures CreateEvent(Storage.New(root, existing), title, description, location, participants, now, newId, image, encode).card.Ok?
  {
    var e := EventFor(title, description, location, participants, now, newId, image);
    assert e.Ok?;
    Storage.InitialSavesEvent(root, existing, e.value.base.id, encode(EventCards.ToDict(e.value)));
  }

  /** The keywords `create_place` passes to PlaceCard: `name` among them. */
  const PlaceKeywords: seq<Name> := [Title, Description, PersonName, Latitude, Longitude]

  /** PlaceCard has no `name` field, so `create_place` always raises
      TypeError when it builds the card, before anything is saved. */
  lemma CreatePlaceRaises()
    ensures CallWithKeywords(Merge(BaseOwn, PlaceOwn), PlaceKeywords) == Some(TypeError)
  {
    BaseCardDefines();
    PlaceBodyOk();
    NoNameField();
    assert PlaceKeywords[2] == PersonName;
    UnknownKeywordRefused(BaseOwn, PlaceOwn, PlaceKeywords, PersonName);
  }

  /** Neither BaseCard nor PlaceCard declares `name`. */
  lemma NoNameField()
    ensures forall i :: 0 <= i < |BaseOwn| ==> BaseOwn[i].name != PersonName
    ensures forall i :: 0 <= i < |PlaceOwn| ==> PlaceOwn[i].name != PersonName
  {
  }

  /** `create_memory(title, description)` at clock reading `now`: the memory
      is built and then saved, and saving calls its `to_dict()`. */
  function CreateMemory(s: Storage.Store, title: string, description: string, now: DateTime, newId: Uuid,
                        image: ImageOutcome, encode: MemoryCards.MemoryDict -> map<string, Json.Value>)
    : (r: Created<MemoryCards.MemoryCard>)
    requires Valid(now)
    ensures Strip(title) == "" || Strip(description) == "" ==> r == Created(s, Err(ValueError))
    ensures r.card.Ok? ==> Storage.Exists(r.store, "memory", Storage.FileName(r.card.value.base.id))
  {
    match MemoryCards.New(title, description, None, None, None, None, None, None, None, None, None, now, newId, image)
    case Err(e) => Created(s, Err(e))
    case Ok(memory) =>
      var toDict := match MemoryCards.ToDict(memory)
                    case Ok(d) => Ok(encode(d))
                    case Err(e) => Err(e);
      var step := Storage.SaveCard(s, "MemoryCard", memory.base.id, toDict);
      Storage.MemoryKey();
      if step.raised.Some? then Created(step.store, Err(step.raised.value)) else Created(step.store, Ok(memory))
  }

  /** A new memory has no `associated_people`, so its `to_dict()` raises and
      `create_memory` never succeeds; on a fresh manager the error is the
      AttributeError and nothing is written. */
  lemma CreateMemoryAlwaysFails(s: Storage.Store, title: string, description: string, now: DateTime, newId: Uuid,
                                image: ImageOutcome, encode: MemoryCards.MemoryDict -> map<string, Json.Value>)
    requires Valid(now)
    ensures CreateMemory(s, title, description, now, newId, image, encode).card.Err?
    ensures CreateMemory(s, title, description, now, newId, image, encode).store == s
    ensures "memory" in s.types && Strip(title) != "" && Strip(description) != "" ==>
      CreateMemory(s, title, description, now, newId, image, encode).card == Err(AttributeError)
  {
    var m := MemoryCards.New(title, description, None, None, None, None, None, None, None, None, None, now, newId, image);
    if m.Ok? {
      MemoryCards.NoPeopleNoDict(m.value);
      Storage.MemoryKey();
    }
  }
}

=== FILE: emotion_card.dfy ===
/** `EmotionCard` of cards/emotion_card.py: a card with an optional
    intensity, a creator, and the event/memory id lists.  The intensity is
    an opaque real that is only stored and copied.
 */
module EmotionCards {
  import opened Outcomes
  import opened Calendar
  import opened Text
  import Json
  import opened CardBase
  import opened IdLinks

  datatype EmotionCard = EmotionCard(
    base: Card,
    intensity: Option<real>,
    createdBy: Option<int>,
    links: Links)

  /** `EmotionCard(name, description, intensity, created_by)` at clock reading
      `now`, with the time and metadata arguments left at None: the name is
      the card's title and both id lists start empty. */
  function New(name: string, description: string, intensity: Option<real>, createdBy: Option<int>,
               now: DateTime, newId: Uuid, image: ImageOutcome): (r: Result<EmotionCard>)
    ensures r.Err? <==> Strip(name) == "" || Strip(description) == ""
    ensures r.Ok? ==> r.value.links == NoLinks && r.value.base.title == Strip(name) && WellFormed(r.value.base)
    ensures r.Ok? ==> r.value.intensity == intensity && r.value.createdBy == createdBy
  {
    var base :- CardBase.New(name, description, None, now, None, Json.Null, "", [], newId, image);
    Ok(EmotionCard(base, intensity, createdBy, NoLinks))
  }

  /** `add_event(id)` / `add_memory(id)`. */
  function AddId(c: EmotionCard, w: Which, id: int, now: DateTime): (r: EmotionCard)
    ensures Ids(r.links, w) == Seqs.AddIfAbsent(Ids(c.links, w), id)
    ensures Ids(r.links, Other(w)) == Ids(c.links, Other(w))
    ensures r.intensity == c.intensity && r.createdBy == c.createdBy
    ensures r.base.(updatedAt := c.base.updatedAt) == c.base
  {
    var (b, l) := IdLinks.Add(c.base, c.links, w, id, now);
    c.(base := b, links := l)
  }

  /** `remove_event(id)` / `remove_memory(id)`. */
  function RemoveId(c: EmotionCard, w: Which, id: int, now: DateTime): (r: EmotionCard)
    ensures Ids(r.links, w) == Seqs.RemoveFirst(Ids(c.links, w), id)
    ensures Ids(r.links, Other(w)) == Ids(c.links, Other(w))
    ensures r.intensity == c.intensity && r.createdBy == c.createdBy
    ensures r.base.(updatedAt := c.base.updatedAt) == c.base
  {
    var (b, l) := IdLinks.Remove(c.base, c.links, w, id, now);
    c.(base := b, links := l)
  }

  /** `to_dict()`: the base dict with the emotion's keys laid over it. */
  datatype EmotionDict = EmotionDict(
    base: CardDict,
    intensity: Entry<Option<real>>,
    createdBy: Entry<Option<int>>,
    links: LinksDict)

  function ToDict(c: EmotionCard): (d: EmotionDict)
    requires Valid(c.base.createdAt) && (c.base.updatedAt.Some? ==> Valid(c.base.updatedAt.value))
    requires MediaValid(c.base.media)
    ensures d.base == CardBase.ToDict(c.base) && d.links == IdLinks.ToDict(c.links)
    ensures d.intensity == Has(c.intensity) && d.createdBy == Has(c.createdBy)
  {
    EmotionDict(CardBase.ToDict(c.base), Has(c.intensity), Has(c.createdBy), IdLinks.ToDict(c.links))
  }

  /** The last two steps of `from_dict`: the lists are taken from the dict,
      an absent key giving the empty list; nothing else changes. */
  function RestoreIds(c: EmotionCard, d: EmotionDict): (r: EmotionCard)
    ensures r.links == IdLinks.FromDict(d.links)
    ensures r.base == c.base && r.intensity == c.intensity && r.createdBy == c.createdBy
  {
    c.(links := IdLinks.FromDict(d.links))
  }

  /** Whatever card `from_dict` builds, the id lists it ends with are those written out. */
  lemma IdsRoundTrip(c: EmotionCard, built: EmotionCard)
    requires Valid(c.base.createdAt) && (c.base.updatedAt.Some? ==> Valid(c.base.updatedAt.value))
    requires MediaValid(c.base.media)
    ensures RestoreIds(built, ToDict(c)).links == c.links
  {
    IdLinks.DictRoundTrip(c.links);
  }
}

=== FILE: event_card.dfy ===
/** `EventCard` of cards/event_card.py: a card with a date, a location, and
    three id lists (participants, emotions, media ids) kept free of
    duplicates by append-if-absent / remove-if-present updates that stamp
    `updated_at`.  The clock is the parameter `now`.
 */
module EventCards {
  import opened Outcomes
  import opened Calendar
  import opened Seqs
  import Json
  import Text
  import opened CardBase

  datatype EventCard = EventCard(
    base: Card,
    date: Option<DateTime>,
    location: Option<string>,
    participants: seq<string>,
    emotions: seq<string>,
    createdBy: Option<string>,
    mediaIds: seq<string>)

  /** `EventCard(...)` at clock reading `now`: the base constructor sees only
      the title, description and id; the lists default to empty and both
      times default to now. */
  function New(title: string, description: string, date: Option<DateTime>, location: Option<string>,
               participants: Option<seq<string>>, emotions: Option<seq<string>>,
               createdAt: Option<DateTime>, updatedAt: Option<DateTime>, id: Option<string>,
               createdBy: Option<string>, mediaIds: Option<seq<string>>,
               now: DateTime, newId: Uuid, image: ImageOutcome): (r: Result<EventCard>)
    ensures r.Err? <==> CardBase.New(title, description, id, now, None, Json.Null, "", [], newId, image).Err?
    ensures r.Err? ==> r.error == ValueError
    ensures r.Ok? ==>
      && WellFormed(r.value.base) && r.value.base.media == []
      && r.value.base.createdAt == (if createdAt.Some? then createdAt.value else now)
      && r.value.base.updatedAt == Some(if updatedAt.Some? then updatedAt.value else now)
      && r.value.participants == (if participants.Some? then participants.value else [])
      && r.value.emotions == (if emotions.Some? then emotions.value else [])
      && r.value.mediaIds == (if mediaIds.Some? then mediaIds.value else [])
      && r.value.date == date && r.value.location == location && r.value.createdBy == createdBy
  {
    var base :- CardBase.New(title, description, id, now, None, Json.Null, "", [], newId, image);
    Ok(EventCard(
      base.(createdAt := if createdAt.Some? then createdAt.value else now,
            updatedAt := Some(if updatedAt.Some? then updatedAt.value else now)),
      date, location,
      if participants.Some? then participants.value else [],
      if emotions.Some? then emotions.value else [],
      createdBy,
      if mediaIds.Some? then mediaIds.value else []))
  }

  // ---------------------------------------------------------------------
  // The id lists

  /** The three lists `add_person`/`remove_person`, `add_emotion`/`remove_emotion`
      and `add_media`/`remove_media` maintain. */
  datatype IdList = Participants | Emotions | MediaIds

  function Ids(e: EventCard, l: IdList): seq<string> {
    match l
    case Participants => e.participants
    case Emotions => e.emotions
    case MediaIds => e.mediaIds
  }

  function WithIds(e: EventCard, l: IdList, xs: seq<string>): EventCard {
    match l
    case Participants => e.(participants := xs)
    case Emotions => e.(emotions := xs)
    case MediaIds => e.(mediaIds := xs)
  }

  /** The parts of an event no list operation touches. */
  predicate SameApartFromLists(a: EventCard, b: EventCard) {
    && a.base.(updatedAt := b.base.updatedAt) == b.base
    && a.date == b.date && a.location == b.location && a.createdBy == b.createdBy
  }

  /** `add_person(p)` (with `x == p.id`), `add_emotion(x)` or `add_media(x)`:
      append `x` unless present, and then stamp the card. */
  function Add(e: EventCard, l: IdList, x: string, now: DateTime): (r: EventCard)
    ensures Ids(r, l) == AddIfAbsent(Ids(e, l), x)
    ensures forall m :: m != l ==> Ids(r, m) == Ids(e, m)
    ensures SameApartFromLists(e, r)
    ensures x in Ids(e, l) ==> r == e
    ensures x !in Ids(e, l) ==> r.base.updatedAt == Some(now)
  {
    if x in Ids(e, l) then e
    else WithIds(e, l, Ids(e, l) + [x]).(base := e.base.(updatedAt := Some(now)))
  }

  /** `remove_person(p)`, `remove_emotion(x)` or `remove_media(x)`: delete the
      first `x` if present, and then stamp the card. */
  function Remove(e: EventCard, l: IdList, x: string, now: DateTime): (r: EventCard)
    ensures Ids(r, l) == RemoveFirst(Ids(e, l), x)
    ensures forall m :: m != l ==> Ids(r, m) == Ids(e, m)
    ensures SameApartFromLists(e, r)
    ensures x !in Ids(e, l) ==> r == e
    ensures x in Ids(e, l) ==> r.base.updatedAt == Some(now)
  {
    if x in Ids(e, l) then WithIds(e, l, RemoveFirst(Ids(e, l), x)).(base := e.base.(updatedAt := Some(now)))
    else e
  }

  /** `set_location(place)`: the place's id becomes the location, and the card is stamped. */
  function SetLocation(e: EventCard, placeId: string, now: DateTime): (r: EventCard)
    ensures r.location == Some(placeId) && r.base.updatedAt == Some(now)
    ensures forall l :: Ids(r, l) == Ids(e, l)
    ensures r.base.(updatedAt := e.base.updatedAt) == e.base && r.date == e.date && r.createdBy == e.createdBy
  {
    e.(location := Some(placeId), base := e.base.(updatedAt := Some(now)))
  }

  /** Every list of an event is free of duplicates. */
  predicate ListsDistinct(e: EventCard) {
    forall l :: NoDup(Ids(e, l))
  }

  /** The list operations keep every list free of duplicates; after a remove the id is gone. */
  lemma ListOpsKeepDistinct(e: EventCard, l: IdList, x: string, now: DateTime)
    requires ListsDistinct(e)
    ensures ListsDistinct(Add(e, l, x, now)) && ListsDistinct(Remove(e, l, x, now))
    ensures x in Ids(Add(e, l, x, now), l) && x !in Ids(Remove(e, l, x, now), l)
  {
    RemoveFirstNoDup(Ids(e, l), x);
    var a, r := Add(e, l, x, now), Remove(e, l, x, now);
    forall m ensures NoDup(Ids(a, m)) && NoDup(Ids(r, m)) {
      if m != l { assert Ids(a, m) == Ids(e, m) && Ids(r, m) == Ids(e, m); }
    }
  }

  /** Adding twice is adding once, and removing a new id just added restores the list. */
  lemma AddRemoveInverse(e: EventCard, l: IdList, x: string, now: DateTime)
    ensures Add(Add(e, l, x, now), l, x, now) == Add(e, l, x, now)
    ensures x !in Ids(e, l) ==> Ids(Remove(Add(e, l, x, now), l, x, now), l) == Ids(e, l)
  {
    if x !in Ids(e, l) {
      RemoveUndoesAdd(Ids(e, l), x);
    }
  }

  // ---------------------------------------------------------------------
  // The dict form

  /** `to_dict()`: the base card's dict with the event's own keys laid over it. */
  datatype EventDict = EventDict(
    base: CardDict,
    date: Entry<Option<string>>,
    location: Entry<Option<string>>,
    participants: Entry<seq<string>>,
    emotions: Entry<seq<string>>,
    createdBy: Entry<Option<string>>,
    mediaIds: Entry<seq<string>>)

  /** The times of an event are real calendar times, as `isoformat` needs. */
  predicate Dated(e: EventCard) {
    && Valid(e.base.createdAt) && (e.base.updatedAt.Some? ==> Valid(e.base.updatedAt.value))
    && MediaValid(e.base.media) && (e.date.Some? ==> Valid(e.date.value))
  }

  function ToDict(e: EventCard): (d: EventDict)
    requires Dated(e)
    ensures d.base == CardBase.ToDict(e.base)
    ensures d.date.Has? && (d.date.value.None? <==> e.date.None?)
    ensures e.date.Some? ==> IsoParse(d.date.value.value) == Ok(e.date.value)
    ensures d.location == Has(e.location) && d.createdBy == Has(e.createdBy)
    ensures d.participants == Has(e.participants) && d.emotions == Has(e.emotions) && d.mediaIds == Has(e.mediaIds)
  {
    assert e.date.Some? ==> IsoParse(IsoFormat(e.date.value)) == Ok(e.date.value) by {
      if e.date.Some? { IsoRoundTrip(e.date.value); }
    }
    EventDict(CardBase.ToDict(e.base),
              Has(if e.date.Some? then Some(IsoFormat(e.date.value)) else None),
              Has(e.location), Has(e.participants), Has(e.emotions), Has(e.createdBy), Has(e.mediaIds))
  }

  /** `EventCard.from_dict(data)` at clock reading `now`: a missing title or
      description is a KeyError; the date is read only when truthy; the base
      times, metadata and image path are then overwritten from the dict; the
      base card's media list is not read back. */
  function FromDict(d: EventDict, now: DateTime, newId: Uuid, image: ImageOutcome): (r: Result<EventCard>)
    requires Valid(now)
    ensures d.base.title.Missing? || d.base.description.Missing? ==> r == Err(KeyError)
    // the date is parsed as an argument, before the constructor refuses blank text
    ensures d.base.title.Has? && d.base.description.Has? && ReadIfTruthy(d.date).Err? ==> r == Err(ReadIfTruthy(d.date).error)
    ensures d.base.title.Has? && d.base.description.Has? && ReadIfTruthy(d.date).Ok?
            && (Text.Strip(d.base.title.value) == "" || Text.Strip(d.base.description.value) == "") ==>
      r == Err(ValueError)
    ensures r.Ok? <==>
      && d.base.title.Has? && d.base.description.Has? && ReadIfTruthy(d.date).Ok?
      && Text.Strip(d.base.title.value) != "" && Text.Strip(d.base.description.value) != ""
      && (d.base.createdAt.Has? ==> IsoParse(d.base.createdAt.value).Ok?)
      && ReadIfTruthy(d.base.updatedAt).Ok?
    ensures r.Ok? ==> r.value.base.media == [] && TextValid(r.value.base) && r.value.base.id != ""
    ensures r.Ok? ==>
      && r.value.base.title == Text.Strip(d.base.title.value)
      && r.value.base.description == Text.Strip(d.base.description.value)
      && r.value.base.id == (if d.base.id.GetOr("") != "" then d.base.id.value else newId)
      && ReadIfTruthy(d.date) == Ok(r.value.date)
    ensures r.Ok? ==>
      && (d.base.createdAt.Has? ==> IsoParse(d.base.createdAt.value) == Ok(r.value.base.createdAt))
      && (d.base.createdAt.Missing? ==> r.value.base.createdAt == now)
      && ReadIfTruthy(d.base.updatedAt) == Ok(r.value.base.updatedAt)
    ensures r.Ok? ==>
      && r.value.base.metadata == d.base.metadata.GetOr(Json.Object(map[]))
      && r.value.base.imagePath == d.base.imagePath.GetOr("")
    ensures r.Ok? ==>
      && r.value.participants == d.participants.GetOr([]) && r.value.emotions == d.emotions.GetOr([])
      && r.value.mediaIds == d.mediaIds.GetOr([]) && r.value.location == d.location.GetOr(None)
      && r.value.createdBy == d.createdBy.GetOr(None)
  {
    if d.base.title.Missing? || d.base.description.Missing? then Err(KeyError)
    else
      var date :- ReadIfTruthy(d.date);
      var e :- New(d.base.title.value, d.base.description.value, date, d.location.GetOr(None),
                   Some(d.participants.GetOr([])), Some(d.emotions.GetOr([])), None, None,
                   if d.base.id.Has? then Some(d.base.id.value) else None,
                   d.createdBy.GetOr(None), Some(d.mediaIds.GetOr([])), now, newId, image);
      var created :- if d.base.createdAt.Has? then IsoParse(d.base.createdAt.value) else Ok(now);
      var updated :- ReadIfTruthy(d.base.updatedAt);
      Ok(e.(base := e.base.(createdAt := created, updatedAt := updated,
                            metadata := d.base.metadata.GetOr(Json.Object(map[])),
                            imagePath := d.base.imagePath.GetOr(""))))
  }

  /** `from_dict(to_dict(e))` gives `e` back for a well-formed event without
      base media: every event field and every base field survives. */
  lemma DictRoundTrip(e: EventCard, now: DateTime, newId: Uuid, image: ImageOutcome)
    requires WellFormed(e.base) && Dated(e) && e.base.media == [] && Valid(now)
    ensures FromDict(ToDict(e), now, newId, image) == Ok(e)
  {
    var d := ToDict(e);
    assert ReadIfTruthy(d.date) == Ok(e.date);
    assert ReadIfTruthy(d.base.updatedAt) == Ok(e.base.updatedAt);
    var b := e.base;
    var blank := b.(imagePath := ResolveImage("", image), metadata := Json.Object(map[]), createdAt := now, updatedAt := None);
    assert CardBase.New(b.title, b.description, Some(b.id), now, None, Json.Null, "", [], newId, image) == Ok(blank);
    var made := EventCard(blank.(updatedAt := Some(now)), e.date, e.location, e.participants, e.emotions, e.createdBy, e.mediaIds);
    assert New(b.title, b.description, e.date, e.location, Some(e.participants), Some(e.emotions), None, None,
               Some(b.id), e.createdBy, Some(e.mediaIds), now, newId, image) == Ok(made);
    FromDictParts(d, now, newId, image, e.date, made, b.createdAt, b.updatedAt);
    assert made.(base := made.base.(createdAt := b.createdAt, updatedAt := b.updatedAt, metadata := b.metadata, imagePath := b.imagePath)) == e;
  }

  /** `FromDict` assembled from the results of its reads. */
  lemma FromDictParts(d: EventDict, now: DateTime, newId: Uuid, image: ImageOutcome,
                      date: Option<DateTime>, made: EventCard, created: DateTime, updated: Option<DateTime>)
    requires Valid(now) && d.base.title.Has? && d.base.description.Has?
    requires ReadIfTruthy(d.date) == Ok(date)
    requires New(d.base.title.value, d.base.description.value, date, d.location.GetOr(None),
                 Some(d.participants.GetOr([])), Some(d.emotions.GetOr([])), None, None,
                 if d.base.id.Has? then Some(d.base.id.value) else None,
                 d.createdBy.GetOr(None), Some(d.mediaIds.GetOr([])), now, newId, image) == Ok(made)
    requires (if d.base.createdAt.Has? then IsoParse(d.base.createdAt.value) else Ok(now)) == Ok(created)
    requires ReadIfTruthy(d.base.updatedAt) == Ok(updated)
    ensures FromDict(d, now, newId, image)
         == Ok(made.(base := made.base.(createdAt := created, updatedAt := updated,
                                        metadata := d.base.metadata.GetOr(Json.Object(map[])),
                                        imagePath := d.base.imagePath.GetOr(""))))
  {
  }
}

=== FILE: filters.dfy ===
/** The client-side filters: `filterCards` of static/js/card_viewer.js and
    `filterEvents` / `handleZoom` of static/js/timeline.js.  The page's
    inputs (search box, type select, zoom level) become parameters. */
module Filters {
  import opened Text
  import opened Seqs

  /** A card as the viewer receives it from the server. */
  datatype ViewCard = ViewCard(id: string, title: string, description: string, cardType: string)

  /** The select option that turns the type filter off. */
  const All: string := "all"

  /** The card's title or description contains the (already lower-cased)
      search term, ignoring case. */
  predicate MatchesSearch(c: ViewCard, term: string) {
    Contains(Lower(c.title), term) || Contains(Lower(c.description), term)
  }

  predicate MatchesType(c: ViewCard, selectedType: string) {
    selectedType == All || c.cardType == selectedType
  }

  /** `filterCards()` with the search box holding `search` and the select
      holding `selectedType`: exactly the matching cards, in their order. */
  function FilterCards(cards: seq<ViewCard>, search: string, selectedType: string): (r: seq<ViewCard>)
    ensures IsSubsequence(r, cards)
    ensures forall c :: c in r ==> MatchesSearch(c, Lower(search)) && MatchesType(c, selectedType)
    ensures forall c :: c in cards && MatchesSearch(c, Lower(search)) && MatchesType(c, selectedType) ==>
      multiset(r)[c] == multiset(cards)[c]
    ensures selectedType != All ==> forall c :: c in r ==> c.cardType == selectedType
  {
    var term := Lower(search);
    var keep := (c: ViewCard) => MatchesSearch(c, term) && MatchesType(c, selectedType);
    FilterIsExact(cards, keep);
    Filter(cards, keep)
  }

  /** With an empty search and every type selected, all cards are shown. */
  lemma EmptySearchShowsAll(cards: seq<ViewCard>)
    ensures FilterCards(cards, "", All) == cards
  {
    var keep := (c: ViewCard) => MatchesSearch(c, Lower("")) && MatchesType(c, All);
    forall i | 0 <= i < |cards| ensures keep(cards[i]) {
      assert IsPrefix("", Lower(cards[i].title));
    }
    FilterAll(cards, keep);
  }

  /** The search ignores the case of the term itself. */
  lemma SearchIgnoresCase(cards: seq<ViewCard>, search: string, selectedType: string)
    ensures FilterCards(cards, search, selectedType) == FilterCards(cards, Lower(search), selectedType)
  {
    LowerIsLower(Lower(search));
    LowerIsLower(search);
  }

  // ---------------------------------------------------------------------
  // The timeline

  datatype TimelineEvent = TimelineEvent(id: string, title: string, eventType: string)

  /** `filterEvents()`: every event when "all" is selected, otherwise exactly
      the events of the selected type, in their order. */
  function FilterEvents(events: seq<TimelineEvent>, selectedType: string): (r: seq<TimelineEvent>)
    ensures selectedType == All ==> r == events
    ensures IsSubsequence(r, events)
    ensures selectedType != All ==> forall e :: e in r ==> e.eventType == selectedType
    ensures selectedType != All ==> forall e :: e in events && e.eventType == selectedType ==>
      multiset(r)[e] == multiset(events)[e]
  {
    if selectedType == All then
      SubsequenceRefl(events);
      events
    else
      var keep := (e: TimelineEvent) => e.eventType == selectedType;
      FilterIsExact(events, keep);
      Filter(events, keep)
  }

  /** Filtering by a type twice is filtering once. */
  lemma FilterEventsIdempotent(events: seq<TimelineEvent>, selectedType: string)
    ensures FilterEvents(FilterEvents(events, selectedType), selectedType) == FilterEvents(events, selectedType)
  {
    if selectedType != All {
      var r := FilterEvents(events, selectedType);
      FilterAll(r, (e: TimelineEvent) => e.eventType == selectedType);
    }
  }

  const MinZoom: real := 0.5
  const MaxZoom: real := 2.0

  /** `handleZoom(delta)`: `Math.max(0.5, Math.min(2, currentZoom + delta))`. */
  function Zoom(current: real, delta: real): (z: real)
    ensures MinZoom <= z <= MaxZoom
    ensures MinZoom <= current + delta <= MaxZoom ==> z == current + delta
    ensures current + delta > MaxZoom ==> z == MaxZoom
    ensures current + delta < MinZoom ==> z == MinZoom
  {
    var inner := if current + delta < MaxZoom then current + delta else MaxZoom;
    if MinZoom > inner then MinZoom else inner
  }

  /** The level after clicking through `deltas` in order: any run of clicks
      from a level within bounds stays within bounds. */
  function ZoomAll(start: real, deltas: seq<real>): (z: real)
    ensures |deltas| > 0 ==> MinZoom <= z <= MaxZoom
    ensures |deltas| == 0 ==> z == start
    ensures MinZoom <= start <= MaxZoom ==> MinZoom <= z <= MaxZoom
    decreases |deltas|
  {
    if |deltas| == 0 then start else ZoomAll(Zoom(start, deltas[0]), deltas[1..])
  }

  /** Clicking through `a` and then `b` is clicking through `a + b`. */
  lemma {:induction false} ZoomAllAppend(start: real, a: seq<real>, b: seq<real>)
    ensures ZoomAll(start, a + b) == ZoomAll(ZoomAll(start, a), b)
    decreases |a|
  {
    if |a| > 0 {
      assert (a + b)[0] == a[0] && (a + b)[1..] == a[1..] + b;
      ZoomAllAppend(Zoom(start, a[0]), a[1..], b);
    } else {
      assert a + b == b;
    }
  }
}

=== FILE: id_links.dfy ===
/** The pair of integer id lists that `LocationCard` (cards/location_card.py)
    and `EmotionCard` (cards/emotion_card.py) keep: `event_ids` and
    `memory_ids`, each maintained by append-if-absent / remove-if-present
    updates that stamp the card's `updated_at`, written out by `to_dict`
    and read back by `from_dict` with `[]` for a missing key.
 */
module IdLinks {
  import opened Outcomes
  import opened Calendar
  import opened Seqs
  import opened CardBase

  datatype Which = Events | Memories

  function Other(w: Which): Which {
    if w == Events then Memories else Events
  }

  datatype Links = Links(eventIds: seq<int>, memoryIds: seq<int>)

  /** What the constructors set: `self.event_ids = []`, `self.memory_ids = []`. */
  const NoLinks := Links([], [])

  function Ids(l: Links, w: Which): seq<int> {
    match w
    case Events => l.eventIds
    case Memories => l.memoryIds
  }

  function WithIds(l: Links, w: Which, xs: seq<int>): Links {
    match w
    case Events => l.(eventIds := xs)
    case Memories => l.(memoryIds := xs)
  }

  /** `add_event(id)` / `add_memory(id)` on a card whose base is `base`:
      append the id unless present, then stamp the card. */
  function Add(base: Card, l: Links, w: Which, id: int, now: DateTime): (r: (Card, Links))
    ensures Ids(r.1, w) == AddIfAbsent(Ids(l, w), id)
    ensures Ids(r.1, Other(w)) == Ids(l, Other(w))
    ensures id in Ids(l, w) ==> r == (base, l)
    ensures id !in Ids(l, w) ==> r.0 == base.(updatedAt := Some(now))
  {
    if id in Ids(l, w) then (base, l)
    else (base.(updatedAt := Some(now)), WithIds(l, w, Ids(l, w) + [id]))
  }

  /** `remove_event(id)` / `remove_memory(id)`: delete the id if present, then stamp the card. */
  function Remove(base: Card, l: Links, w: Which, id: int, now: DateTime): (r: (Card, Links))
    ensures Ids(r.1, w) == RemoveFirst(Ids(l, w), id)
    ensures Ids(r.1, Other(w)) == Ids(l, Other(w))
    ensures id !in Ids(l, w) ==> r == (base, l)
    ensures id in Ids(l, w) ==> r.0 == base.(updatedAt := Some(now))
  {
    if id in Ids(l, w) then (base.(updatedAt := Some(now)), WithIds(l, w, RemoveFirst(Ids(l, w), id)))
    else (base, l)
  }

  predicate Distinct(l: Links) {
    NoDup(l.eventIds) && NoDup(l.memoryIds)
  }

  /** Both operations keep both lists free of duplicates; a removed id is gone. */
  lemma OpsKeepDistinct(base: Card, l: Links, w: Which, id: int, now: DateTime)
    requires Distinct(l)
    ensures Distinct(Add(base, l, w, id, now).1) && Distinct(Remove(base, l, w, id, now).1)
    ensures id in Ids(Add(base, l, w, id, now).1, w) && id !in Ids(Remove(base, l, w, id, now).1, w)
  {
    RemoveFirstNoDup(Ids(l, w), id);
  }

  /** Removing a new id just added gives both lists back. */
  lemma RemoveUndoesAdd(base: Card, l: Links, w: Which, id: int, now: DateTime)
    requires id !in Ids(l, w)
    ensures Remove(base, Add(base, l, w, id, now).1, w, id, now).1 == l
  {
    Seqs.RemoveUndoesAdd(Ids(l, w), id);
  }

  /** The `event_ids` and `memory_ids` keys of a card dict. */
  datatype LinksDict = LinksDict(eventIds: Entry<seq<int>>, memoryIds: Entry<seq<int>>)

  function ToDict(l: Links): (d: LinksDict)
    ensures d.eventIds == Has(l.eventIds) && d.memoryIds == Has(l.memoryIds)
  {
    LinksDict(Has(l.eventIds), Has(l.memoryIds))
  }

  /** `data.get('event_ids', [])` and `data.get('memory_ids', [])`. */
  function FromDict(d: LinksDict): (l: Links)
    ensures d.eventIds.Missing? ==> l.eventIds == []
    ensures d.memoryIds.Missing? ==> l.memoryIds == []
    ensures d.eventIds.Has? ==> l.eventIds == d.eventIds.value
    ensures d.memoryIds.Has? ==> l.memoryIds == d.memoryIds.value
  {
    Links(d.eventIds.GetOr([]), d.memoryIds.GetOr([]))
  }

  /** Reading back what was written gives both lists back. */
  lemma DictRoundTrip(l: Links)
    ensures FromDict(ToDict(l)) == l
  {
  }
}

=== FILE: interview.dfy ===
/** The interview state machine of routes/interview.py.

    `INTERVIEW_QUESTIONS` is an ordered table from stage name to the stage's
    questions.  `InterviewStage` walks it forward one question at a time:
    within a stage, then to the first question of the next stage, and
    finally into the terminal `completed` state.  Progress is the share of
    questions that lie before the current one.

    The table is a parameter `bank` of every operation, and
    `InterviewQuestions` is the repository's own table.
 */
module Interview {
  import opened Outcomes
  import opened Calendar

  /** One entry of the question table: a stage name and the text of its questions. */
  datatype Stage = Stage(name: string, questions: seq<string>)

  type Bank = seq<Stage>

  /** `INTERVIEW_QUESTIONS` as the repository declares it. */
  const InterviewQuestions: Bank := [
    Stage("welcome", ["Are you ready to begin your life story interview?"]),
    Stage("foundations", [
      "What is your full name and when were you born?",
      "Where were you born and where did you grow up?",
      "Tell me about your parents and siblings.",
      "What are your earliest memories?"]),
    Stage("childhood", [
      "What was your childhood home like?",
      "What were your favorite activities as a child?",
      "Who were your closest friends growing up?"])
  ]

  /** The stage a fresh `InterviewStage()` starts in. */
  const FirstStageName := "welcome"

  /** A table that can be a Python dict (unique keys) and has a question in every stage. */
  predicate WellFormed(bank: Bank) {
    && |bank| > 0
    && (forall i, j :: 0 <= i < j < |bank| ==> bank[i].name != bank[j].name)
    && (forall i :: 0 <= i < |bank| ==> |bank[i].questions| > 0)
  }

  /** `list(INTERVIEW_QUESTIONS.keys()).index(name)`, or None where Python raises ValueError. */
  function StageIndex(bank: Bank, name: string): (r: Option<nat>)
    ensures r.Some? ==> r.value < |bank| && bank[r.value].name == name
    ensures r.Some? ==> forall j :: 0 <= j < r.value ==> bank[j].name != name
    ensures r.None? ==> forall j :: 0 <= j < |bank| ==> bank[j].name != name
  {
    if |bank| == 0 then None
    else if bank[0].name == name then Some(0)
    else
      match StageIndex(bank[1..], name)
      case None => None
      case Some(i) => Some(i + 1)
  }

  /** `INTERVIEW_QUESTIONS.get(name, [])`. */
  function QuestionsOf(bank: Bank, name: string): seq<string> {
    match StageIndex(bank, name)
    case Some(k) => bank[k].questions
    case None => []
  }

  /** The number of questions in the first `k` stages. */
  function Earlier(bank: Bank, k: nat): nat
    requires k <= |bank|
  {
    if k == 0 then 0 else Earlier(bank, k - 1) + |bank[k - 1].questions|
  }

  /** The number of questions in the whole table. */
  function Total(bank: Bank): nat {
    Earlier(bank, |bank|)
  }

  /** One entry of the interview's `answers` list. */
  datatype AnswerRecord = AnswerRecord(question: string, answer: string, stage: string, timestamp: string)

  /** The fields of an `InterviewStage` object. */
  datatype State = State(stage: string, index: nat, answers: seq<AnswerRecord>, completed: bool, createdAt: DateTime)

  /** `InterviewStage()`, created at clock time `now`. */
  function Initial(now: DateTime): (s: State)
    ensures s.stage == FirstStageName && s.index == 0 && s.answers == [] && !s.completed
  {
    State(FirstStageName, 0, [], false, now)
  }

  /** `advance()`: the successor state and whether the interview is now complete. */
  function Advance(bank: Bank, s: State): (r: (State, bool))
    // a completed interview is absorbing
    ensures s.completed ==> r == (s, true)
    // the answer log and the creation time never change
    ensures r.0.answers == s.answers && r.0.createdAt == s.createdAt
    // the flag returned is the completion flag of the new state
    ensures r.1 <==> r.0.completed
    // not the last question of the stage: the next question of the same stage
    ensures !s.completed && s.index + 1 < |QuestionsOf(bank, s.stage)| ==>
      r.0.stage == s.stage && r.0.index == s.index + 1 && !r.1
    // the last question of a stage with a successor: its first question
    ensures !s.completed && s.index + 1 >= |QuestionsOf(bank, s.stage)|
            && StageIndex(bank, s.stage).Some? && StageIndex(bank, s.stage).value + 1 < |bank| ==>
      r.0.stage == bank[StageIndex(bank, s.stage).value + 1].name && r.0.index == 0 && !r.1
    // the last question of the last stage, or a stage missing from the table: completion
    ensures !s.completed && s.index + 1 >= |QuestionsOf(bank, s.stage)|
            && (StageIndex(bank, s.stage).None? || StageIndex(bank, s.stage).value + 1 == |bank|) ==>
      r.0 == s.(completed := true) && r.1
  {
    if s.completed then (s, true)
    else
      var questions := QuestionsOf(bank, s.stage);
      if s.index < |questions| - 1 then (s.(index := s.index + 1), false)
      else
        match StageIndex(bank, s.stage)
        case None => (s.(completed := true), true)
        case Some(k) =>
          if k < |bank| - 1 then (s.(stage := bank[k + 1].name, index := 0), false)
          else (s.(completed := true), true)
  }

  /** `get_current_question()`: the text of the current question, if any. */
  function CurrentQuestion(bank: Bank, s: State): (q: Option<string>)
    ensures q.None? <==> s.completed || s.index >= |QuestionsOf(bank, s.stage)|
    ensures q.Some? ==> q.value == QuestionsOf(bank, s.stage)[s.index]
  {
    if s.completed then None
    else
      var questions := QuestionsOf(bank, s.stage);
      if s.index < |questions| then Some(questions[s.index]) else None
  }

  /** `get_progress()`, a percentage: the share of the table's questions
      before the current one, 100 once complete, and 0 for a stage missing
      from the table or an empty table. */
  function Progress(bank: Bank, s: State): (p: real)
    ensures s.completed ==> p == 100.0
    ensures !s.completed && (Total(bank) == 0 || StageIndex(bank, s.stage).None?) ==> p == 0.0
    ensures !s.completed && Total(bank) != 0 && StageIndex(bank, s.stage).Some? ==>
      p * Total(bank) as real == Position(bank, s) as real * 100.0
    ensures 0.0 <= p
  {
    if s.completed then 100.0
    else
      var total := Total(bank);
      if total == 0 then 0.0
      else
        match StageIndex(bank, s.stage)
        case None => 0.0
        case Some(k) => ((Earlier(bank, k) + s.index) as real / total as real) * 100.0
  }

  // ---------------------------------------------------------------------
  // Reachable states and the position of a state in the walk

  /** The invariant of every state the machine reaches: a completed
      interview, or a known stage with the index on one of its questions. */
  predicate InRange(bank: Bank, s: State) {
    s.completed || (StageIndex(bank, s.stage).Some? && s.index < |QuestionsOf(bank, s.stage)|)
  }

  /** How many questions precede the current one in table order. */
  function Position(bank: Bank, s: State): nat
    requires StageIndex(bank, s.stage).Some?
  {
    Earlier(bank, StageIndex(bank, s.stage).value) + s.index
  }

  lemma {:induction false} EarlierMonotone(bank: Bank, j: nat, k: nat)
    requires j <= k <= |bank|
    ensures Earlier(bank, j) <= Earlier(bank, k)
    decreases k
  {
    if j < k {
      EarlierMonotone(bank, j, k - 1);
    }
  }

  /** In a well-formed table the stage at position `k` is found at position `k`. */
  lemma StageIndexOfName(bank: Bank, k: nat)
    requires WellFormed(bank) && k < |bank|
    ensures StageIndex(bank, bank[k].name) == Some(k)
  {
  }

  /** An in-range state that is not complete reports a question, and its
      progress lies strictly below 100. */
  lemma InRangeProgress(bank: Bank, s: State)
    requires InRange(bank, s) && !s.completed
    ensures CurrentQuestion(bank, s).Some?
    ensures Position(bank, s) < Total(bank)
    ensures Progress(bank, s) == (Position(bank, s) as real / Total(bank) as real) * 100.0
    ensures 0.0 <= Progress(bank, s) < 100.0
  {
    var k := StageIndex(bank, s.stage).value;
    EarlierMonotone(bank, k + 1, |bank|);
    RatioBelowOne(Position(bank, s) as real, Total(bank) as real);
  }

  lemma RatioBelowOne(p: real, t: real)
    requires 0.0 <= p < t
    ensures 0.0 <= p / t < 1.0
  {
    assert (p / t) * t == p;
  }

  /** Progress is exactly 100 when the interview is complete, and only then (for reachable states). */
  lemma ProgressHundredIffCompleted(bank: Bank, s: State)
    requires InRange(bank, s)
    ensures Progress(bank, s) == 100.0 <==> s.completed
  {
    if !s.completed {
      InRangeProgress(bank, s);
    }
  }

  /** A stage missing from the table gives progress 0 while the interview is not complete. */
  lemma UnknownStageProgress(bank: Bank, s: State)
    requires StageIndex(bank, s.stage).None? && !s.completed
    ensures Progress(bank, s) == 0.0
    ensures Advance(bank, s) == (s.(completed := true), true)
  {
  }

  /** One `advance()` from a reachable, unfinished state: either the walk
      moves one question forward and stays in range, or the current question
      was the very last one and the interview completes. */
  lemma AdvanceStep(bank: Bank, s: State)
    requires WellFormed(bank) && InRange(bank, s) && !s.completed
    ensures var (t, done) := Advance(bank, s);
      && InRange(bank, t)
      && (done <==> Position(bank, s) + 1 == Total(bank))
      && (!done ==> Position(bank, t) == Position(bank, s) + 1)
  {
    var k := StageIndex(bank, s.stage).value;
    EarlierMonotone(bank, k + 1, |bank|);
    if s.index + 1 == |bank[k].questions| && k + 1 < |bank| {
      StageIndexOfName(bank, k + 1);
      EarlierMonotone(bank, k + 2, |bank|);
    }
  }

  /** Each question answered adds one question's share of 100 to progress;
      the last one takes it to 100. */
  lemma AdvanceProgress(bank: Bank, s: State)
    requires WellFormed(bank) && InRange(bank, s) && !s.completed
    ensures var (t, done) := Advance(bank, s);
      && (!done ==> Progress(bank, t) == Progress(bank, s) + 100.0 / Total(bank) as real)
      && (done ==> Progress(bank, t) == 100.0)
  {
    AdvanceStep(bank, s);
    var (t, done) := Advance(bank, s);
    if !done {
      InRangeProgress(bank, s);
      InRangeProgress(bank, t);
      ShareStep(Position(bank, s) as real, Total(bank) as real);
    }
  }

  lemma ShareStep(p: real, n: real)
    requires n > 0.0
    ensures ((p + 1.0) / n) * 100.0 == (p / n) * 100.0 + 100.0 / n
  {
  }

  /** Progress never decreases along `advance()`. */
  lemma ProgressMonotone(bank: Bank, s: State)
    requires WellFormed(bank) && InRange(bank, s)
    ensures Progress(bank, s) <= Progress(bank, Advance(bank, s).0)
  {
    if !s.completed {
      AdvanceStep(bank, s);
      AdvanceProgress(bank, s);
      InRangeProgress(bank, s);
      var t := Advance(bank, s).0;
      if !t.completed {
        assert 100.0 / Total(bank) as real > 0.0;
      }
    }
  }

  /** `n` successive calls of `advance()`. */
  function Run(bank: Bank, s: State, n: nat): State
    decreases n
  {
    if n == 0 then s else Run(bank, Advance(bank, s).0, n - 1)
  }

  /** Every (stage, question index) pair of the table, in declared order. */
  function Entries(bank: Bank, k: nat): (es: seq<(string, nat)>)
    requires k <= |bank|
    ensures |es| == Earlier(bank, k)
  {
    if k == 0 then []
    else
      var st := bank[k - 1];
      Entries(bank, k - 1) + seq(|st.questions|, i requires 0 <= i < |st.questions| => (st.name, i))
  }

  /** Entry number `Earlier(j) + i` is question `i` of stage `j`. */
  lemma {:induction false} EntriesAt(bank: Bank, k: nat, j: nat, i: nat)
    requires k <= |bank| && j < k && i < |bank[j].questions|
    ensures Earlier(bank, j) + i < Earlier(bank, k)
    ensures Entries(bank, k)[Earlier(bank, j) + i] == (bank[j].name, i)
    decreases k
  {
    EarlierMonotone(bank, j + 1, k);
    if j < k - 1 {
      EntriesAt(bank, k - 1, j, i);
      EarlierMonotone(bank, j + 1, k - 1);
    }
  }

  /** Starting on the first question of the first stage, the first
      `Total(bank)` calls of `advance()` visit every table entry once, in
      declared order, and the last of them completes the interview. */
  lemma {:induction false} RunVisitsEveryQuestion(bank: Bank, s: State, n: nat)
    requires WellFormed(bank) && s.stage == bank[0].name && s.index == 0 && !s.completed
    requires n <= Total(bank)
    ensures InRange(bank, Run(bank, s, n))
    ensures n < Total(bank) ==> !Run(bank, s, n).completed && Position(bank, Run(bank, s, n)) == n
    ensures n < Total(bank) ==> (Run(bank, s, n).stage, Run(bank, s, n).index) == Entries(bank, |bank|)[n]
    ensures n == Total(bank) ==> Run(bank, s, n).completed
    decreases n
  {
    if n == 0 {
      StageIndexOfName(bank, 0);
      EarlierMonotone(bank, 1, |bank|);
      EntriesAt(bank, |bank|, 0, 0);
    } else {
      RunVisitsEveryQuestion(bank, s, n - 1);
      RunStep(bank, s, n);
    }
  }

  /** The inductive step of the walk: one more `advance()` from entry `n - 1`. */
  lemma RunStep(bank: Bank, s: State, n: nat)
    requires WellFormed(bank) && 0 < n <= Total(bank)
    requires InRange(bank, Run(bank, s, n - 1)) && !Run(bank, s, n - 1).completed
    requires Position(bank, Run(bank, s, n - 1)) == n - 1
    ensures InRange(bank, Run(bank, s, n))
    ensures n < Total(bank) ==> !Run(bank, s, n).completed && Position(bank, Run(bank, s, n)) == n
    ensures n < Total(bank) ==> (Run(bank, s, n).stage, Run(bank, s, n).index) == Entries(bank, |bank|)[n]
    ensures n == Total(bank) ==> Run(bank, s, n).completed
  {
    var prev := Run(bank, s, n - 1);
    RunLast(bank, s, n - 1);
    AdvanceStep(bank, prev);
    if n < Total(bank) {
      EntryOfPosition(bank, Run(bank, s, n));
    }
  }

  /** An unfinished in-range state is at entry `Position` of the table. */
  lemma EntryOfPosition(bank: Bank, t: State)
    requires InRange(bank, t) && !t.completed
    ensures Position(bank, t) < Total(bank)
    ensures (t.stage, t.index) == Entries(bank, |bank|)[Position(bank, t)]
  {
    var k := StageIndex(bank, t.stage).value;
    EntryAt(bank, t, k);
  }

  /** The same, for a state whose stage is known to be stage `k`. */
  lemma EntryAt(bank: Bank, t: State, k: nat)
    requires StageIndex(bank, t.stage) == Some(k) && t.index < |bank[k].questions|
    ensures Position(bank, t) < Total(bank)
    ensures (t.stage, t.index) == Entries(bank, |bank|)[Position(bank, t)]
  {
    EntriesAt(bank, |bank|, k, t.index);
  }

  /** `Run(s, n + 1)` is one more `advance()` after `Run(s, n)`. */
  lemma {:induction false} RunLast(bank: Bank, s: State, n: nat)
    ensures Run(bank, s, n + 1) == Advance(bank, Run(bank, s, n)).0
    decreases n
  {
    if n > 0 {
      RunLast(bank, Advance(bank, s).0, n - 1);
    }
  }

  /** The repository's table: three stages, eight questions. */
  lemma InterviewQuestionsShape()
    ensures WellFormed(InterviewQuestions)
    ensures InterviewQuestions[0].name == FirstStageName
    ensures Total(InterviewQuestions) == 8
  {
    var b := InterviewQuestions;
    assert Earlier(b, 1) == 1;
    assert Earlier(b, 2) == 5;
    assert Earlier(b, 3) == 8;
  }

  /** A fresh interview is complete after exactly eight answers: the first
      seven calls of `advance()` leave it unfinished, the eighth finishes it. */
  lemma EightAdvancesComplete(now: DateTime)
    ensures forall n :: 0 <= n < 8 ==> !Run(InterviewQuestions, Initial(now), n).completed
    ensures Run(InterviewQuestions, Initial(now), 8).completed
  {
    InterviewQuestionsShape();
    forall n | 0 <= n < 8
      ensures !Run(InterviewQuestions, Initial(now), n).completed
    {
      RunVisitsEveryQuestion(InterviewQuestions, Initial(now), n);
    }
    RunVisitsEveryQuestion(InterviewQuestions, Initial(now), 8);
  }

  // ---------------------------------------------------------------------
  // The dict form stored in the web session

  /** The dict `to_dict()` produces; every key may be missing from stored data. */
  datatype StageDict = StageDict(
    currentStage: Entry<string>,
    currentQuestionIndex: Entry<nat>,
    answers: Entry<seq<AnswerRecord>>,
    completed: Entry<bool>,
    createdAt: Entry<string>)

  /** What the session holds under `'interview_stage'`: a dict, or some other value. */
  datatype Payload = NotADict | Dict(fields: StageDict)

  /** `to_dict()`: every field, with the creation time as ISO 8601 text. */
  function ToDict(s: State): (d: StageDict)
    requires Valid(s.createdAt)
    ensures d.currentStage == Has(s.stage) && d.currentQuestionIndex == Has(s.index)
    ensures d.answers == Has(s.answers) && d.completed == Has(s.completed)
    ensures d.createdAt.Has? && IsoParse(d.createdAt.value) == Ok(s.createdAt)
  {
    IsoRoundTrip(s.createdAt);
    StageDict(Has(s.stage), Has(s.index), Has(s.answers), Has(s.completed), Has(IsoFormat(s.createdAt)))
  }

  /** `InterviewStage.from_dict(data)`: a non-dict raises ValueError, missing
      keys take the defaults of a fresh interview, and an unreadable
      creation time raises ValueError. */
  function FromDict(p: Payload, now: DateTime): (r: Result<State>)
    requires Valid(now)
    ensures p.NotADict? ==> r == Err(ValueError)
    ensures r.Ok? ==> Valid(r.value.createdAt)
    ensures p.Dict? ==> (r.Ok? <==> IsoParse(p.fields.createdAt.GetOr(IsoFormat(now))).Ok?)
    ensures p.Dict? && r.Ok? ==>
      && r.value.stage == p.fields.currentStage.GetOr(FirstStageName)
      && r.value.index == p.fields.currentQuestionIndex.GetOr(0)
      && r.value.answers == p.fields.answers.GetOr([])
      && r.value.completed == p.fields.completed.GetOr(false)
    ensures p.Dict? && r.Ok? ==>
      && IsoParse(p.fields.createdAt.GetOr(IsoFormat(now))) == Ok(r.value.createdAt)
      && (p.fields.createdAt.Missing? ==> r.value.createdAt == now)
  {
    IsoRoundTrip(now);
    match p
    case NotADict => Err(ValueError)
    case Dict(d) =>
      var created := IsoParse(d.createdAt.GetOr(IsoFormat(now)));
      if created.Err? then Err(created.error)
      else
        Ok(State(d.currentStage.GetOr(FirstStageName), d.currentQuestionIndex.GetOr(0),
                 d.answers.GetOr([]), d.completed.GetOr(false), created.value))
  }

  /** `from_dict(to_dict(s))` reproduces every field of `s`. */
  lemma DictRoundTrip(s: State, now: DateTime)
    requires Valid(s.createdAt) && Valid(now)
    ensures FromDict(Dict(ToDict(s)), now) == Ok(s)
  {
  }

  /** An empty dict reads as a fresh interview created at `now`. */
  lemma EmptyDictIsFresh(now: DateTime)
    requires Valid(now)
    ensures FromDict(Dict(StageDict(Missing, Missing, Missing, Missing, Missing)), now) == Ok(Initial(now))
  {
    IsoRoundTrip(now);
  }
}

=== FILE: interview_alt.dfy ===
/** The second `InterviewStage` of the repository, models/interview_stage.py.

    It does not walk a question table: the caller sets the current question,
    `add_answer` logs an answer against it, and progress counts answers,
    ten points each, held at 90 until the interview is complete.  Its
    creation time is kept as ISO text and copied through the dict form
    unparsed.
 */
module SimpleInterview {
  import opened Outcomes
  import Interview

  type AnswerRecord = Interview.AnswerRecord

  const StartStage := "foundations"

  datatype State = State(
    stage: string,
    currentQuestion: Option<string>,
    answers: seq<AnswerRecord>,
    completed: bool,
    createdAt: string)

  /** `InterviewStage()`, with `nowIso` the clock reading as ISO text. */
  function Initial(nowIso: string): (s: State)
    ensures s.stage == StartStage && s.currentQuestion.None? && s.answers == [] && !s.completed
    ensures s.createdAt == nowIso
  {
    State(StartStage, None, [], false, nowIso)
  }

  /** Python truthiness of `current_question`: set and not the empty string. */
  predicate HasQuestion(s: State) {
    s.currentQuestion.Some? && s.currentQuestion.value != ""
  }

  /** `add_answer(answer)` at clock reading `nowIso`. */
  function AddAnswer(s: State, answer: string, nowIso: string): (t: State)
    // without a current question nothing happens
    ensures !HasQuestion(s) ==> t == s
    // otherwise exactly one record is appended, tagged with the current
    // question and stage, and nothing else changes
    ensures HasQuestion(s) ==>
      && t.answers == s.answers + [Interview.AnswerRecord(s.currentQuestion.value, answer, s.stage, nowIso)]
      && t == s.(answers := t.answers)
  {
    if HasQuestion(s) then
      s.(answers := s.answers + [Interview.AnswerRecord(s.currentQuestion.value, answer, s.stage, nowIso)])
    else s
  }

  /** `get_progress()`, a percentage: 100 once complete, otherwise ten per
      answer, capped at 90. */
  function Progress(s: State): (p: real)
    ensures s.completed ==> p == 100.0
    ensures !s.completed ==> 0.0 <= p <= 90.0 && (p == 90.0 || p == (10 * |s.answers|) as real)
  {
    if s.completed then 100.0
    else (if 10 * |s.answers| < 90 then 10 * |s.answers| else 90) as real
  }

  /** Progress is 100 exactly when complete, and otherwise at most 90. */
  lemma ProgressBounds(s: State)
    ensures Progress(s) == 100.0 <==> s.completed
    ensures !s.completed ==> 0.0 <= Progress(s) <= 90.0
    ensures !s.completed && |s.answers| <= 9 ==> Progress(s) == (10 * |s.answers|) as real
  {
  }

  /** Progress depends on nothing but the completion flag and the number of answers. */
  lemma ProgressOnlyCountsAnswers(s: State, t: State)
    requires s.completed == t.completed && |s.answers| == |t.answers|
    ensures Progress(s) == Progress(t)
  {
  }

  /** Adding an answer never lowers progress, and raises it by ten while below the cap. */
  lemma AddAnswerProgress(s: State, answer: string, nowIso: string)
    ensures Progress(s) <= Progress(AddAnswer(s, answer, nowIso))
    ensures HasQuestion(s) && !s.completed && |s.answers| < 9 ==>
      Progress(AddAnswer(s, answer, nowIso)) == Progress(s) + 10.0
  {
  }

  /** The dict form; `current_question` may be stored as null. */
  datatype StageDict = StageDict(
    currentStage: Entry<string>,
    currentQuestion: Entry<Option<string>>,
    answers: Entry<seq<AnswerRecord>>,
    completed: Entry<bool>,
    createdAt: Entry<string>)

  /** What `from_dict` may be handed: a dict, or an object without `.get`. */
  datatype Payload = NotADict | Dict(fields: StageDict)

  /** `to_dict()`: every field under its key. */
  function ToDict(s: State): (d: StageDict)
    ensures d.currentStage == Has(s.stage) && d.currentQuestion == Has(s.currentQuestion)
    ensures d.answers == Has(s.answers) && d.completed == Has(s.completed) && d.createdAt == Has(s.createdAt)
  {
    StageDict(Has(s.stage), Has(s.currentQuestion), Has(s.answers), Has(s.completed), Has(s.createdAt))
  }

  /** `from_dict(data)`: missing keys take the values of a fresh interview; a
      value without `.get` raises AttributeError. */
  function FromDict(p: Payload, nowIso: string): (r: Result<State>)
    ensures r.Err? <==> p.NotADict?
    ensures r.Err? ==> r.error == AttributeError
    ensures p.Dict? ==>
      && r.value.stage == p.fields.currentStage.GetOr(StartStage)
      && r.value.currentQuestion == p.fields.currentQuestion.GetOr(None)
      && r.value.answers == p.fields.answers.GetOr([])
      && r.value.completed == p.fields.completed.GetOr(false)
      && r.value.createdAt == p.fields.createdAt.GetOr(nowIso)
  {
    match p
    case NotADict => Err(AttributeError)
    case Dict(d) =>
      Ok(State(d.currentStage.GetOr(StartStage), d.currentQuestion.GetOr(None), d.answers.GetOr([]),
               d.completed.GetOr(false), d.createdAt.GetOr(nowIso)))
  }

  /** `from_dict(to_dict(s))` reproduces all five fields. */
  lemma DictRoundTrip(s: State, nowIso: string)
    ensures FromDict(Dict(ToDict(s)), nowIso) == Ok(s)
  {
  }

  /** An empty dict reads as a fresh interview. */
  lemma EmptyDictIsFresh(nowIso: string)
    ensures FromDict(Dict(StageDict(Missing, Missing, Missing, Missing, Missing)), nowIso) == Ok(Initial(nowIso))
  {
  }
}

=== FILE: interview_client.dfy ===
/** The browser side of the interview, static/js/interview.js: the stage and
    question index the page keeps, how a submitted answer moves them, and
    the progress bar width.

    The stage table `INTERVIEW_STAGES` is a parameter: an ordered list of
    stages, each under a key, with a display name, its questions and the key
    of the stage that follows it (absent, or empty, on the last stage).  The
    server's reply is reduced to whether it was a success.
 */
module InterviewClient {
  import opened Outcomes
  import opened Text
  import Interview

  datatype ClientStage = ClientStage(key: string, name: string, questions: seq<string>, next: Option<string>)

  type Stages = seq<ClientStage>

  /** The page state: the current stage key, the question index, and whether
      the page has navigated away to the card list. */
  datatype Page = Page(stage: string, index: nat, left: bool)

  const StartStage := "foundations"

  /** The page as it loads. */
  function Initial(): (p: Page)
    ensures p.stage == StartStage && p.index == 0 && !p.left
  {
    Page(StartStage, 0, false)
  }

  /** `INTERVIEW_STAGES[key]`: the first stage under `key`, found as the
      server finds a stage in its own table. */
  function Lookup(stages: Stages, key: string): Option<nat> {
    Interview.StageIndex(ToBank(stages), key)
  }

  /** JavaScript truthiness of `stage.next`. */
  predicate HasNext(st: ClientStage) {
    st.next.Some? && st.next.value != ""
  }

  /** The submit handler, for the answer typed and whether the server
      accepted it.  Returns the new page state and whether a request was
      sent.  A stage key missing from the table makes the handler throw
      inside its `try`, which only logs: the state stays as it was. */
  function Submit(stages: Stages, p: Page, answer: string, accepted: bool): (out: (Page, bool))
    // a blank answer sends nothing and changes nothing
    ensures Trim(answer) == "" ==> out == (p, false)
    ensures Trim(answer) != "" ==> out.1
    // a refused answer changes nothing
    ensures !accepted ==> out.0 == p
    // a success on a question before the last of its stage moves to the next question
    ensures Trim(answer) != "" && accepted && Lookup(stages, p.stage).Some?
            && p.index + 1 < |stages[Lookup(stages, p.stage).value].questions| ==>
      out.0 == p.(index := p.index + 1)
    // a success on the last question moves to the following stage, or leaves the page
    ensures Trim(answer) != "" && accepted && Lookup(stages, p.stage).Some?
            && p.index + 1 >= |stages[Lookup(stages, p.stage).value].questions| ==>
      var st := stages[Lookup(stages, p.stage).value];
      out.0 == (if HasNext(st) then Page(st.next.value, 0, p.left) else p.(left := true))
  {
    if Trim(answer) == "" then (p, false)
    else if !accepted then (p, true)
    else
      match Lookup(stages, p.stage)
      case None => (p, true)
      case Some(k) =>
        var st := stages[k];
        if p.index < |st.questions| - 1 then (p.(index := p.index + 1), true)
        else if HasNext(st) then (Page(st.next.value, 0, p.left), true)
        else (p.(left := true), true)
  }

  /** The progress bar width of `updateUI`: the position of the current stage
      among the stage keys, as a percentage of the number of stages.  None
      where `updateUI` throws first, on a stage key missing from the table. */
  function Progress(stages: Stages, p: Page): (r: Option<real>)
    ensures r.Some? <==> Lookup(stages, p.stage).Some?
    ensures r.Some? ==> 0.0 <= r.value < 100.0
    ensures r.Some? ==> r.value * |stages| as real == Lookup(stages, p.stage).value as real * 100.0
  {
    match Lookup(stages, p.stage)
    case None => None
    case Some(k) =>
      var w := k as real * 100.0 / |stages| as real;
      assert w < 100.0 by { BelowHundred(k, |stages|); }
      Some(w)
  }

  lemma BelowHundred(k: nat, n: nat)
    requires k < n
    ensures k as real * 100.0 / n as real < 100.0
  {
    var x := k as real * 100.0 / n as real;
    assert x * n as real == k as real * 100.0;
  }

  /** The bar ignores the question index: it moves only when the stage changes. */
  lemma ProgressIgnoresIndex(stages: Stages, p: Page, i: nat)
    ensures Progress(stages, p.(index := i)) == Progress(stages, p)
  {
  }

  /** A submission inside a stage leaves the bar where it was. */
  lemma WithinStageKeepsProgress(stages: Stages, p: Page, answer: string, accepted: bool)
    ensures Submit(stages, p, answer, accepted).0.stage == p.stage ==>
      Progress(stages, Submit(stages, p, answer, accepted).0) == Progress(stages, p)
  {
  }

  // ---------------------------------------------------------------------
  // Agreement with the server's machine

  /** A client table that mirrors a server table: unique keys, a question in
      every stage, and each stage's `next` naming the stage after it. */
  predicate Chained(stages: Stages) {
    && |stages| > 0
    && (forall i, j :: 0 <= i < j < |stages| ==> stages[i].key != stages[j].key)
    && (forall i :: 0 <= i < |stages| ==> |stages[i].questions| > 0)
    && (forall i :: 0 < i < |stages| ==> stages[i - 1].next == Some(stages[i].key) && stages[i].key != "")
    && stages[|stages| - 1].next.None?
  }

  /** The server's question table with the same keys and questions. */
  function ToBank(stages: Stages): (bank: Interview.Bank)
    ensures |bank| == |stages|
    ensures forall i :: 0 <= i < |stages| ==> bank[i] == Interview.Stage(stages[i].key, stages[i].questions)
  {
    seq(|stages|, i requires 0 <= i < |stages| => Interview.Stage(stages[i].key, stages[i].questions))
  }

  /** On a chained table, an accepted answer moves the page exactly as the
      server's `advance()` moves the interview: same stage, same index, and
      the page leaves when the server reports completion. */
  lemma SubmitMirrorsAdvance(stages: Stages, p: Page, answer: string, s: Interview.State)
    requires Chained(stages) && !p.left && Trim(answer) != ""
    requires s.stage == p.stage && s.index == p.index && !s.completed
    requires Lookup(stages, p.stage).Some? && p.index < |stages[Lookup(stages, p.stage).value].questions|
    ensures var (q, _) := Submit(stages, p, answer, true);
      var (t, done) := Interview.Advance(ToBank(stages), s);
      && (q.left <==> done)
      && (!done ==> q.stage == t.stage && q.index == t.index)
  {
  }
}

=== FILE: interview_routes.dfy ===
/** The two HTTP handlers of routes/interview.py, over the interview kept in
    the web session under `'interview_stage'`.

    A handler takes the session value (absent, or the stored payload), the
    request and the clock reading, and returns the reply together with the
    session value afterwards.  A raised exception becomes a 500 reply
    carrying the error, as the handlers' `except Exception` does.
 */
module InterviewRoutes {
  import opened Outcomes
  import opened Calendar
  import opened Text
  import opened Interview

  /** The session value under `'interview_stage'`. */
  type Session = Option<Payload>

  /** The JSON body of a POST, as `submit_answer` sees it. */
  datatype Body =
    /** No body, or a falsy one (`null`, `{}`, `[]`, `""`, `0`, `false`). */
    | NoBody
    /** A dict that may hold a text `answer`.  A truthy list or string that
        does not contain "answer" behaves the same as a dict without it. */
    | Answer(answer: Entry<string>)
    /** A truthy number or `true`: `'answer' in data` raises TypeError. */
    | NotIterable
    /** A list or string containing "answer": `data['answer']` raises TypeError. */
    | NotADict
    /** A dict whose `answer` is not a string: `.strip()` raises AttributeError. */
    | NonTextAnswer

  /** The exception reading the answer out of a malformed body raises. */
  function BodyError(body: Body): (e: PyError)
    requires !body.NoBody? && !body.Answer?
    ensures e == TypeError <==> !body.NonTextAnswer?
    ensures e == AttributeError <==> body.NonTextAnswer?
  {
    if body.NonTextAnswer? then AttributeError else TypeError
  }

  datatype Reply =
    /** GET, interview running: the current question, stage and progress. */
    | QuestionReply(question: string, stage: string, progress: real)
    /** GET, interview complete: the closing message with progress 100. */
    | FinishedReply(stage: string)
    /** POST accepted, interview running: the next question, stage and progress. */
    | Accepted(nextQuestion: string, stage: string, progress: real)
    /** POST accepted and the interview is now complete. */
    | Completed
    /** A JSON `{"error": message}` with the given status. */
    | Failure(status: int, message: string)
    /** An exception caught by the handler: status 500 with the error text. */
    | Crash(error: PyError)

  const ThankYou := "Thank you for sharing your story!"

  function Status(r: Reply): int {
    match r
    case Failure(status, _) => status
    case Crash(_) => 500
    case _ => 200
  }

  /** GET `/`: start an interview if the session has none, then report the current question. */
  function GetQuestion(bank: Bank, session: Session, now: DateTime): (out: (Reply, Session))
    requires Valid(now)
    // afterwards the session always holds an interview
    ensures out.1.Some?
    // an existing interview is only ever re-stored in the form it reads back as
    ensures session.Some? && out.1 != session ==>
      FromDict(session.value, now).Ok? && out.1 == Some(Dict(ToDict(FromDict(session.value, now).value)))
    // the reply is a success exactly when the stored interview reads back and is
    // either complete or on a question
    ensures var st := FromDict(out.1.value, now);
      Status(out.0) == 200 <==> st.Ok? && (st.value.completed || CurrentQuestion(bank, st.value).Some?)
  {
    var stored := if session.None? then Some(Dict(ToDict(Initial(now)))) else session;
    DictRoundTrip(Initial(now), now);
    match FromDict(stored.value, now)
    case Err(e) => (Crash(e), stored)
    case Ok(st) =>
      DictRoundTrip(st, now);
      (Show(bank, st), if Served(bank, st) then Some(Dict(ToDict(st))) else stored)
  }

  /** Whether `get_question` serves a question for the interview `st` (and then re-stores it). */
  predicate Served(bank: Bank, st: State) {
    !st.completed && CurrentQuestion(bank, st).Some?
  }

  /** The reply of `get_question` once the stored interview has been read as `st`. */
  function Show(bank: Bank, st: State): (r: Reply)
    ensures Status(r) == 200 <==> st.completed || Served(bank, st)
    ensures Served(bank, st) ==> r.QuestionReply? && r.question == CurrentQuestion(bank, st).value
  {
    if st.completed then FinishedReply(st.stage)
    else
      match CurrentQuestion(bank, st)
      case None => Failure(400, "No question available")
      case Some(q) => QuestionReply(q, st.stage, Progress(bank, st))
  }

  /** The record `submit_answer` appends for question `q`. */
  function RecordOf(st: State, q: string, answer: string, now: DateTime): AnswerRecord
    requires Valid(now)
  {
    AnswerRecord(q, answer, st.stage, IsoFormat(now))
  }

  /** POST `/`: record an answer to the current question and move on. */
  function SubmitAnswer(bank: Bank, session: Session, body: Body, now: DateTime): (out: (Reply, Session))
    requires Valid(now)
    // a rejected request (400) or a failed read leaves the session untouched
    ensures Status(out.0) == 400 || out.0.Crash? ==> out.1 == session
    // without an interview in the session nothing happens
    ensures session.None? ==> out == (Failure(400, "Interview not started"), None)
    // no body, or no `answer` key in it, is refused before anything is read out of it
    ensures session.Some? && FromDict(session.value, now).Ok? && (body.NoBody? || (body.Answer? && body.answer.Missing?)) ==>
      out == (Failure(400, "No answer provided"), session)
    // a body the answer cannot be read out of ends in the 500 handler, the session untouched
    ensures session.Some? && FromDict(session.value, now).Ok? && !body.NoBody? && !body.Answer? ==>
      out == (Crash(BodyError(body)), session)
    // whenever the session changes, it holds one more answer than before
    ensures out.1 != session ==>
      && session.Some? && FromDict(session.value, now).Ok?
      && out.1.Some? && FromDict(out.1.value, now).Ok?
      && |FromDict(out.1.value, now).value.answers| == |FromDict(session.value, now).value.answers| + 1
  {
    if session.None? then (Failure(400, "Interview not started"), session)
    else
      match FromDict(session.value, now)
      case Err(e) => (Crash(e), session)
      case Ok(st) =>
        if body.NoBody? then (Failure(400, "No answer provided"), session)
        else if !body.Answer? then (Crash(BodyError(body)), session)
        else if body.answer.Missing? then (Failure(400, "No answer provided"), session)
        else
          var answer := Strip(body.answer.value);
          if answer == "" then (Failure(400, "Answer cannot be empty"), session)
          else
            match CurrentQuestion(bank, st)
            case None => (Failure(400, "No current question"), session)
            case Some(q) => Record(bank, st, q, answer, now)
  }

  /** The accepting tail of `submit_answer`: log the answer, advance, store,
      and report the next step. */
  function Record(bank: Bank, st: State, q: string, answer: string, now: DateTime): (out: (Reply, Session))
    requires Valid(now) && Valid(st.createdAt)
    ensures out.1 == Some(Dict(ToDict(Advance(bank, st.(answers := st.answers + [RecordOf(st, q, answer, now)])).0)))
    ensures Status(out.0) != 400 && !out.0.Crash?
    ensures out.0.Completed? <==> Advance(bank, st.(answers := st.answers + [RecordOf(st, q, answer, now)])).1
  {
    var logged := st.(answers := st.answers + [RecordOf(st, q, answer, now)]);
    var (next, done) := Advance(bank, logged);
    var stored := Some(Dict(ToDict(next)));
    if done then (Completed, stored)
    else
      match CurrentQuestion(bank, next)
      case None => (Failure(500, "Failed to get next question"), stored)
      case Some(nq) => (Accepted(nq, next.stage, Progress(bank, next)), stored)
  }

  /** Asking for the question is a pure read: asking again, at any later
      time, gives the same reply and leaves the session as it was. */
  lemma GetQuestionIdempotent(bank: Bank, session: Session, now: DateTime, later: DateTime)
    requires Valid(now) && Valid(later)
    ensures var (reply, after) := GetQuestion(bank, session, now);
      GetQuestion(bank, after, later) == (reply, after)
  {
    var stored := if session.None? then Some(Dict(ToDict(Initial(now)))) else session;
    var r1 := FromDict(stored.value, now);
    ReadAtTwoTimes(stored.value, now, later);
    if r1.Ok? {
      var st := r1.value;
      var st2 := FromDict(stored.value, later).value;
      if Served(bank, st) {
        DictRoundTrip(st, later);
      }
    }
  }

  /** Reading a payload at two clock times gives the same outcome, up to the
      creation time filled in for a payload without one. */
  lemma ReadAtTwoTimes(p: Payload, now: DateTime, later: DateTime)
    requires Valid(now) && Valid(later)
    ensures FromDict(p, now).Ok? <==> FromDict(p, later).Ok?
    ensures FromDict(p, now).Ok? ==>
      FromDict(p, later).value == FromDict(p, now).value.(createdAt := FromDict(p, later).value.createdAt)
  {
    IsoRoundTrip(now);
    IsoRoundTrip(later);
  }

  /** On the first visit the interview starts on the opening question of the
      welcome stage with no progress, and the fresh interview is stored. */
  lemma FirstVisit(now: DateTime)
    requires Valid(now)
    ensures GetQuestion(InterviewQuestions, None, now) ==
      (QuestionReply("Are you ready to begin your life story interview?", FirstStageName, 0.0),
       Some(Dict(ToDict(Initial(now)))))
  {
    var st := Initial(now);
    OpeningQuestion(now);
    DictRoundTrip(st, now);
    assert Served(InterviewQuestions, st);
  }

  /** A fresh interview is on the opening question, with no progress. */
  lemma OpeningQuestion(now: DateTime)
    ensures CurrentQuestion(InterviewQuestions, Initial(now)) == Some("Are you ready to begin your life story interview?")
    ensures Progress(InterviewQuestions, Initial(now)) == 0.0
  {
    assert StageIndex(InterviewQuestions, FirstStageName) == Some(0);
    assert Earlier(InterviewQuestions, 0) == 0;
    InterviewQuestionsShape();
  }

  /** A blank answer is refused and changes nothing. */
  lemma BlankAnswerRejected(bank: Bank, session: Session, a: string, now: DateTime)
    requires Valid(now) && session.Some? && FromDict(session.value, now).Ok?
    requires AllSpace(PySpaces, a)
    ensures SubmitAnswer(bank, session, Answer(Has(a)), now) == (Failure(400, "Answer cannot be empty"), session)
  {
    StripEmptyIffAllSpace(PySpaces, a);
  }

  /** A complete interview accepts no more answers. */
  lemma CompletedRejectsAnswers(bank: Bank, session: Session, a: string, now: DateTime)
    requires Valid(now) && session.Some? && FromDict(session.value, now).Ok?
    requires FromDict(session.value, now).value.completed
    requires !AllSpace(PySpaces, a)
    ensures SubmitAnswer(bank, session, Answer(Has(a)), now) == (Failure(400, "No current question"), session)
  {
    StripEmptyIffAllSpace(PySpaces, a);
  }

  /** An accepted answer is logged once, stripped, against the question that
      was current and its stage, and the stored interview is the old one
      advanced by one `advance()`. */
  lemma AcceptedAnswerLogged(bank: Bank, session: Session, a: string, now: DateTime)
    requires Valid(now) && session.Some? && FromDict(session.value, now).Ok?
    requires !AllSpace(PySpaces, a)
    requires CurrentQuestion(bank, FromDict(session.value, now).value).Some?
    ensures var st := FromDict(session.value, now).value;
      var q := CurrentQuestion(bank, st).value;
      var (reply, after) := SubmitAnswer(bank, session, Answer(Has(a)), now);
      var logged := st.(answers := st.answers + [AnswerRecord(q, Strip(a), st.stage, IsoFormat(now))]);
      && after == Some(Dict(ToDict(Advance(bank, logged).0)))
      && (reply.Completed? <==> Advance(bank, logged).1)
  {
    StripEmptyIffAllSpace(PySpaces, a);
    var st := FromDict(session.value, now).value;
    var q := CurrentQuestion(bank, st).value;
    assert SubmitAnswer(bank, session, Answer(Has(a)), now) == Record(bank, st, q, Strip(a), now);
  }

  /** For an interview reached by answering questions (in range, on a
      well-formed table), "Failed to get next question" cannot happen: an
      accepted answer either completes the interview or reports the next
      question with strictly larger progress. */
  lemma NoFailedNextQuestion(bank: Bank, session: Session, a: string, now: DateTime)
    requires Valid(now) && WellFormed(bank) && session.Some? && FromDict(session.value, now).Ok?
    requires InRange(bank, FromDict(session.value, now).value)
    requires !FromDict(session.value, now).value.completed
    requires !AllSpace(PySpaces, a)
    ensures var (reply, _) := SubmitAnswer(bank, session, Answer(Has(a)), now);
      reply.Completed? || (reply.Accepted? && reply.progress > Progress(bank, FromDict(session.value, now).value))
  {
    StripEmptyIffAllSpace(PySpaces, a);
    var st := FromDict(session.value, now).value;
    InRangeProgress(bank, st);
    var q := CurrentQuestion(bank, st).value;
    assert SubmitAnswer(bank, session, Answer(Has(a)), now) == Record(bank, st, q, Strip(a), now);
    RecordMovesOn(bank, st, q, Strip(a), now);
  }

  lemma RecordMovesOn(bank: Bank, st: State, q: string, answer: string, now: DateTime)
    requires Valid(now) && Valid(st.createdAt) && WellFormed(bank)
    requires InRange(bank, st) && !st.completed
    ensures var reply := Record(bank, st, q, answer, now).0;
      reply.Completed? || (reply.Accepted? && reply.progress > Progress(bank, st))
  {
    var logged := st.(answers := st.answers + [RecordOf(st, q, answer, now)]);
    assert Progress(bank, logged) == Progress(bank, st);
    AdvanceStep(bank, logged);
    AdvanceProgress(bank, logged);
    var (next, done) := Advance(bank, logged);
    if !done {
      InRangeProgress(bank, next);
      var nq := CurrentQuestion(bank, next).value;
      assert Record(bank, st, q, answer, now).0 == Accepted(nq, next.stage, Progress(bank, next));
      PositiveShare(Total(bank));
    } else {
      assert Record(bank, st, q, answer, now).0 == Completed;
    }
  }

  lemma PositiveShare(total: nat)
    requires total > 0
    ensures 100.0 / total as real > 0.0
  {
  }
}

=== FILE: json.dfy ===
/** Untyped Python/JSON values, for the places where the repository is
    duck-typed: attribute look-ups by name (`hasattr`/`getattr`) and the JSON
    files the card storage writes and reads back.
 */
module Json {

  datatype Value =
    | Null
    | Bool(b: bool)
    | Int(i: int)
    | Real(r: real)
    | Str(s: string)
    | Array(items: seq<Value>)
    | Object(fields: map<string, Value>)
    /** A non-container object such as a `datetime`: always truthy. */
    | Opaque

  /** Python's `bool(v)`: None, False, zero and empty containers are false. */
  predicate Truthy(v: Value) {
    match v
    case Null => false
    case Bool(b) => b
    case Int(i) => i != 0
    case Real(r) => r != 0.0
    case Str(s) => s != ""
    case Array(items) => |items| > 0
    case Object(fields) => |fields| > 0
    case Opaque => true
  }

  /** `json.dump` and `json.dumps` can write the value: no non-JSON object
      anywhere inside it (otherwise they raise TypeError). */
  predicate Dumpable(v: Value) {
    match v
    case Opaque => false
    case Array(items) => forall i :: 0 <= i < |items| ==> Dumpable(items[i])
    case Object(fields) => forall k :: k in fields ==> Dumpable(fields[k])
    case _ => true
  }

  /** `dict.get(key)`: the value under `key`, or None. */
  function Get(fields: map<string, Value>, key: string): Value {
    if key in fields then fields[key] else Null
  }

  function StrArray(xs: seq<string>): (v: Value)
    ensures v.Array? && |v.items| == |xs|
  {
    Array(seq(|xs|, i requires 0 <= i < |xs| => Str(xs[i])))
  }
}

=== FILE: location_card.dfy ===
/** `LocationCard` of cards/location_card.py: a card with optional
    coordinates, a creator, and the event/memory id lists.  Coordinates are
    opaque reals that are only stored and copied.
 */
module LocationCards {
  import opened Outcomes
  import opened Calendar
  import opened Text
  import Json
  import opened CardBase
  import opened IdLinks

  datatype LocationCard = LocationCard(
    base: Card,
    latitude: Option<real>,
    longitude: Option<real>,
    createdBy: Option<int>,
    links: Links)

  /** `LocationCard(name, description, latitude, longitude, created_by)` at
      clock reading `now`, with the time and metadata arguments left at None:
      the name is the card's title and both id lists start empty. */
  function New(name: string, description: string, latitude: Option<real>, longitude: Option<real>,
               createdBy: Option<int>, now: DateTime, newId: Uuid, image: ImageOutcome): (r: Result<LocationCard>)
    ensures r.Err? <==> Strip(name) == "" || Strip(description) == ""
    ensures r.Ok? ==> r.value.links == NoLinks && r.value.base.title == Strip(name) && WellFormed(r.value.base)
    ensures r.Ok? ==> r.value.latitude == latitude && r.value.longitude == longitude && r.value.createdBy == createdBy
  {
    var base :- CardBase.New(name, description, None, now, None, Json.Null, "", [], newId, image);
    Ok(LocationCard(base, latitude, longitude, createdBy, NoLinks))
  }

  /** `add_event(id)` / `add_memory(id)`. */
  function AddId(c: LocationCard, w: Which, id: int, now: DateTime): (r: LocationCard)
    ensures Ids(r.links, w) == Seqs.AddIfAbsent(Ids(c.links, w), id)
    ensures Ids(r.links, Other(w)) == Ids(c.links, Other(w))
    ensures r.latitude == c.latitude && r.longitude == c.longitude && r.createdBy == c.createdBy
    ensures r.base.(updatedAt := c.base.updatedAt) == c.base
  {
    var (b, l) := IdLinks.Add(c.base, c.links, w, id, now);
    c.(base := b, links := l)
  }

  /** `remove_event(id)` / `remove_memory(id)`. */
  function RemoveId(c: LocationCard, w: Which, id: int, now: DateTime): (r: LocationCard)
    ensures Ids(r.links, w) == Seqs.RemoveFirst(Ids(c.links, w), id)
    ensures Ids(r.links, Other(w)) == Ids(c.links, Other(w))
    ensures r.latitude == c.latitude && r.longitude == c.longitude && r.createdBy == c.createdBy
    ensures r.base.(updatedAt := c.base.updatedAt) == c.base
  {
    var (b, l) := IdLinks.Remove(c.base, c.links, w, id, now);
    c.(base := b, links := l)
  }

  /** `to_dict()`: the base dict with the location's keys laid over it. */
  datatype LocationDict = LocationDict(
    base: CardDict,
    latitude: Entry<Option<real>>,
    longitude: Entry<Option<real>>,
    createdBy: Entry<Option<int>>,
    links: LinksDict)

  function ToDict(c: LocationCard): (d: LocationDict)
    requires Valid(c.base.createdAt) && (c.base.updatedAt.Some? ==> Valid(c.base.updatedAt.value))
    requires MediaValid(c.base.media)
    ensures d.base == CardBase.ToDict(c.base) && d.links == IdLinks.ToDict(c.links)
    ensures d.latitude == Has(c.latitude) && d.longitude == Has(c.longitude) && d.createdBy == Has(c.createdBy)
  {
    LocationDict(CardBase.ToDict(c.base), Has(c.latitude), Has(c.longitude), Has(c.createdBy), IdLinks.ToDict(c.links))
  }

  /** The last two steps of `from_dict`: the lists are taken from the dict,
      an absent key giving the empty list; nothing else changes. */
  function RestoreIds(c: LocationCard, d: LocationDict): (r: LocationCard)
    ensures r.links == IdLinks.FromDict(d.links)
    ensures r.base == c.base && r.latitude == c.latitude && r.longitude == c.longitude && r.createdBy == c.createdBy
  {
    c.(links := IdLinks.FromDict(d.links))
  }

  /** Whatever card `from_dict` builds, the id lists it ends with are those written out. */
  lemma IdsRoundTrip(c: LocationCard, built: LocationCard)
    requires Valid(c.base.createdAt) && (c.base.updatedAt.Some? ==> Valid(c.base.updatedAt.value))
    requires MediaValid(c.base.media)
    ensures RestoreIds(built, ToDict(c)).links == c.links
  {
    IdLinks.DictRoundTrip(c.links);
  }
}

=== FILE: media.dfy ===
/** The `Media` record of cards/media.py and its dict form. */
module MediaRecord {
  import opened Outcomes
  import opened Calendar

  /** `MediaType`: exactly four kinds. */
  datatype MediaType = Image | Video | Audio | Document

  /** The enum member's `.value`. */
  function Value(t: MediaType): string {
    match t
    case Image => "image"
    case Video => "video"
    case Audio => "audio"
    case Document => "document"
  }

  /** `MediaType(s)`: the member with value `s`, or ValueError. */
  function FromValue(s: string): (r: Result<MediaType>)
    ensures r.Err? ==> r.error == ValueError
  {
    if s == "image" then Ok(Image)
    else if s == "video" then Ok(Video)
    else if s == "audio" then Ok(Audio)
    else if s == "document" then Ok(Document)
    else Err(ValueError)
  }

  /** Values and members correspond one to one. */
  lemma ValueBijection(t: MediaType, s: string)
    ensures FromValue(Value(t)) == Ok(t)
    ensures FromValue(s).Ok? <==> exists u: MediaType :: Value(u) == s
    ensures FromValue(s).Ok? ==> Value(FromValue(s).value) == s
  {
    if FromValue(s).Ok? {
      assert Value(FromValue(s).value) == s;
    }
  }

  datatype Media = Media(id: Option<int>, filePath: string, kind: MediaType, createdAt: DateTime, description: string)

  /** The dict `to_dict` produces; every key may be missing from input data. */
  datatype MediaDict = MediaDict(
    id: Entry<Option<int>>,
    filePath: Entry<string>,
    kind: Entry<string>,
    createdAt: Entry<string>,
    description: Entry<string>)

  /** `to_dict()`: the type as its value, the creation time as ISO text. */
  function ToDict(m: Media): (d: MediaDict)
    requires Valid(m.createdAt)
    ensures d.id == Has(m.id) && d.filePath == Has(m.filePath) && d.description == Has(m.description)
    ensures d.kind.Has? && FromValue(d.kind.value) == Ok(m.kind)
    ensures d.createdAt.Has? && IsoParse(d.createdAt.value) == Ok(m.createdAt)
  {
    ValueBijection(m.kind, "");
    IsoRoundTrip(m.createdAt);
    MediaDict(Has(m.id), Has(m.filePath), Has(Value(m.kind)), Has(IsoFormat(m.createdAt)), Has(m.description))
  }

  /** `Media.from_dict(data)` at clock reading `now`: defaults for missing keys;
      an unknown type or unreadable time raises ValueError. */
  function FromDict(d: MediaDict, now: DateTime): (r: Result<Media>)
    requires Valid(now)
    ensures r.Err? ==> r.error == ValueError
    ensures r.Ok? <==> FromValue(d.kind.GetOr("image")).Ok? && IsoParse(d.createdAt.GetOr(IsoFormat(now))).Ok?
    ensures r.Ok? ==>
      && r.value.id == d.id.GetOr(None)
      && r.value.filePath == d.filePath.GetOr("")
      && r.value.description == d.description.GetOr("")
      && Valid(r.value.createdAt)
    ensures r.Ok? ==>
      && FromValue(d.kind.GetOr("image")) == Ok(r.value.kind)
      && IsoParse(d.createdAt.GetOr(IsoFormat(now))) == Ok(r.value.createdAt)
    ensures r.Ok? && d.kind.Missing? ==> r.value.kind == Image
    ensures r.Ok? && d.createdAt.Missing? ==> r.value.createdAt == now
  {
    IsoRoundTrip(now);
    ValueBijection(Image, "image");
    var kind :- FromValue(d.kind.GetOr("image"));
    var created :- IsoParse(d.createdAt.GetOr(IsoFormat(now)));
    Ok(Media(d.id.GetOr(None), d.filePath.GetOr(""), kind, created, d.description.GetOr("")))
  }

  /** `from_dict(to_dict(m))` equals `m` field for field. */
  lemma DictRoundTrip(m: Media, now: DateTime)
    requires Valid(m.createdAt) && Valid(now)
    ensures FromDict(ToDict(m), now) == Ok(m)
  {
  }

  /** An empty dict gives an image with no id, path or description, created now. */
  lemma EmptyDictDefaults(now: DateTime)
    requires Valid(now)
    ensures FromDict(MediaDict(Missing, Missing, Missing, Missing, Missing), now) == Ok(Media(None, "", Image, now, ""))
  {
    IsoRoundTrip(now);
  }

  /** A type string that names no member is refused. */
  lemma UnknownTypeRefused(d: MediaDict, now: DateTime)
    requires Valid(now) && d.kind.Has? && forall u: MediaType :: Value(u) != d.kind.value
    ensures FromDict(d, now) == Err(ValueError)
  {
    ValueBijection(Image, d.kind.value);
  }
}

=== FILE: media_upload.dfy ===
/** The upload checks of routes/media.py: the extension whitelist, the media
    type a file name is classified as, and the order in which `upload_file`
    refuses a request before it touches the disk or the database. */
module MediaUpload {
  import opened Outcomes
  import opened Text
  import opened MediaRecord

  /** `ALLOWED_EXTENSIONS`. */
  const Allowed: set<string> := {"png", "jpg", "jpeg", "gif", "mp4", "mp3", "wav"}

  /** `filename.rsplit('.', 1)[1].lower()`: the lower-cased text after the last dot. */
  function Extension(filename: string): string
    requires '.' in filename
  {
    Lower(AfterLast(filename, '.'))
  }

  /** `allowed_file(filename)`. */
  predicate AllowedFile(filename: string) {
    '.' in filename && Extension(filename) in Allowed
  }

  /** `get_media_type(filename)`; the source indexes the split, so a name
      without a dot is outside its domain. */
  function MediaTypeOf(filename: string): (t: MediaType)
    requires '.' in filename
    ensures t == Image <==> Extension(filename) in {"png", "jpg", "jpeg", "gif"}
    ensures t == Video <==> Extension(filename) == "mp4"
    ensures t == Audio <==> Extension(filename) in {"mp3", "wav"}
    ensures t == Document <==> Extension(filename) !in Allowed
  {
    var ext := Extension(filename);
    if ext in {"png", "jpg", "jpeg", "gif"} then Image
    else if ext == "mp4" then Video
    else if ext in {"mp3", "wav"} then Audio
    else Document
  }

  /** The names the repository's media tests classify. */
  lemma MediaTypeExamples()
    ensures AllowedFile("test.jpg") && AllowedFile("test.png") && AllowedFile("test.mp4") && AllowedFile("test.mp3")
    ensures !AllowedFile("test.exe") && !AllowedFile("test.txt")
    ensures MediaTypeOf("test.jpg") == Image && MediaTypeOf("test.png") == Image
    ensures MediaTypeOf("test.mp4") == Video && MediaTypeOf("test.mp3") == Audio
    ensures MediaTypeOf("test.txt") == Document
  {
    JpgIsImage();
    PngIsImage();
    Mp4IsVideo();
    Mp3IsAudio();
    ExeRefused();
    TxtIsDocument();
  }

  lemma JpgIsImage()
    ensures AllowedFile("test.jpg") && MediaTypeOf("test.jpg") == Image
  {
    TestExtension("test.jpg");
    assert "test.jpg"[5..] == "jpg";
  }

  lemma PngIsImage()
    ensures AllowedFile("test.png") && MediaTypeOf("test.png") == Image
  {
    TestExtension("test.png");
    assert "test.png"[5..] == "png";
  }

  lemma Mp4IsVideo()
    ensures AllowedFile("test.mp4") && MediaTypeOf("test.mp4") == Video
  {
    TestExtension("test.mp4");
    assert "test.mp4"[5..] == "mp4";
  }

  lemma Mp3IsAudio()
    ensures AllowedFile("test.mp3") && MediaTypeOf("test.mp3") == Audio
  {
    TestExtension("test.mp3");
    assert "test.mp3"[5..] == "mp3";
  }

  lemma ExeRefused()
    ensures !AllowedFile("test.exe")
  {
    TestExtension("test.exe");
    assert "test.exe"[5..] == "exe";
  }

  lemma TxtIsDocument()
    ensures !AllowedFile("test.txt") && MediaTypeOf("test.txt") == Document
  {
    TestExtension("test.txt");
    assert "test.txt"[5..] == "txt";
  }

  /** A name `test.xyz` of lower-case letters has extension `xyz`. */
  lemma TestExtension(name: string)
    requires |name| == 8 && name[4] == '.' && forall i :: 5 <= i < 8 ==> 'a' <= name[i] <= 'z' || '0' <= name[i] <= '9'
    ensures '.' in name && Extension(name) == name[5..]
  {
    ExtensionAt(name, 4);
    LowerIsLower(name[5..]);
  }

  /** The extension is what follows the last dot, lower-cased. */
  lemma ExtensionAt(name: string, k: nat)
    requires k < |name| && name[k] == '.' && '.' !in name[k + 1..]
    ensures '.' in name && Extension(name) == Lower(name[k + 1..])
  {
    var r := AfterLast(name, '.');
    var i :| 0 <= i < |name| && name[i] == '.' && r == name[i + 1..];
    LastDotUnique(name, k, i);
  }

  /** A name is allowed exactly when it has a dot and the lower-cased text
      after its last dot is a whitelisted extension. */
  lemma AllowedFileIff(filename: string)
    ensures AllowedFile(filename) <==>
      exists i :: 0 <= i < |filename| && filename[i] == '.' && '.' !in filename[i + 1..]
                  && Lower(filename[i + 1..]) in Allowed
  {
    if '.' in filename {
      var j := LastIndexOf(filename, '.').value;
      if AllowedFile(filename) {
        assert filename[j] == '.' && '.' !in filename[j + 1..] && Lower(filename[j + 1..]) in Allowed;
      }
      if exists i :: 0 <= i < |filename| && filename[i] == '.' && '.' !in filename[i + 1..]
                     && Lower(filename[i + 1..]) in Allowed {
        var i :| 0 <= i < |filename| && filename[i] == '.' && '.' !in filename[i + 1..]
                 && Lower(filename[i + 1..]) in Allowed;
        LastDotUnique(filename, i, j);
      }
    }
  }

  /** A string has at most one dot with no dot after it. */
  lemma LastDotUnique(s: string, i: nat, j: nat)
    requires i < |s| && j < |s| && s[i] == '.' && s[j] == '.'
    requires '.' !in s[i + 1..] && '.' !in s[j + 1..]
    ensures i == j
  {
  }

  /** Every allowed file is an image, a video or an audio file, never a document. */
  lemma AllowedIsNeverDocument(filename: string)
    requires AllowedFile(filename)
    ensures MediaTypeOf(filename) != Document
  {
  }

  /** Only the final extension counts, whatever its case: a name
      `stem.ext` with no dot in `ext` is allowed exactly when `ext`
      lower-cased is whitelisted, whatever dots `stem` holds. */
  lemma FinalExtensionOnly(stem: string, ext: string)
    requires '.' !in ext
    ensures AllowedFile(stem + "." + ext) <==> Lower(ext) in Allowed
  {
    var s := stem + "." + ext;
    assert s[|stem|] == '.';
    assert s[|stem| + 1..] == ext;
    var j := LastIndexOf(s, '.').value;
    LastDotUnique(s, |stem|, j);
  }

  /** The `file` entry of the multipart request: absent, or present with a name. */
  datatype FilePart = NoFilePart | File(filename: string)

  /** The outcome of `upload_file`'s checks: a 400 reply, or going on to store
      a file of the given type. */
  datatype UploadCheck = Refused(message: string) | Store(kind: MediaType)

  /** The validation branches of `upload_file`, in source order. */
  function CheckUpload(part: FilePart): (r: UploadCheck)
    ensures r.Refused? <==> part.NoFilePart? || !AllowedFile(part.filename)
    ensures part.NoFilePart? ==> r == Refused("No file part")
    ensures part.File? && part.filename == "" ==> r == Refused("No selected file")
    ensures part.File? && part.filename != "" && !AllowedFile(part.filename) ==> r == Refused("File type not allowed")
    // the stored row's type is the file's classification, never a document
    ensures r.Store? ==> r.kind == MediaTypeOf(part.filename) && r.kind != Document
  {
    match part
    case NoFilePart => Refused("No file part")
    case File(name) =>
      if name == "" then Refused("No selected file")
      else if AllowedFile(name) then Store(MediaTypeOf(name))
      else Refused("File type not allowed")
  }
}

=== FILE: memory_card.dfy ===
/** `MemoryCard` of cards/memory_card.py: the constructor's list defaults,
    the intensity clamp of `set_emotion`, the association setters, and
    `add_person`, which works on an `associated_people` list the constructor
    never creates.  Attributes that may be absent from the object are
    `Option`s (`None` = the attribute does not exist).
 */
module MemoryCards {
  import opened Outcomes
  import opened Calendar
  import opened Seqs
  import opened Text
  import Json
  import opened CardBase

  /** The cards `set_event`, `set_place` and `set_time_period` attach; only
      whether each attribute exists is modelled. */
  datatype Link = EventLink | PlaceLink | TimePeriodLink

  datatype MemoryCard = MemoryCard(
    base: Card,
    date: Option<DateTime>,
    location: Option<string>,
    people: seq<string>,
    emotions: seq<string>,
    createdBy: Option<string>,
    mediaIds: seq<string>,
    associatedPeople: Option<seq<string>>,
    linked: set<Link>,
    emotion: Option<string>,
    intensity: Option<int>)

  /** `MemoryCard(...)` at clock reading `now`: None lists become empty lists,
      both times default to now, and none of the association attributes exist. */
  function New(title: string, description: string, date: Option<DateTime>, location: Option<string>,
               people: Option<seq<string>>, emotions: Option<seq<string>>,
               createdAt: Option<DateTime>, updatedAt: Option<DateTime>, id: Option<string>,
               createdBy: Option<string>, mediaIds: Option<seq<string>>,
               now: DateTime, newId: Uuid, image: ImageOutcome): (r: Result<MemoryCard>)
    ensures r.Err? <==> Strip(title) == "" || Strip(description) == ""
    ensures r.Err? ==> r.error == ValueError
    ensures r.Ok? ==>
      && WellFormed(r.value.base)
      && r.value.people == (if people.Some? then people.value else [])
      && r.value.emotions == (if emotions.Some? then emotions.value else [])
      && r.value.mediaIds == (if mediaIds.Some? then mediaIds.value else [])
      && r.value.base.createdAt == (if createdAt.Some? then createdAt.value else now)
      && r.value.base.updatedAt == Some(if updatedAt.Some? then updatedAt.value else now)
    ensures r.Ok? ==> Fresh(r.value)
  {
    var base :- CardBase.New(title, description, id, now, None, Json.Null, "", [], newId, image);
    Ok(MemoryCard(
      base.(createdAt := if createdAt.Some? then createdAt.value else now,
            updatedAt := Some(if updatedAt.Some? then updatedAt.value else now)),
      date, location,
      if people.Some? then people.value else [],
      if emotions.Some? then emotions.value else [],
      createdBy,
      if mediaIds.Some? then mediaIds.value else [],
      None, {}, None, None))
  }

  /** No association, emotion or intensity attribute exists yet. */
  predicate Fresh(m: MemoryCard) {
    m.associatedPeople.None? && m.linked == {} && m.emotion.None? && m.intensity.None?
  }

  /** `max(0, min(10, intensity))`. */
  function Clamp(i: int): (c: int)
    ensures 0 <= c <= 10
    ensures 0 <= i <= 10 ==> c == i
    ensures i < 0 ==> c == 0
    ensures i > 10 ==> c == 10
  {
    if i < 0 then 0 else if i > 10 then 10 else i
  }

  /** Clamping is idempotent and keeps order. */
  lemma ClampMonotone(i: int, j: int)
    ensures Clamp(Clamp(i)) == Clamp(i)
    ensures i <= j ==> Clamp(i) <= Clamp(j)
  {
  }

  /** `set_emotion(emotion, intensity)`: the intensity is stored clamped into [0, 10]. */
  function SetEmotion(m: MemoryCard, emotion: string, intensity: int, now: DateTime): (r: MemoryCard)
    ensures r.emotion == Some(emotion) && r.intensity == Some(Clamp(intensity))
    ensures 0 <= r.intensity.value <= 10
    ensures r.base == m.base.(updatedAt := Some(now))
    ensures r.associatedPeople == m.associatedPeople && r.linked == m.linked && r.people == m.people
  {
    m.(emotion := Some(emotion), intensity := Some(Clamp(intensity)), base := m.base.(updatedAt := Some(now)))
  }

  /** `set_event(e)`, `set_place(p)` or `set_time_period(t)`: the attribute now exists. */
  function SetLink(m: MemoryCard, l: Link, now: DateTime): (r: MemoryCard)
    ensures r.linked == m.linked + {l} && r.base.updatedAt == Some(now)
    ensures r.associatedPeople == m.associatedPeople && r.emotion == m.emotion && r.intensity == m.intensity
  {
    m.(linked := m.linked + {l}, base := m.base.(updatedAt := Some(now)))
  }

  /** `add_person(person)`: AttributeError while `associated_people` does not
      exist; otherwise append-if-absent, stamping the card on a change. */
  function AddPerson(m: MemoryCard, person: string, now: DateTime): (r: Result<MemoryCard>)
    ensures r.Err? <==> m.associatedPeople.None?
    ensures r.Err? ==> r.error == AttributeError
    ensures r.Ok? ==> r.value.associatedPeople == Some(AddIfAbsent(m.associatedPeople.value, person))
    ensures r.Ok? && person in m.associatedPeople.value ==> r.value == m
    ensures r.Ok? && person !in m.associatedPeople.value ==> r.value.base == m.base.(updatedAt := Some(now))
  {
    match m.associatedPeople
    case None => Err(AttributeError)
    case Some(ps) =>
      if person in ps then Ok(m)
      else Ok(m.(associatedPeople := Some(ps + [person]), base := m.base.(updatedAt := Some(now))))
  }

  /** Given the list, `add_person` never introduces a duplicate. */
  lemma AddPersonKeepsDistinct(m: MemoryCard, person: string, now: DateTime)
    requires m.associatedPeople.Some? && NoDup(m.associatedPeople.value)
    ensures AddPerson(m, person, now).Ok?
    ensures NoDup(AddPerson(m, person, now).value.associatedPeople.value)
  {
  }

  /** No modelled operation creates `associated_people`, so `add_person` fails
      on every memory built by the constructor and the setters. */
  lemma AddPersonFailsAfterSetters(m: MemoryCard, emotion: string, i: int, l: Link, person: string, now: DateTime)
    requires Fresh(m)
    ensures AddPerson(m, person, now) == Err(AttributeError)
    ensures AddPerson(SetEmotion(SetLink(m, l, now), emotion, i, now), person, now) == Err(AttributeError)
  {
  }

  // ---------------------------------------------------------------------
  // to_dict

  /** The part of `to_dict()`'s output the model follows; the dicts of the
      associated cards are left out. */
  datatype MemoryDict = MemoryDict(base: CardDict, date: string, emotion: string, intensity: int)

  predicate Dated(m: MemoryCard) {
    && Valid(m.base.createdAt) && (m.base.updatedAt.Some? ==> Valid(m.base.updatedAt.value))
    && MediaValid(m.base.media) && (m.date.Some? ==> Valid(m.date.value))
  }

  /** `to_dict()`: reading `self.date.isoformat()` with no date, or any
      association, emotion or intensity attribute that does not exist, raises
      AttributeError. */
  function ToDict(m: MemoryCard): (r: Result<MemoryDict>)
    requires Dated(m)
    ensures r.Err? <==>
      || m.date.None? || !(EventLink in m.linked && PlaceLink in m.linked && TimePeriodLink in m.linked)
      || m.associatedPeople.None? || m.emotion.None? || m.intensity.None?
    ensures r.Err? ==> r.error == AttributeError
    ensures r.Ok? ==> r.value.base == CardBase.ToDict(m.base) && IsoParse(r.value.date) == Ok(m.date.value)
  {
    if m.date.None? then Err(AttributeError)
    else if EventLink !in m.linked || m.associatedPeople.None? || PlaceLink !in m.linked
            || TimePeriodLink !in m.linked || m.emotion.None? || m.intensity.None? then Err(AttributeError)
    else
      assert IsoParse(IsoFormat(m.date.value)) == Ok(m.date.value) by { IsoRoundTrip(m.date.value); }
      Ok(MemoryDict(CardBase.ToDict(m.base), IsoFormat(m.date.value), m.emotion.value, m.intensity.value))
  }

  /** A memory without `associated_people` cannot be written out, so no memory
      built by the modelled operations ever can. */
  lemma NoPeopleNoDict(m: MemoryCard)
    requires Dated(m) && m.associatedPeople.None?
    ensures ToDict(m) == Err(AttributeError)
  {
  }
}

=== FILE: outcomes.dfy ===
/** Failure-carrying values shared by every module of the model.

    The repository is written in Python and JavaScript, where a failing
    operation raises an exception (or returns `None`).  Here a raised
    exception becomes `Err(kind)` of a `Result`, and Python's `None` of an
    optional value becomes `None` of an `Option`.
 */
module Outcomes {

  /** Python's `Optional[T]`: `None` or a value. */
  datatype Option<+T> = None | Some(value: T)

  /** The exception classes the modelled code raises or catches. */
  datatype PyError =
    | ValueError
    | TypeError
    | AttributeError
    | KeyError
    | IndexError
    | OverflowError
    | FileNotFoundError
    | JsonDecodeError

  /** The outcome of a Python call: its return value, or the exception it raised. */
  datatype Result<+T> = Ok(value: T) | Err(error: PyError) {
    predicate IsFailure() {
      Err?
    }

    function PropagateFailure<U>(): Result<U>
      requires Err?
    {
      Err(error)
    }

    function Extract(): T
      requires Ok?
    {
      value
    }
  }

  /** Presence of a key in a serialised dict: `dict.get(key, default)` reads `Missing` as the default. */
  datatype Entry<+T> = Missing | Has(value: T) {
    function GetOr(default: T): T {
      match this
      case Has(v) => v
      case Missing => default
    }
  }

  /** `[f(x) for x in xs]`: every call succeeds and the results keep their
      order, or the first call that raises stops the comprehension. */
  function MapAll<T, U>(xs: seq<T>, f: T -> Result<U>): (r: Result<seq<U>>)
    ensures r.Ok? <==> forall i :: 0 <= i < |xs| ==> f(xs[i]).Ok?
    ensures r.Ok? ==> |r.value| == |xs| && forall i :: 0 <= i < |xs| ==> f(xs[i]) == Ok(r.value[i])
    ensures r.Err? ==> exists i :: 0 <= i < |xs| && f(xs[i]) == Err(r.error) && forall j :: 0 <= j < i ==> f(xs[j]).Ok?
    decreases |xs|
  {
    if |xs| == 0 then Ok([])
    else
      match f(xs[0])
      case Err(e) => Err(e)
      case Ok(y) =>
        match MapAll(xs[1..], f)
        case Err(e) =>
          var i :| 0 <= i < |xs[1..]| && f(xs[1..][i]) == Err(e) && forall j :: 0 <= j < i ==> f(xs[1..][j]).Ok?;
          assert f(xs[i + 1]) == Err(e);
          assert forall j :: 0 <= j < i + 1 ==> f(xs[j]).Ok? by {
            forall j | 0 <= j < i + 1 ensures f(xs[j]).Ok? {
              if j > 0 { assert xs[j] == xs[1..][j - 1]; }
            }
          }
          Err(e)
        case Ok(ys) => Ok([y] + ys)
  }

  /** Mapping with a reader that undoes the writer gives the list back. */
  lemma {:induction false} MapAllInverse<T, U>(xs: seq<T>, write: T -> Result<U>, read: U -> Result<T>)
    requires forall i :: 0 <= i < |xs| ==> write(xs[i]).Ok? && read(write(xs[i]).value) == Ok(xs[i])
    ensures MapAll(xs, write).Ok? && MapAll(MapAll(xs, write).value, read) == Ok(xs)
    decreases |xs|
  {
    if |xs| > 0 {
      MapAllInverse(xs[1..], write, read);
      var ys := MapAll(xs, write).value;
      assert ys[1..] == MapAll(xs[1..], write).value;
      assert xs == [xs[0]] + xs[1..];
    }
  }
}

=== FILE: place_card.dfy ===
/** `PlaceCard` of cards/place_card.py: a dataclass card with coordinates
    (0.0 by default) and lists of attached event and memory cards.

    The attached cards are elements of the type parameters `E` and `M`;
    `EventCard.to_dict` / `from_dict` and `MemoryCard.to_dict` / `from_dict`
    on them are passed in as functions.  Coordinates are opaque reals.
 */
module PlaceCards {
  import opened Outcomes
  import opened Calendar
  import opened Seqs
  import Json
  import opened CardBase
  import MediaRecord

  datatype PlaceCard<E, M> = PlaceCard(base: Card, latitude: real, longitude: real, events: seq<E>, memories: seq<M>)

  /** `PlaceCard(...)`: the base card's checks, then the place's own fields. */
  function New<E, M>(title: string, description: string, id: Option<string>, createdAt: DateTime,
                     updatedAt: Option<DateTime>, metadata: Json.Value, imagePath: string, media: seq<MediaRecord.Media>,
                     latitude: real, longitude: real, events: seq<E>, memories: seq<M>,
                     newId: Uuid, image: ImageOutcome): (r: Result<PlaceCard<E, M>>)
    ensures r.Err? <==> CardBase.New(title, description, id, createdAt, updatedAt, metadata, imagePath, media, newId, image).Err?
    ensures r.Ok? ==>
      && r.value.base == CardBase.New(title, description, id, createdAt, updatedAt, metadata, imagePath, media, newId, image).value
      && r.value.latitude == latitude && r.value.longitude == longitude
      && r.value.events == events && r.value.memories == memories
  {
    var base :- CardBase.New(title, description, id, createdAt, updatedAt, metadata, imagePath, media, newId, image);
    Ok(PlaceCard(base, latitude, longitude, events, memories))
  }

  /** `set_coordinates(latitude, longitude)`: only the two coordinates change;
      unlike the id-list operations this does not stamp `updated_at`. */
  function SetCoordinates<E, M>(p: PlaceCard<E, M>, latitude: real, longitude: real): (r: PlaceCard<E, M>)
    ensures r.latitude == latitude && r.longitude == longitude
    ensures r.base == p.base && r.events == p.events && r.memories == p.memories
  {
    p.(latitude := latitude, longitude := longitude)
  }

  /** `add_event(event)`: append unless an equal card is already there. */
  function AddEvent<E(==), M>(p: PlaceCard<E, M>, e: E): (r: PlaceCard<E, M>)
    ensures r.events == AddIfAbsent(p.events, e)
    ensures r.base == p.base && r.memories == p.memories && r.latitude == p.latitude && r.longitude == p.longitude
  {
    if e in p.events then p else p.(events := p.events + [e])
  }

  /** `add_memory(memory)`: append unless an equal card is already there. */
  function AddMemory<E, M(==)>(p: PlaceCard<E, M>, m: M): (r: PlaceCard<E, M>)
    ensures r.memories == AddIfAbsent(p.memories, m)
    ensures r.base == p.base && r.events == p.events && r.latitude == p.latitude && r.longitude == p.longitude
  {
    if m in p.memories then p else p.(memories := p.memories + [m])
  }

  /** Both lists stay free of duplicates. */
  lemma AddsKeepDistinct<E, M>(p: PlaceCard<E, M>, e: E, m: M)
    requires NoDup(p.events) && NoDup(p.memories)
    ensures NoDup(AddEvent(p, e).events) && NoDup(AddMemory(p, m).memories)
    ensures AddEvent(AddEvent(p, e), e) == AddEvent(p, e) && AddMemory(AddMemory(p, m), m) == AddMemory(p, m)
  {
  }

  /** `to_dict()`: the base dict, the coordinates, and the attached cards' dicts. */
  datatype PlaceDict<ED, MD> = PlaceDict(
    base: CardDict,
    latitude: Entry<real>,
    longitude: Entry<real>,
    events: Entry<seq<ED>>,
    memories: Entry<seq<MD>>)

  predicate Dated<E, M>(p: PlaceCard<E, M>) {
    Valid(p.base.createdAt) && (p.base.updatedAt.Some? ==> Valid(p.base.updatedAt.value)) && MediaValid(p.base.media)
  }

  /** The attached cards are written in insertion order; the first that
      cannot be written stops `to_dict`. */
  function ToDict<E, M, ED, MD>(p: PlaceCard<E, M>, writeEvent: E -> Result<ED>, writeMemory: M -> Result<MD>)
    : (r: Result<PlaceDict<ED, MD>>)
    requires Dated(p)
    ensures r.Ok? <==> MapAll(p.events, writeEvent).Ok? && MapAll(p.memories, writeMemory).Ok?
    ensures r.Ok? ==>
      && r.value.base == CardBase.ToDict(p.base)
      && r.value.latitude == Has(p.latitude) && r.value.longitude == Has(p.longitude)
      && r.value.events.Has? && |r.value.events.value| == |p.events|
      && (forall i :: 0 <= i < |p.events| ==> writeEvent(p.events[i]) == Ok(r.value.events.value[i]))
      && r.value.memories.Has? && |r.value.memories.value| == |p.memories|
      && (forall i :: 0 <= i < |p.memories| ==> writeMemory(p.memories[i]) == Ok(r.value.memories.value[i]))
  {
    var events :- MapAll(p.events, writeEvent);
    var memories :- MapAll(p.memories, writeMemory);
    Ok(PlaceDict(CardBase.ToDict(p.base), Has(p.latitude), Has(p.longitude), Has(events), Has(memories)))
  }

  /** `PlaceCard.from_dict(data)`: the base card's `from_dict`, then the
      coordinates (0.0 when absent), then the attached cards, read only when
      the list is present and non-empty. */
  function FromDict<E, M, ED, MD>(d: PlaceDict<ED, MD>, now: DateTime, newId: Uuid, image: ImageOutcome,
                                  readEvent: ED -> Result<E>, readMemory: MD -> Result<M>): (r: Result<PlaceCard<E, M>>)
    requires Valid(now)
    ensures r.Ok? ==> CardBase.FromDict(d.base, now, newId, image) == Ok(r.value.base)
    ensures r.Ok? ==> r.value.latitude == d.latitude.GetOr(0.0) && r.value.longitude == d.longitude.GetOr(0.0)
    ensures r.Ok? && (d.events.Missing? || d.events.value == []) ==> r.value.events == []
    ensures r.Ok? && (d.memories.Missing? || d.memories.value == []) ==> r.value.memories == []
    ensures CardBase.FromDict(d.base, now, newId, image).Err? ==> r == Err(CardBase.FromDict(d.base, now, newId, image).error)
    // a non-empty list is read element by element, and an element's exception is raised
    ensures r.Ok? ==>
      && ReadListIfTruthy(d.events, readEvent) == Ok(r.value.events)
      && ReadListIfTruthy(d.memories, readMemory) == Ok(r.value.memories)
    ensures CardBase.FromDict(d.base, now, newId, image).Ok? && ReadListIfTruthy(d.events, readEvent).Err? ==>
      r == Err(ReadListIfTruthy(d.events, readEvent).error)
    ensures CardBase.FromDict(d.base, now, newId, image).Ok? && ReadListIfTruthy(d.events, readEvent).Ok?
            && ReadListIfTruthy(d.memories, readMemory).Err? ==>
      r == Err(ReadListIfTruthy(d.memories, readMemory).error)
    ensures r.Ok? <==> CardBase.FromDict(d.base, now, newId, image).Ok?
                       && ReadListIfTruthy(d.events, readEvent).Ok? && ReadListIfTruthy(d.memories, readMemory).Ok?
  {
    var base :- CardBase.FromDict(d.base, now, newId, image);
    var events :- ReadListIfTruthy(d.events, readEvent);
    var memories :- ReadListIfTruthy(d.memories, readMemory);
    Ok(PlaceCard(base, d.latitude.GetOr(0.0), d.longitude.GetOr(0.0), events, memories))
  }

  /** With readers that undo the writers, `from_dict(to_dict(p))` gives `p`
      back whenever the base card survives its own round trip. */
  lemma DictRoundTrip<E, M, ED, MD>(p: PlaceCard<E, M>, now: DateTime, newId: Uuid, image: ImageOutcome,
                                    writeEvent: E -> Result<ED>, readEvent: ED -> Result<E>,
                                    writeMemory: M -> Result<MD>, readMemory: MD -> Result<M>)
    requires WellFormed(p.base) && p.base.imagePath != "" && p.base.updatedAt.Some? && p.base.metadata != Json.Null
    requires Dated(p) && Valid(now)
    requires forall i :: 0 <= i < |p.events| ==> writeEvent(p.events[i]).Ok? && readEvent(writeEvent(p.events[i]).value) == Ok(p.events[i])
    requires forall i :: 0 <= i < |p.memories| ==> writeMemory(p.memories[i]).Ok? && readMemory(writeMemory(p.memories[i]).value) == Ok(p.memories[i])
    ensures ToDict(p, writeEvent, writeMemory).Ok?
    ensures FromDict(ToDict(p, writeEvent, writeMemory).value, now, newId, image, readEvent, readMemory) == Ok(p)
  {
    MapAllInverse(p.events, writeEvent, readEvent);
    MapAllInverse(p.memories, writeMemory, readMemory);
    var d := ToDict(p, writeEvent, writeMemory).value;
    assert d.base == CardBase.ToDict(p.base);
    CardBase.DictRoundTrip(p.base, now, newId, image);
    ListRoundTrip(p.events, writeEvent, readEvent);
    ListRoundTrip(p.memories, writeMemory, readMemory);
  }
}

=== FILE: seqs.dfy ===
/** List operations the card classes and the client-side filters repeat:
    append-if-absent (`if x not in xs: xs.append(x)`), Python's
    `list.remove` (drop the first equal element), and order-preserving
    filtering (`[x for x in xs if p(x)]`, JavaScript's `Array.filter`).
 */
module Seqs {

  /** No element occurs twice. */
  predicate NoDup<T(==)>(xs: seq<T>) {
    forall y :: y in xs ==> multiset(xs)[y] == 1
  }

  /** `ys` can be obtained from `xs` by deleting elements, keeping the order. */
  predicate IsSubsequence<T(==)>(ys: seq<T>, xs: seq<T>)
    decreases |xs|
  {
    if |ys| == 0 then true
    else if |xs| == 0 then false
    else if ys[0] == xs[0] then IsSubsequence(ys[1..], xs[1..])
    else IsSubsequence(ys, xs[1..])
  }

  /** `if x not in xs: xs.append(x)`. */
  function AddIfAbsent<T(==)>(xs: seq<T>, x: T): (r: seq<T>)
    ensures x in r
    ensures forall y :: y in r ==> y in xs || y == x
    ensures forall y :: y in xs ==> y in r
    ensures |xs| <= |r| <= |xs| + 1 && r[..|xs|] == xs
    ensures x in xs <==> r == xs
    ensures NoDup(xs) ==> NoDup(r)
  {
    if x in xs then xs else xs + [x]
  }

  /** The position of the first element equal to `x`. */
  function IndexOf<T(==)>(xs: seq<T>, x: T): (i: nat)
    requires x in xs
    ensures i < |xs| && xs[i] == x && x !in xs[..i]
  {
    if xs[0] == x then 0 else 1 + IndexOf(xs[1..], x)
  }

  /** Python's `xs.remove(x)` guarded by `if x in xs`: drops the first element equal to `x`. */
  function RemoveFirst<T(==)>(xs: seq<T>, x: T): (r: seq<T>)
    ensures x !in xs ==> r == xs
    ensures x in xs ==> r == xs[..IndexOf(xs, x)] + xs[IndexOf(xs, x) + 1..]
    ensures |r| == if x in xs then |xs| - 1 else |xs|
    decreases |xs|
  {
    if |xs| == 0 then []
    else if xs[0] == x then xs[1..]
    else
      var rest := RemoveFirst(xs[1..], x);
      var r := [xs[0]] + rest;
      assert r[0] == xs[0] && r[1..] == rest;
      if x in xs then
        assert xs[..IndexOf(xs, x)] == [xs[0]] + xs[1..][..IndexOf(xs[1..], x)];
        r
      else
        assert xs == [xs[0]] + xs[1..];
        r
  }

  /** What is left after removing keeps its order. */
  lemma {:induction false} RemoveFirstIsSubsequence<T>(xs: seq<T>, x: T)
    ensures IsSubsequence(RemoveFirst(xs, x), xs)
    decreases |xs|
  {
    if |xs| > 0 {
      if xs[0] == x {
        SubsequenceRefl(xs[1..]);
        SubsequenceOfTail(xs[1..], xs);
      } else {
        var r := RemoveFirst(xs, x);
        assert r[0] == xs[0] && r[1..] == RemoveFirst(xs[1..], x);
        RemoveFirstIsSubsequence(xs[1..], x);
      }
    }
  }

  /** Removing takes exactly one occurrence of `x` out of the list. */
  lemma RemoveFirstMultiset<T>(xs: seq<T>, x: T)
    ensures multiset(RemoveFirst(xs, x)) == multiset(xs) - multiset{x}
  {
    if x in xs {
      var i := IndexOf(xs, x);
      assert xs == xs[..i] + [x] + xs[i + 1..];
      assert multiset(xs) == multiset(xs[..i]) + multiset{x} + multiset(xs[i + 1..]);
    } else {
      assert multiset(xs)[x] == 0;
      assert multiset(xs) - multiset{x} == multiset(xs);
    }
  }

  /** Removing keeps a list free of duplicates and leaves the element absent. */
  lemma RemoveFirstNoDup<T>(xs: seq<T>, x: T)
    requires NoDup(xs)
    ensures NoDup(RemoveFirst(xs, x)) && x !in RemoveFirst(xs, x)
  {
    var r := RemoveFirst(xs, x);
    RemoveFirstMultiset(xs, x);
    forall y | y in r ensures multiset(r)[y] == 1 {
      assert multiset(r)[y] <= multiset(xs)[y];
    }
  }

  /** Adding an absent element and removing it again restores the list. */
  lemma RemoveUndoesAdd<T>(xs: seq<T>, x: T)
    requires x !in xs
    ensures RemoveFirst(AddIfAbsent(xs, x), x) == xs
  {
    var ys := xs + [x];
    assert ys[..|xs|] == xs;
  }

  /** Adding twice is the same as adding once. */
  lemma AddIdempotent<T>(xs: seq<T>, x: T)
    ensures AddIfAbsent(AddIfAbsent(xs, x), x) == AddIfAbsent(xs, x)
  {
  }

  /** Pairwise distinct elements occur once each. */
  lemma {:induction false} DistinctNoDup<T>(xs: seq<T>)
    requires forall i, j :: 0 <= i < j < |xs| ==> xs[i] != xs[j]
    ensures NoDup(xs)
    decreases |xs|
  {
    if |xs| > 0 {
      var rest := xs[1..];
      DistinctNoDup(rest);
      assert xs == [xs[0]] + rest;
      assert multiset(xs) == multiset{xs[0]} + multiset(rest);
      assert xs[0] !in rest by {
        forall j | 0 <= j < |rest| ensures rest[j] != xs[0] {
          assert rest[j] == xs[j + 1];
        }
      }
    }
  }

  /** Order-preserving filter. */
  function Filter<T>(xs: seq<T>, p: T -> bool): (r: seq<T>)
    ensures |r| <= |xs|
    ensures forall y :: y in r ==> y in xs && p(y)
    decreases |xs|
  {
    if |xs| == 0 then []
    else if p(xs[0]) then [xs[0]] + Filter(xs[1..], p)
    else Filter(xs[1..], p)
  }

  /** The filter keeps exactly the occurrences of the elements that satisfy
      the predicate, in their original order. */
  lemma {:induction false} FilterIsExact<T>(xs: seq<T>, p: T -> bool)
    ensures IsSubsequence(Filter(xs, p), xs)
    ensures forall y :: multiset(Filter(xs, p))[y] == (if p(y) then multiset(xs)[y] else 0)
    decreases |xs|
  {
    if |xs| > 0 {
      FilterIsExact(xs[1..], p);
      assert xs == [xs[0]] + xs[1..];
      assert multiset(xs) == multiset{xs[0]} + multiset(xs[1..]);
      var rest := Filter(xs[1..], p);
      if p(xs[0]) {
        assert Filter(xs, p) == [xs[0]] + rest;
        assert ([xs[0]] + rest)[1..] == rest;
        assert multiset([xs[0]] + rest) == multiset{xs[0]} + multiset(rest);
      } else {
        SubsequenceOfTail(rest, xs);
      }
    }
  }

  /** Every list is a subsequence of itself. */
  lemma {:induction false} SubsequenceRefl<T>(xs: seq<T>)
    ensures IsSubsequence(xs, xs)
    decreases |xs|
  {
    if |xs| > 0 {
      SubsequenceRefl(xs[1..]);
    }
  }

  /** A subsequence of the tail is a subsequence of the whole list. */
  lemma {:induction false} SubsequenceOfTail<T>(ys: seq<T>, xs: seq<T>)
    requires |xs| > 0 && IsSubsequence(ys, xs[1..])
    ensures IsSubsequence(ys, xs)
    decreases |xs|, 1
  {
    if |ys| > 0 && ys[0] == xs[0] {
      SubsequenceDropHead(ys, xs[1..]);
    }
  }

  /** Dropping the first element of a subsequence keeps it a subsequence. */
  lemma {:induction false} SubsequenceDropHead<T>(ys: seq<T>, zs: seq<T>)
    requires |ys| > 0 && IsSubsequence(ys, zs)
    ensures IsSubsequence(ys[1..], zs)
    decreases |zs| + 1, 0
  {
    if ys[0] == zs[0] {
      if |ys[1..]| > 0 {
        SubsequenceOfTail(ys[1..], zs);
      }
    } else {
      SubsequenceDropHead(ys, zs[1..]);
      if |ys[1..]| > 0 {
        SubsequenceOfTail(ys[1..], zs);
      }
    }
  }

  /** A filter whose predicate holds everywhere returns the list unchanged. */
  lemma {:induction false} FilterAll<T>(xs: seq<T>, p: T -> bool)
    requires forall i :: 0 <= i < |xs| ==> p(xs[i])
    ensures Filter(xs, p) == xs
    decreases |xs|
  {
    if |xs| > 0 {
      FilterAll(xs[1..], p);
      assert xs == [xs[0]] + xs[1..];
    }
  }
}

=== FILE: session_db.dfy ===
/** The session store of db/session_db.py: one `sessions` row per session
    id, holding the session dict as JSON text and its creation and update
    times.  The SQLite table is a map from id to row; the clock readings are
    ISO-text parameters.
 */
module SessionStore {
  import opened Outcomes
  import Json

  /** The `data` column: text `json.dumps` wrote, or text that does not decode. */
  datatype Stored = Encoded(value: Json.Value) | Malformed(text: string)

  datatype Row = Row(data: Stored, createdAt: string, updatedAt: string)

  type Db = map<string, Row>

  /** `save_session(id, data)` at clock reading `nowIso`: update the row if the
      id exists, insert one otherwise.  `json.dumps(data)` is evaluated before
      the statement runs, so data it cannot write raises TypeError (which the
      `sqlite3.Error` handler does not catch) and no row changes. */
  function Save(db: Db, id: string, data: Json.Value, nowIso: string): (r: Result<Db>)
    ensures r.Err? <==> !Json.Dumpable(data)
    ensures r.Err? ==> r.error == TypeError
    ensures r.Ok? ==> r.value.Keys == db.Keys + {id}
    ensures r.Ok? ==> r.value[id].data == Encoded(data) && r.value[id].updatedAt == nowIso
    // an update keeps the creation time; an insert stamps it now
    ensures r.Ok? ==> r.value[id].createdAt == (if id in db then db[id].createdAt else nowIso)
    // no other row changes
    ensures r.Ok? ==> forall k :: k in db && k != id ==> r.value[k] == db[k]
  {
    if !Json.Dumpable(data) then Err(TypeError)
    else if id in db then Ok(db[id := db[id].(data := Encoded(data), updatedAt := nowIso)])
    else Ok(db[id := Row(Encoded(data), nowIso, nowIso)])
  }

  /** `get_session(id)`: the decoded data, or None for an unknown id or data
      that does not decode. */
  function Get(db: Db, id: string): (r: Option<Json.Value>)
    ensures r.Some? <==> id in db && db[id].data.Encoded?
    ensures r.Some? ==> r.value == db[id].data.value
  {
    if id in db && db[id].data.Encoded? then Some(db[id].data.value) else None
  }

  /** `delete_session(id)`: remove the row if there is one. */
  function Delete(db: Db, id: string): (r: Db)
    ensures r.Keys == db.Keys - {id}
    ensures forall k :: k in r ==> r[k] == db[k]
  {
    map k | k in db && k != id :: db[k]
  }

  /** Reading back what was just saved gives it back; data `json.dumps`
      refuses is never stored. */
  lemma GetAfterSave(db: Db, id: string, data: Json.Value, nowIso: string)
    ensures Json.Dumpable(data) ==> Get(Save(db, id, data, nowIso).value, id) == Some(data)
    ensures !Json.Dumpable(data) ==> Save(db, id, data, nowIso) == Err(TypeError)
  {
  }

  /** The last write wins: a second save under the same id hides the first,
      for every id; a refused second save leaves the first in place. */
  lemma LastWriteWins(db: Db, id: string, d1: Json.Value, d2: Json.Value, t1: string, t2: string, k: string)
    ensures Json.Dumpable(d1) && Json.Dumpable(d2) ==>
      Get(Save(Save(db, id, d1, t1).value, id, d2, t2).value, k) == Get(Save(db, id, d2, t2).value, k)
    ensures Json.Dumpable(d1) && !Json.Dumpable(d2) ==>
      Get(Save(db, id, d1, t1).value, id) == Some(d1) && Save(Save(db, id, d1, t1).value, id, d2, t2).Err?
  {
  }

  /** Saving under one id leaves every other session as it was. */
  lemma SaveIsolated(db: Db, id: string, data: Json.Value, nowIso: string, k: string)
    requires k != id
    ensures Save(db, id, data, nowIso).Ok? ==> Get(Save(db, id, data, nowIso).value, k) == Get(db, k)
  {
  }

  /** After a delete the session is gone and every other session is as it was. */
  lemma DeleteRemoves(db: Db, id: string, k: string)
    ensures Get(Delete(db, id), id).None?
    ensures k != id ==> Get(Delete(db, id), k) == Get(db, k)
  {
  }

  /** Saving then deleting a new id leaves the store as it was. */
  lemma DeleteUndoesInsert(db: Db, id: string, data: Json.Value, nowIso: string)
    requires id !in db
    ensures Save(db, id, data, nowIso).Ok? ==> Delete(Save(db, id, data, nowIso).value, id) == db
  {
  }
}

=== FILE: storage.dfy ===
/** `StorageManager` of storage/storage_manager.py: cards kept as JSON files
    `<storage_path>/<type>/<id>.json`, one sub-directory per registered type.

    The directory tree is modelled as a map from sub-directory name to the
    files in it, each file by name; a file holds JSON text that parses, or
    text that does not.  A card is seen by storage only through its class
    name, its id and the outcome of its `to_dict()` (in JSON form); reading
    one back goes through the registered class's `from_dict`, a parameter.
 */
module Storage {
  import opened Outcomes
  import opened Text
  import opened Seqs
  import Json

  /** A file's content: JSON text and the value it parses to, or text that is not JSON. */
  datatype FileContent = Parsed(value: Json.Value) | Unreadable

  /** The manager's state: the storage path, the registry `card_types`
      (type key to class name, with its keys in insertion order, as a Python
      dict keeps them), and the sub-directories on disk. */
  datatype Store = Store(
    root: string,
    types: map<string, string>,
    order: seq<string>,
    dirs: map<string, map<string, FileContent>>)

  /** The key order lists each registered key once. */
  predicate WellFormed(s: Store) {
    && NoDup(s.order)
    && (forall k :: k in s.types ==> k in s.order)
    && (forall k :: k in s.order ==> k in s.types)
  }

  // ---------------------------------------------------------------------
  // Paths

  /** POSIX `os.path.join(a, b)`: an absolute `b` replaces `a`; otherwise one
      separator goes between them unless `a` is empty or already ends in one. */
  function PathJoin(a: string, b: string): (p: string)
    ensures |b| > 0 && b[0] == '/' ==> p == b
    ensures |p| >= |b|
    ensures !(|b| > 0 && b[0] == '/') ==> p[|p| - |b|..] == b
  {
    if |b| > 0 && b[0] == '/' then b
    else if a == "" || a[|a| - 1] == '/' then a + b
    else a + "/" + b
  }

  function FileName(id: string): string {
    id + ".json"
  }

  /** `_get_card_path(card_id, card_type)`: the file `<id>.json` inside the
      type's directory under the storage path. */
  function CardPath(root: string, id: string, cardType: string): (p: string)
    ensures |p| >= |FileName(id)|
    ensures !(|id| > 0 && id[0] == '/') ==> p[|p| - |FileName(id)|..] == FileName(id)
    ensures |id| > 0 && id[0] == '/' ==> p == FileName(id)
  {
    PathJoin(PathJoin(root, cardType), FileName(id))
  }

  /** A path component with no separator in it. */
  predicate Plain(name: string) {
    name != "" && '/' !in name
  }

  /** For a storage path without a trailing separator and plain names, the
      path is `<root>/<type>/<id>.json`. */
  lemma CardPathShape(root: string, id: string, cardType: string)
    requires root != "" && root[|root| - 1] != '/' && Plain(cardType) && '/' !in id
    ensures CardPath(root, id, cardType) == root + "/" + cardType + "/" + id + ".json"
    ensures CardPath(root, id, cardType) == (root + "/") + (cardType + "/" + FileName(id))
  {
    var fn := FileName(id);
    assert fn[0] != '/' by {
      if id != "" { assert fn[0] == id[0]; } else { assert fn[0] == '.'; }
    }
    assert cardType[0] in cardType;
    JoinShape(root, cardType);
    var dir := root + "/" + cardType;
    assert dir[|dir| - 1] == cardType[|cardType| - 1];
    JoinShape(dir, fn);
    assert dir + "/" + fn == (root + "/") + (cardType + "/" + fn);
  }

  /** Joining a non-empty relative part to a path without a trailing
      separator puts exactly one separator between them. */
  lemma JoinShape(a: string, b: string)
    requires a != "" && a[|a| - 1] != '/' && b != "" && b[0] != '/'
    ensures PathJoin(a, b) == a + "/" + b
  {
  }

  /** Distinct (id, type) pairs with plain names have distinct paths, so a
      map per sub-directory keyed by file name loses nothing. */
  lemma CardPathsDistinct(root: string, id1: string, t1: string, id2: string, t2: string)
    requires root != "" && root[|root| - 1] != '/'
    requires Plain(t1) && Plain(t2) && '/' !in id1 && '/' !in id2
    requires CardPath(root, id1, t1) == CardPath(root, id2, t2)
    ensures id1 == id2 && t1 == t2
  {
    CardPathShape(root, id1, t1);
    CardPathShape(root, id2, t2);
    DropCommonPrefix(root + "/", t1 + "/" + FileName(id1), t2 + "/" + FileName(id2));
    SplitAtFirstSeparator(t1, FileName(id1), t2, FileName(id2));
    DropCommonSuffix(id1, id2, ".json");
  }

  lemma DropCommonPrefix(p: string, a: string, b: string)
    requires p + a == p + b
    ensures a == b
  {
    assert a == (p + a)[|p|..] && b == (p + b)[|p|..];
  }

  lemma DropCommonSuffix(a: string, b: string, x: string)
    requires a + x == b + x
    ensures a == b
  {
    assert a == (a + x)[..|a|] && b == (b + x)[..|b|];
  }

  lemma SeparatorAfter(t: string, r: string)
    ensures (t + "/" + r)[|t|] == '/'
    ensures forall k :: 0 <= k < |t| ==> (t + "/" + r)[k] == t[k]
  {
  }

  /** Two texts each cut at their first separator cut the same way. */
  lemma SplitAtFirstSeparator(t1: string, r1: string, t2: string, r2: string)
    requires '/' !in t1 && '/' !in t2 && t1 + "/" + r1 == t2 + "/" + r2
    ensures t1 == t2 && r1 == r2
  {
    var a := t1 + "/" + r1;
    var b := t2 + "/" + r2;
    SeparatorAfter(t1, r1);
    SeparatorAfter(t2, r2);
    if |t1| < |t2| {
      assert false;
    } else if |t2| < |t1| {
      assert false;
    }
    assert t1 == a[..|t1|] && t2 == b[..|t2|];
    assert r1 == a[|t1| + 1..] && r2 == b[|t2| + 1..];
  }

  // ---------------------------------------------------------------------
  // Type keys

  /** The key `save_card` files a card under: the lower-cased class name
      with every "card" removed. */
  function SaveKey(className: string): (key: string)
    ensures |key| <= |className|
    ensures Contains(Lower(className), "card") ==> |key| < |className|
  {
    ReplaceAll(Lower(className), "card", "")
  }

  /** `get_card_type(card)`: the lower-cased class name, "card" kept. */
  function TypeName(className: string): (name: string)
    ensures |name| == |className|
    ensures IsLower(name)
  {
    LowerIsLower(className);
    Lower(className)
  }

  /** Whenever the class name contains "card", the two disagree. */
  lemma TypeNameIsNotSaveKey(className: string)
    requires Contains(Lower(className), "card")
    ensures TypeName(className) != SaveKey(className)
  {
  }

  lemma EventKey()
    ensures SaveKey("EventCard") == "event" && TypeName("EventCard") == "eventcard"
  {
    LowerEvent();
    ReplaceAllSkipsPlain("event", "card", "card", "");
    ReplaceAllWhole("card", "");
  }

  lemma MemoryKey()
    ensures SaveKey("MemoryCard") == "memory"
  {
    LowerMemory();
    ReplaceAllSkipsPlain("memory", "card", "card", "");
    ReplaceAllWhole("card", "");
  }

  lemma PlaceKey()
    ensures SaveKey("PlaceCard") == "place"
  {
    var s := "placecard";
    LowerPlace();
    assert "place" + "card" == s;
    forall i | 0 <= i < 5 ensures !IsPrefix("card", s[i..]) {
      if i == 3 {
        assert s[i..][1] == 'e';
      } else {
        assert s[i..][0] == s[i];
      }
    }
    ReplaceAllSkips("place", "card", "card", "");
    ReplaceAllWhole("card", "");
  }

  /** TimePeriodCard is filed under "timeperiod", not "time_period". */
  lemma TimePeriodKey()
    ensures SaveKey("TimePeriodCard") == "timeperiod"
  {
    LowerTimePeriod();
    ReplaceAllSkipsPlain("timeperiod", "card", "card", "");
    ReplaceAllWhole("card", "");
  }

  // The class names lower-cased, one character at a time.
  lemma LowerEvent() ensures Lower("EventCard") == "event" + "card" {
    var s := "EventCard";
    forall i | 0 <= i < |s| ensures Lower(s)[i] == ("event" + "card")[i] {
      if i != 0 && i != 5 { assert !IsUpperAscii(s[i]); }
    }
  }

  lemma LowerMemory() ensures Lower("MemoryCard") == "memory" + "card" {
    var s := "MemoryCard";
    forall i | 0 <= i < |s| ensures Lower(s)[i] == ("memory" + "card")[i] {
      if i != 0 && i != 6 { assert !IsUpperAscii(s[i]); }
    }
  }

  lemma LowerPlace() ensures Lower("PlaceCard") == "place" + "card" {
    var s := "PlaceCard";
    forall i | 0 <= i < |s| ensures Lower(s)[i] == ("place" + "card")[i] {
      if i != 0 && i != 5 { assert !IsUpperAscii(s[i]); }
    }
  }

  lemma LowerTimePeriod() ensures Lower("TimePeriodCard") == "timeperiod" + "card" {
    var s := "TimePeriodCard";
    forall i | 0 <= i < |s| ensures Lower(s)[i] == ("timeperiod" + "card")[i] {
      if i != 0 && i != 4 && i != 10 { assert !IsUpperAscii(s[i]); }
    }
  }

  // ---------------------------------------------------------------------
  // The manager

  /** The types registered by the constructor, in order. */
  const InitialOrder: seq<string> := ["event", "person", "place", "memory", "time_period"]

  function InitialTypes(): (m: map<string, string>)
    ensures forall k :: k in m <==> k in InitialOrder
  {
    map["event" := "EventCard", "person" := "PersonCard", "place" := "PlaceCard",
        "memory" := "MemoryCard", "time_period" := "TimePeriodCard"]
  }

  lemma InitialOrderDistinct()
    ensures NoDup(InitialOrder)
  {
    var o := InitialOrder;
    assert forall i, j :: 0 <= i < j < |o| ==> |o[i]| != |o[j]| || o[i][0] != o[j][0];
    DistinctNoDup(o);
  }

  /** `StorageManager(storage_path)` over the sub-directories already on disk
      (`existing`): a directory is created for each registered type that
      lacks one; existing directories keep their files. */
  function New(root: string, existing: map<string, map<string, FileContent>>): (s: Store)
    ensures WellFormed(s) && s.root == root && s.order == InitialOrder && s.types == InitialTypes()
    ensures forall k :: k in s.types ==> k in s.dirs
    ensures forall t :: t in existing ==> t in s.dirs && s.dirs[t] == existing[t]
    ensures forall t :: t in s.dirs && t !in existing ==> s.dirs[t] == map[]
  {
    InitialOrderDistinct();
    Open(root, InitialTypes(), InitialOrder, existing)
  }

  /** The manager over any registry whose order lists its keys once each. */
  function Open(root: string, types: map<string, string>, order: seq<string>,
                existing: map<string, map<string, FileContent>>): (s: Store)
    requires NoDup(order) && forall k :: k in types <==> k in order
    ensures WellFormed(s) && s.root == root && s.order == order && s.types == types
    ensures forall k :: k in s.types ==> k in s.dirs
    ensures forall t :: t in existing ==> t in s.dirs && s.dirs[t] == existing[t]
    ensures forall t :: t in s.dirs && t !in existing ==> s.dirs[t] == map[]
  {
    var created := map k | k in order && k !in existing :: map[];
    Store(root, types, order, existing + created)
  }

  /** `register_card_type(card_type, card_class)`: one entry added or
      replaced; a new key goes last.  No directory is created for it. */
  function Register(s: Store, key: string, className: string): (r: Store)
    ensures r.types == s.types[key := className] && r.dirs == s.dirs && r.root == s.root
    ensures WellFormed(s) ==> WellFormed(r)
    ensures WellFormed(s) && key in s.types ==> r.order == s.order
    ensures forall k :: k in s.order ==> k in r.order
  {
    var order := if key in s.order then s.order else s.order + [key];
    assert NoDup(s.order) ==> NoDup(order) by {
      if key !in s.order && NoDup(s.order) {
        assert order == AddIfAbsent(s.order, key);
      }
    }
    Store(s.root, s.types[key := className], order, s.dirs)
  }

  /** The file exists. */
  predicate Exists(s: Store, t: string, name: string) {
    t in s.dirs && name in s.dirs[t]
  }

  /** The store with one file (over)written in an existing directory. */
  function Write(s: Store, t: string, name: string, c: FileContent): (r: Store)
    requires t in s.dirs
    ensures r.types == s.types && r.order == s.order && r.root == s.root && r.dirs.Keys == s.dirs.Keys
    ensures Exists(r, t, name) && r.dirs[t][name] == c
    ensures forall u, n :: Exists(s, u, n) && (u, n) != (t, name) ==> Exists(r, u, n) && r.dirs[u][n] == s.dirs[u][n]
    ensures forall u, n :: Exists(r, u, n) ==> Exists(s, u, n) || (u, n) == (t, name)
  {
    s.(dirs := s.dirs[t := s.dirs[t][name := c]])
  }

  /** The store after a method, and the exception it raised part-way, if any. */
  datatype Step = Step(store: Store, raised: Option<PyError>)

  /** The record `save_card` writes: the card's dict with its type key added. */
  function Record(fields: map<string, Json.Value>, key: string): Json.Value {
    Json.Object(fields["type" := Json.Str(key)])
  }

  /** `save_card(card)` for a card of class `className` with id `id`, whose
      `to_dict()` gave `toDict`: an unregistered key raises ValueError before
      anything else; `to_dict` raising propagates; opening the file fails in a
      missing directory; and a record `json.dump` cannot write raises
      TypeError after the file was opened, leaving it truncated. */
  function SaveCard(s: Store, className: string, id: string, toDict: Result<map<string, Json.Value>>): (r: Step)
    ensures SaveKey(className) !in s.types ==> r == Step(s, Some(ValueError))
    ensures SaveKey(className) in s.types && toDict.Err? ==> r == Step(s, Some(toDict.error))
    ensures SaveKey(className) in s.types && toDict.Ok? && SaveKey(className) !in s.dirs ==> r == Step(s, Some(FileNotFoundError))
    ensures r.raised.None? <==>
      SaveKey(className) in s.types && toDict.Ok? && SaveKey(className) in s.dirs && Json.Dumpable(Record(toDict.value, SaveKey(className)))
    ensures r.raised.None? ==> r.store == Write(s, SaveKey(className), FileName(id), Parsed(Record(toDict.value, SaveKey(className))))
    ensures r.raised == Some(TypeError) && toDict.Ok? && toDict.value != map[] ==>
      r.store == Write(s, SaveKey(className), FileName(id), Unreadable)
    ensures r.store.types == s.types && r.store.order == s.order && r.store.dirs.Keys == s.dirs.Keys
  {
    var key := SaveKey(className);
    if key !in s.types then Step(s, Some(ValueError))
    else if toDict.Err? then Step(s, Some(toDict.error))
    else if key !in s.dirs then Step(s, Some(FileNotFoundError))
    else
      var record := Record(toDict.value, key);
      if Json.Dumpable(record) then Step(Write(s, key, FileName(id), Parsed(record)), None)
      else Step(Write(s, key, FileName(id), Unreadable), Some(TypeError))
  }

  /** `load_card(card_id, card_type)`, with `fromDict(className, data)`
      standing for the registered class's `from_dict`: an unregistered type
      raises ValueError, a missing file gives None, text that is not JSON
      raises, and `from_dict` raising propagates. */
  function LoadCard<C>(s: Store, id: string, cardType: string, fromDict: (string, Json.Value) -> Result<C>)
    : (r: Result<Option<C>>)
    ensures cardType !in s.types ==> r == Err(ValueError)
    ensures cardType in s.types && !Exists(s, cardType, FileName(id)) ==> r == Ok(None)
    ensures cardType in s.types && Exists(s, cardType, FileName(id)) && s.dirs[cardType][FileName(id)] == Unreadable ==>
      r == Err(JsonDecodeError)
    ensures r.Ok? && r.value.Some? ==>
      && Exists(s, cardType, FileName(id)) && s.dirs[cardType][FileName(id)].Parsed?
      && fromDict(s.types[cardType], s.dirs[cardType][FileName(id)].value) == Ok(r.value.value)
    // a parsed file is handed to `from_dict`, whose card or exception is the outcome
    ensures cardType in s.types && Exists(s, cardType, FileName(id)) && s.dirs[cardType][FileName(id)].Parsed? ==>
      r == (match fromDict(s.types[cardType], s.dirs[cardType][FileName(id)].value)
            case Ok(c) => Ok(Some(c))
            case Err(e) => Err(e))
  {
    if cardType !in s.types then Err(ValueError)
    else if !Exists(s, cardType, FileName(id)) then Ok(None)
    else match s.dirs[cardType][FileName(id)]
      case Unreadable => Err(JsonDecodeError)
      case Parsed(data) =>
        var card :- fromDict(s.types[cardType], data);
        Ok(Some(card))
  }

  /** `delete_card(card_id, card_type)`: an unregistered type raises
      ValueError; otherwise True exactly when the file existed, and it no
      longer does.  Nothing else changes. */
  function DeleteCard(s: Store, id: string, cardType: string): (r: Result<(Store, bool)>)
    ensures r.Err? <==> cardType !in s.types
    ensures r.Err? ==> r.error == ValueError
    ensures r.Ok? ==> (r.value.1 <==> Exists(s, cardType, FileName(id)))
    ensures r.Ok? ==> !Exists(r.value.0, cardType, FileName(id))
    ensures r.Ok? ==> r.value.0.types == s.types && r.value.0.order == s.order && r.value.0.dirs.Keys == s.dirs.Keys
    ensures r.Ok? ==> forall u, n :: (u, n) != (cardType, FileName(id)) ==>
      (Exists(r.value.0, u, n) <==> Exists(s, u, n)) && (Exists(s, u, n) ==> r.value.0.dirs[u][n] == s.dirs[u][n])
  {
    if cardType !in s.types then Err(ValueError)
    else if !Exists(s, cardType, FileName(id)) then Ok((s, false))
    else Ok((s.(dirs := s.dirs[cardType := s.dirs[cardType] - {FileName(id)}]), true))
  }

  /** A saved card loads back through its class's `from_dict` from the record
      written, when asked for under the key it was filed by. */
  lemma SaveThenLoad<C>(s: Store, className: string, id: string, fields: map<string, Json.Value>,
                        fromDict: (string, Json.Value) -> Result<C>)
    requires SaveCard(s, className, id, Ok(fields)).raised.None?
    ensures var key := SaveKey(className);
      LoadCard(SaveCard(s, className, id, Ok(fields)).store, id, key, fromDict)
      == (match fromDict(s.types[key], Record(fields, key))
          case Ok(c) => Ok(Some(c))
          case Err(e) => Err(e))
  {
  }

  /** Saving the same card again replaces the first record: last write wins. */
  lemma SaveOverwrites(s: Store, className: string, id: string, first: map<string, Json.Value>,
                       second: map<string, Json.Value>)
    requires SaveCard(s, className, id, Ok(first)).raised.None?
    ensures SaveCard(SaveCard(s, className, id, Ok(first)).store, className, id, Ok(second))
            == SaveCard(s, className, id, Ok(second))
  {
    var key := SaveKey(className);
    var s1 := SaveCard(s, className, id, Ok(first)).store;
    WriteTwice(s, key, FileName(id), Parsed(Record(first, key)), Parsed(Record(second, key)));
    WriteTwice(s, key, FileName(id), Parsed(Record(first, key)), Unreadable);
  }

  /** A second write of the same file replaces the first. */
  lemma WriteTwice(s: Store, t: string, name: string, c1: FileContent, c2: FileContent)
    requires t in s.dirs
    ensures Write(Write(s, t, name, c1), t, name, c2) == Write(s, t, name, c2)
  {
    var s1 := Write(s, t, name, c1);
    assert s1.dirs[t][name := c2] == s.dirs[t][name := c2];
  }

  /** After a successful delete the card is gone: loading gives None and a
      second delete gives False. */
  lemma DeleteThenLoad<C>(s: Store, id: string, cardType: string, fromDict: (string, Json.Value) -> Result<C>)
    requires DeleteCard(s, id, cardType).Ok?
    ensures LoadCard(DeleteCard(s, id, cardType).value.0, id, cardType, fromDict) == Ok(None)
    ensures DeleteCard(DeleteCard(s, id, cardType).value.0, id, cardType) == Ok((DeleteCard(s, id, cardType).value.0, false))
  {
  }

  /** A fresh manager refuses to save a TimePeriodCard: its key is not registered. */
  lemma InitialRefusesTimePeriod(root: string, existing: map<string, map<string, FileContent>>, id: string,
                                 fields: map<string, Json.Value>)
    ensures SaveCard(New(root, existing), "TimePeriodCard", id, Ok(fields)) == Step(New(root, existing), Some(ValueError))
  {
    var k := SaveKey("TimePeriodCard");
    TimePeriodKey();
    assert |k| == 10;
    assert k !in InitialOrder by {
      forall i | 0 <= i < |InitialOrder| ensures InitialOrder[i] != k {
        assert |InitialOrder[i]| != 10;
      }
    }
    assert k !in New(root, existing).types;
  }

  /** A fresh manager files an EventCard under "event". */
  lemma InitialSavesEvent(root: string, existing: map<string, map<string, FileContent>>, id: string,
                          fields: map<string, Json.Value>)
    requires Json.Dumpable(Record(fields, "event"))
    ensures SaveCard(New(root, existing), "EventCard", id, Ok(fields)).raised.None?
  {
    EventKey();
    assert InitialOrder[0] == "event";
  }

  /** A fresh manager refuses a load under `get_card_type`'s name for EventCard. */
  lemma InitialRefusesEventLoad<C>(root: string, existing: map<string, map<string, FileContent>>, id: string,
                                   fromDict: (string, Json.Value) -> Result<C>)
    ensures LoadCard(New(root, existing), id, TypeName("EventCard"), fromDict) == Err(ValueError)
  {
    var t := TypeName("EventCard");
    assert |t| == 9;
    assert t !in InitialOrder by {
      forall i | 0 <= i < |InitialOrder| ensures InitialOrder[i] != t {
        assert |InitialOrder[i]| != 9;
      }
    }
    assert t !in New(root, existing).types;
  }

  /** A type registered after construction has no directory unless one was
      already on disk, so saving a card of it fails when the file is opened. */
  lemma RegisteredTypeNeedsDirectory(s: Store, className: string, id: string, fields: map<string, Json.Value>)
    requires SaveKey(className) !in s.dirs
    ensures SaveCard(Register(s, SaveKey(className), className), className, id, Ok(fields)).raised == Some(FileNotFoundError)
  {
  }

  // ---------------------------------------------------------------------
  // Listing

  /** One entry of `list_cards`: the record's fields read with `.get`, and
      the type key the file was found under. */
  datatype Summary = Summary(
    id: Json.Value,
    title: Json.Value,
    description: Json.Value,
    cardType: string,
    createdAt: Json.Value,
    updatedAt: Json.Value)

  function IsJsonName(name: string): bool {
    |name| >= 5 && name[|name| - 5..] == ".json"
  }

  /** A file `list_cards` reports: registered type, existing directory, a
      `.json` name, and content that loads as a JSON object (on anything
      else `.get` raises and the file is skipped). */
  predicate Listed(s: Store, t: string, name: string) {
    t in s.types && Exists(s, t, name) && IsJsonName(name)
    && s.dirs[t][name].Parsed? && s.dirs[t][name].value.Object?
  }

  function Summarise(s: Store, t: string, name: string): (c: Summary)
    requires Listed(s, t, name)
    ensures c.cardType == t
  {
    var f := s.dirs[t][name].value.fields;
    Summary(Json.Get(f, "id"), Json.Get(f, "title"), Json.Get(f, "description"), t,
            Json.Get(f, "created_at"), Json.Get(f, "updated_at"))
  }

  /** The types `list_cards` visits: the one asked for, or every registered
      type in order when none (or an empty name) is given. */
  function TypesToList(s: Store, cardType: Option<string>): (ts: seq<string>)
    ensures WellFormed(s) ==> NoDup(ts)
  {
    if cardType.Some? && cardType.value != "" then [cardType.value] else s.order
  }

  /** One type's directory in `list_cards`, its files taken in the file
      system's (arbitrary) order; `sources` records the file each entry came
      from.  Every listed file is reported once, and nothing else. */
  method ListType(s: Store, t: string) returns (cards: seq<Summary>, ghost sources: seq<(string, string)>)
    ensures t !in s.types || t !in s.dirs ==> cards == []
    ensures forall c :: c in cards ==> c.cardType == t
    ensures |cards| == |sources| && NoDup(sources)
    ensures forall k :: 0 <= k < |sources| ==>
      sources[k].0 == t && Listed(s, t, sources[k].1) && cards[k] == Summarise(s, t, sources[k].1)
    ensures forall name :: Listed(s, t, name) ==> (t, name) in sources
  {
    cards, sources := [], [];
    if t in s.types && t in s.dirs {
      var names := s.dirs[t].Keys;
      while names != {}
        invariant names <= s.dirs[t].Keys
        invariant |cards| == |sources| && NoDup(sources)
        invariant forall c :: c in cards ==> c.cardType == t
        invariant forall k :: 0 <= k < |sources| ==>
          && sources[k].0 == t && sources[k].1 !in names
          && Listed(s, t, sources[k].1) && cards[k] == Summarise(s, t, sources[k].1)
        invariant forall name :: name in s.dirs[t] && name !in names && Listed(s, t, name) ==> (t, name) in sources
        decreases |names|
      {
        var name :| name in names;
        if Listed(s, t, name) {
          AppendKeepsNoDup(sources, (t, name));
          cards, sources := cards + [Summarise(s, t, name)], sources + [(t, name)];
        }
        names := names - {name};
      }
    }
  }

  /** `list_cards(card_type)`: the listed files of each visited type, type
      by type. */
  method ListCards(s: Store, cardType: Option<string>) returns (cards: seq<Summary>, ghost sources: seq<(string, string)>)
    requires WellFormed(s)
    ensures |cards| == |sources| && NoDup(sources)
    ensures forall k :: 0 <= k < |sources| ==>
      && sources[k].0 in TypesToList(s, cardType) && Listed(s, sources[k].0, sources[k].1)
      && cards[k] == Summarise(s, sources[k].0, sources[k].1)
    ensures forall t, name :: t in TypesToList(s, cardType) && Listed(s, t, name) ==> (t, name) in sources
    ensures forall k :: 0 <= k < |cards| ==> cards[k].cardType in s.types
  {
    var ts := TypesToList(s, cardType);
    cards, sources := [], [];
    var i := 0;
    while i < |ts|
      invariant 0 <= i <= |ts|
      invariant NoDup(sources) && Reports(s, cards, sources, ts[..i])
      invariant forall j, name :: 0 <= j < i && Listed(s, ts[j], name) ==> (ts[j], name) in sources
    {
      var more, from := ListType(s, ts[i]);
      assert ts[i] !in ts[..i] by { NoDupPrefix(ts, i); }
      AppendDisjointKeepsNoDup(sources, from);
      assert ts[..i + 1] == ts[..i] + [ts[i]];
      ReportsAppend(s, cards, sources, more, from, ts[..i], ts[i]);
      CoversAppend(s, sources, from, ts, i);
      cards, sources := cards + more, sources + from;
      i := i + 1;
    }
    assert ts[..i] == ts;
  }

  /** Each listed entry comes from a listed file of one of the types `ts`. */
  ghost predicate Reports(s: Store, cards: seq<Summary>, sources: seq<(string, string)>, ts: seq<string>) {
    && |cards| == |sources|
    && forall k :: 0 <= k < |sources| ==>
      && sources[k].0 in ts && Listed(s, sources[k].0, sources[k].1)
      && cards[k] == Summarise(s, sources[k].0, sources[k].1)
  }

  lemma ReportsAppend(s: Store, cards: seq<Summary>, sources: seq<(string, string)>,
                      more: seq<Summary>, from: seq<(string, string)>, ts: seq<string>, t: string)
    requires Reports(s, cards, sources, ts)
    requires |more| == |from|
    requires forall k :: 0 <= k < |from| ==>
      from[k].0 == t && Listed(s, t, from[k].1) && more[k] == Summarise(s, t, from[k].1)
    ensures Reports(s, cards + more, sources + from, ts + [t])
  {
    var c, o := cards + more, sources + from;
    forall k | 0 <= k < |o|
      ensures o[k].0 in ts + [t] && Listed(s, o[k].0, o[k].1) && c[k] == Summarise(s, o[k].0, o[k].1)
    {
      if k < |sources| {
        assert o[k] == sources[k] && c[k] == cards[k];
      } else {
        assert o[k] == from[k - |sources|] && c[k] == more[k - |sources|];
      }
    }
  }

  lemma CoversAppend(s: Store, sources: seq<(string, string)>, from: seq<(string, string)>, ts: seq<string>, i: nat)
    requires i < |ts|
    requires forall j, name :: 0 <= j < i && Listed(s, ts[j], name) ==> (ts[j], name) in sources
    requires forall name :: Listed(s, ts[i], name) ==> (ts[i], name) in from
    ensures forall j, name :: 0 <= j < i + 1 && Listed(s, ts[j], name) ==> (ts[j], name) in sources + from
  {
  }

  /** The element at index `i` of a list without duplicates is not among the first `i`. */
  lemma NoDupPrefix<T>(xs: seq<T>, i: nat)
    requires NoDup(xs) && i < |xs|
    ensures xs[i] !in xs[..i]
  {
    assert xs == xs[..i] + xs[i..];
    assert multiset(xs) == multiset(xs[..i]) + multiset(xs[i..]);
    assert xs[i] in xs && xs[i] in xs[i..];
    assert multiset(xs[..i])[xs[i]] == 0;
  }

  /** Appending an element not yet present keeps a list free of duplicates. */
  lemma AppendKeepsNoDup<T>(xs: seq<T>, x: T)
    requires NoDup(xs) && x !in xs
    ensures NoDup(xs + [x])
  {
    assert xs + [x] == AddIfAbsent(xs, x);
  }

  /** Joining two lists without duplicates and without common elements. */
  lemma AppendDisjointKeepsNoDup<T>(xs: seq<T>, ys: seq<T>)
    requires NoDup(xs) && NoDup(ys) && forall y :: y in ys ==> y !in xs
    ensures NoDup(xs + ys)
  {
    assert multiset(xs + ys) == multiset(xs) + multiset(ys);
    forall y | y in xs + ys ensures multiset(xs + ys)[y] == 1 {
      if y in xs {
        assert y !in ys;
      }
    }
  }
}

=== FILE: text.dfy ===
/** String operations of Python's `str` and JavaScript's `String` that the
    modelled code relies on: whitespace stripping, lower-casing, substring
    search, splitting on a separator, replacing every occurrence, and the
    text after the last occurrence of a character.

    Strings are `seq<char>`.  Lower-casing covers the ASCII letters only.
 */
module Text {
  import opened Outcomes

  /** The two whitespace tables in use: Python's `str.isspace` and
      the WhiteSpace and LineTerminator sets JavaScript's `trim` removes. */
  datatype Spaces = PySpaces | JsSpaces

  predicate IsSpace(k: Spaces, c: char) {
    var n := c as int;
    // shared by both tables: tab, line feed, vertical tab, form feed,
    // carriage return, space, no-break space, the Unicode space separators
    // and the line and paragraph separators
    var common := (9 <= n <= 13) || n == 32 || n == 0xA0 || n == 0x1680
      || (0x2000 <= n <= 0x200A) || n == 0x2028 || n == 0x2029
      || n == 0x202F || n == 0x205F || n == 0x3000;
    match k
    // Python adds the information separators 0x1C-0x1F and NEXT LINE
    case PySpaces => common || (0x1C <= n <= 0x1F) || n == 0x85
    // JavaScript adds the byte order mark
    case JsSpaces => common || n == 0xFEFF
  }

  predicate AllSpace(k: Spaces, s: string) {
    forall i :: 0 <= i < |s| ==> IsSpace(k, s[i])
  }

  /** `s` with leading whitespace removed. */
  function StripLeft(k: Spaces, s: string): (r: string)
    ensures |r| <= |s| && r == s[|s| - |r|..]
    ensures |r| > 0 ==> !IsSpace(k, r[0])
    ensures AllSpace(k, s[..|s| - |r|])
  {
    if |s| > 0 && IsSpace(k, s[0]) then
      var r := StripLeft(k, s[1..]);
      assert s[..|s| - |r|] == [s[0]] + s[1..][..|s[1..]| - |r|];
      r
    else s
  }

  /** `s` with trailing whitespace removed. */
  function StripRight(k: Spaces, s: string): (r: string)
    ensures |r| <= |s| && r == s[..|r|]
    ensures |r| > 0 ==> !IsSpace(k, r[|r| - 1])
    ensures AllSpace(k, s[|r|..])
  {
    if |s| > 0 && IsSpace(k, s[|s| - 1]) then
      var r := StripRight(k, s[..|s| - 1]);
      assert s[|r|..] == s[..|s| - 1][|r|..] + [s[|s| - 1]];
      r
    else s
  }

  /** The number of leading whitespace characters of `s`. */
  function LeadingSpaces(k: Spaces, s: string): nat {
    |s| - |StripLeft(k, s)|
  }

  /** Both-ends stripping with the given whitespace table: the result is the
      slice of `s` between its leading and its trailing whitespace. */
  function StripWith(k: Spaces, s: string): (r: string)
    ensures |r| > 0 ==> !IsSpace(k, r[0]) && !IsSpace(k, r[|r| - 1])
    ensures LeadingSpaces(k, s) + |r| <= |s|
    ensures r == s[LeadingSpaces(k, s)..LeadingSpaces(k, s) + |r|]
    ensures AllSpace(k, s[..LeadingSpaces(k, s)])
    ensures AllSpace(k, s[LeadingSpaces(k, s) + |r|..])
  {
    var left := StripLeft(k, s);
    var r := StripRight(k, left);
    var i := |s| - |left|;
    assert s[i + |r|..] == left[|r|..];
    r
  }

  /** Python's `s.strip()` with no argument. */
  function Strip(s: string): string {
    StripWith(PySpaces, s)
  }

  /** JavaScript's `s.trim()`. */
  function Trim(s: string): string {
    StripWith(JsSpaces, s)
  }

  /** Stripping leaves the empty string exactly when the input is all whitespace. */
  lemma StripEmptyIffAllSpace(k: Spaces, s: string)
    ensures StripWith(k, s) == [] <==> AllSpace(k, s)
  {
    var r := StripWith(k, s);
    var i := LeadingSpaces(k, s);
    if r == [] {
      forall j | 0 <= j < |s| ensures IsSpace(k, s[j]) {
        assert s[..i][j] == s[j];
      }
    } else {
      assert s[i] == r[0];
    }
  }

  /** Stripping is idempotent: a stripped string has nothing left to strip. */
  lemma StripIdempotent(k: Spaces, s: string)
    ensures StripWith(k, StripWith(k, s)) == StripWith(k, s)
  {
    var r := StripWith(k, s);
    StripLeftNoop(k, r);
    StripRightNoop(k, r);
  }

  lemma StripLeftNoop(k: Spaces, s: string)
    requires |s| > 0 ==> !IsSpace(k, s[0])
    ensures StripLeft(k, s) == s
  {
  }

  lemma StripRightNoop(k: Spaces, s: string)
    requires |s| > 0 ==> !IsSpace(k, s[|s| - 1])
    ensures StripRight(k, s) == s
  {
  }

  predicate IsUpperAscii(c: char) {
    'A' <= c <= 'Z'
  }

  function LowerChar(c: char): (d: char)
    ensures !IsUpperAscii(d)
    ensures !IsUpperAscii(c) ==> d == c
  {
    if IsUpperAscii(c) then (c as int + 32) as char else c
  }

  /** Python's `str.lower()` / JavaScript's `toLowerCase()`, on ASCII letters. */
  function Lower(s: string): (r: string)
    ensures |r| == |s|
    ensures forall i :: 0 <= i < |s| ==> r[i] == LowerChar(s[i])
  {
    seq(|s|, i requires 0 <= i < |s| => LowerChar(s[i]))
  }

  predicate IsLower(s: string) {
    forall i :: 0 <= i < |s| ==> !IsUpperAscii(s[i])
  }

  lemma LowerIsLower(s: string)
    ensures IsLower(Lower(s))
    ensures IsLower(s) ==> Lower(s) == s
  {
  }

  /** Lower-casing maps whitespace to whitespace, so it commutes with stripping. */
  lemma LowerPreservesSpace(k: Spaces, c: char)
    ensures IsSpace(k, LowerChar(c)) <==> IsSpace(k, c)
  {
  }

  predicate IsPrefix(p: string, s: string) {
    |p| <= |s| && s[..|p|] == p
  }

  /** Python's `sub in s` / JavaScript's `s.includes(sub)`. */
  predicate Contains(s: string, sub: string)
    decreases |s|
  {
    IsPrefix(sub, s) || (|s| > 0 && Contains(s[1..], sub))
  }

  /** `sub` occurs in `s` starting at position `i`. */
  predicate OccursAt(s: string, sub: string, i: int) {
    0 <= i <= |s| - |sub| && s[i..i + |sub|] == sub
  }

  /** `Contains` agrees with "`sub` occurs at some position of `s`". */
  lemma {:induction false} ContainsIffOccurs(s: string, sub: string)
    ensures Contains(s, sub) <==> exists i :: OccursAt(s, sub, i)
    decreases |s|
  {
    if IsPrefix(sub, s) {
      assert OccursAt(s, sub, 0);
    } else if |s| > 0 {
      ContainsIffOccurs(s[1..], sub);
      if exists i :: OccursAt(s, sub, i) {
        var i :| OccursAt(s, sub, i);
        assert i != 0;
        assert s[1..][i - 1..i - 1 + |sub|] == s[i..i + |sub|];
        assert OccursAt(s[1..], sub, i - 1);
      }
      if Contains(s[1..], sub) {
        var j :| OccursAt(s[1..], sub, j);
        assert s[1..][j..j + |sub|] == s[j + 1..j + 1 + |sub|];
        assert OccursAt(s, sub, j + 1);
      }
    }
  }

  /** Python's `s.split(sep)` for a one-character separator. */
  function Split(s: string, sep: char): (parts: seq<string>)
    ensures |parts| > 0
    ensures forall i :: 0 <= i < |parts| ==> sep !in parts[i]
    decreases |s|
  {
    if |s| == 0 then [""]
    else
      var rest := Split(s[1..], sep);
      if s[0] == sep then [""] + rest
      else [[s[0]] + rest[0]] + rest[1..]
  }

  /** `sep.join(parts)`. */
  function Join(parts: seq<string>, sep: char): string
    requires |parts| > 0
  {
    if |parts| == 1 then parts[0] else parts[0] + [sep] + Join(parts[1..], sep)
  }

  /** Splitting and re-joining on the same separator gives the input back. */
  lemma {:induction false} JoinSplit(s: string, sep: char)
    ensures Join(Split(s, sep), sep) == s
    decreases |s|
  {
    if |s| > 0 {
      var rest := Split(s[1..], sep);
      JoinSplit(s[1..], sep);
      if s[0] == sep {
        assert Split(s, sep) == [""] + rest;
        assert Split(s, sep)[1..] == rest;
        assert s == [sep] + s[1..];
      } else {
        var parts := Split(s, sep);
        assert parts == [[s[0]] + rest[0]] + rest[1..];
        if |rest| == 1 {
          assert parts[0] == [s[0]] + rest[0];
          assert s == [s[0]] + s[1..];
        } else {
          assert parts[1..] == rest[1..];
          assert Join(rest, sep) == rest[0] + [sep] + Join(rest[1..], sep);
          assert s == [s[0]] + s[1..];
        }
      }
    }
  }

  /** Python's `s.replace(pat, rep)`: every non-overlapping occurrence, scanning left to right. */
  function ReplaceAll(s: string, pat: string, rep: string): (r: string)
    requires |pat| > 0
    ensures rep == [] ==> |r| <= |s|
    ensures rep == [] && Contains(s, pat) ==> |r| < |s|
    decreases |s|
  {
    if |s| == 0 then []
    else if IsPrefix(pat, s) then rep + ReplaceAll(s[|pat|..], pat, rep)
    else [s[0]] + ReplaceAll(s[1..], pat, rep)
  }

  /** Replacing in `s + t` passes over `s` unchanged when no occurrence of
      `pat` starts inside `s`. */
  lemma {:induction false} ReplaceAllSkips(s: string, t: string, pat: string, rep: string)
    requires |pat| > 0
    requires forall i :: 0 <= i < |s| ==> !IsPrefix(pat, (s + t)[i..])
    ensures ReplaceAll(s + t, pat, rep) == s + ReplaceAll(t, pat, rep)
    decreases |s|
  {
    if |s| > 0 {
      assert (s + t)[0..] == s + t;
      assert (s + t)[1..] == s[1..] + t;
      forall i | 0 <= i < |s[1..]| ensures !IsPrefix(pat, (s[1..] + t)[i..]) {
        assert (s[1..] + t)[i..] == (s + t)[i + 1..];
      }
      ReplaceAllSkips(s[1..], t, pat, rep);
      assert s == [s[0]] + s[1..];
    }
  }

  /** A text in which the first character of `pat` never occurs has no
      occurrence of `pat` starting inside it. */
  lemma ReplaceAllSkipsPlain(s: string, t: string, pat: string, rep: string)
    requires |pat| > 0 && pat[0] !in s
    ensures ReplaceAll(s + t, pat, rep) == s + ReplaceAll(t, pat, rep)
  {
    forall i | 0 <= i < |s| ensures !IsPrefix(pat, (s + t)[i..]) {
      assert (s + t)[i..][0] == s[i];
    }
    ReplaceAllSkips(s, t, pat, rep);
  }

  /** The pattern alone is replaced whole. */
  lemma ReplaceAllWhole(pat: string, rep: string)
    requires |pat| > 0
    ensures ReplaceAll(pat, pat, rep) == rep
  {
    assert IsPrefix(pat, pat);
    assert pat[|pat|..] == [];
  }

  /** The position of the last `c` in `s`, if any. */
  function LastIndexOf(s: string, c: char): (r: Option<nat>)
    ensures r.None? <==> c !in s
    ensures r.Some? ==> r.value < |s| && s[r.value] == c && c !in s[r.value + 1..]
  {
    if |s| == 0 then None
    else if s[|s| - 1] == c then Some(|s| - 1)
    else
      var r := LastIndexOf(s[..|s| - 1], c);
      assert s[..|s| - 1] + [s[|s| - 1]] == s;
      if r.Some? then
        assert s[r.value + 1..] == s[..|s| - 1][r.value + 1..] + [s[|s| - 1]];
        r
      else r
  }

  /** Python's `s.rsplit(c, 1)[1]`: the text after the last `c`. */
  function AfterLast(s: string, c: char): (r: string)
    requires c in s
    ensures c !in r
    ensures exists i :: 0 <= i < |s| && s[i] == c && r == s[i + 1..]
  {
    var i := LastIndexOf(s, c).value;
    s[i + 1..]
  }
}

=== FILE: time_period_card.dfy ===
/** `TimePeriodCard` of cards/time_period_card.py: a dataclass card with a
    start date, an optional end date, and lists of attached event and memory
    cards (type parameters `E` and `M`, whose `to_dict` / `from_dict` are
    passed in as functions, as for places).
 */
module TimePeriodCards {
  import opened Outcomes
  import opened Calendar
  import opened Seqs
  import Json
  import opened CardBase
  import MediaRecord

  datatype TimePeriodCard<E, M> = TimePeriodCard(
    base: Card,
    startDate: DateTime,
    endDate: Option<DateTime>,
    events: seq<E>,
    memories: seq<M>)

  /** `TimePeriodCard(...)`: the base card's checks, then the period's own fields. */
  function New<E, M>(title: string, description: string, id: Option<string>, createdAt: DateTime,
                     updatedAt: Option<DateTime>, metadata: Json.Value, imagePath: string, media: seq<MediaRecord.Media>,
                     startDate: DateTime, endDate: Option<DateTime>, events: seq<E>, memories: seq<M>,
                     newId: Uuid, image: ImageOutcome): (r: Result<TimePeriodCard<E, M>>)
    ensures r.Err? <==> CardBase.New(title, description, id, createdAt, updatedAt, metadata, imagePath, media, newId, image).Err?
    ensures r.Ok? ==>
      && r.value.base == CardBase.New(title, description, id, createdAt, updatedAt, metadata, imagePath, media, newId, image).value
      && r.value.startDate == startDate && r.value.endDate == endDate
      && r.value.events == events && r.value.memories == memories
  {
    var base :- CardBase.New(title, description, id, createdAt, updatedAt, metadata, imagePath, media, newId, image);
    Ok(TimePeriodCard(base, startDate, endDate, events, memories))
  }

  /** `set_dates(start_date, end_date=None)`: both dates are assigned, the end
      possibly to None; nothing else changes and `updated_at` is not stamped. */
  function SetDates<E, M>(t: TimePeriodCard<E, M>, startDate: DateTime, endDate: Option<DateTime>): (r: TimePeriodCard<E, M>)
    ensures r.startDate == startDate && r.endDate == endDate
    ensures r.base == t.base && r.events == t.events && r.memories == t.memories
  {
    t.(startDate := startDate, endDate := endDate)
  }

  /** `add_event(event)`: append unless an equal card is already there. */
  function AddEvent<E(==), M>(t: TimePeriodCard<E, M>, e: E): (r: TimePeriodCard<E, M>)
    ensures r.events == AddIfAbsent(t.events, e)
    ensures r.base == t.base && r.memories == t.memories && r.startDate == t.startDate && r.endDate == t.endDate
  {
    if e in t.events then t else t.(events := t.events + [e])
  }

  /** `add_memory(memory)`: append unless an equal card is already there. */
  function AddMemory<E, M(==)>(t: TimePeriodCard<E, M>, m: M): (r: TimePeriodCard<E, M>)
    ensures r.memories == AddIfAbsent(t.memories, m)
    ensures r.base == t.base && r.events == t.events && r.startDate == t.startDate && r.endDate == t.endDate
  {
    if m in t.memories then t else t.(memories := t.memories + [m])
  }

  /** Both lists stay free of duplicates. */
  lemma AddsKeepDistinct<E, M>(t: TimePeriodCard<E, M>, e: E, m: M)
    requires NoDup(t.events) && NoDup(t.memories)
    ensures NoDup(AddEvent(t, e).events) && NoDup(AddMemory(t, m).memories)
  {
  }

  /** `to_dict()`: the base dict, both dates as ISO text (None for an unset
      end), and the attached cards' dicts. */
  datatype TimePeriodDict<ED, MD> = TimePeriodDict(
    base: CardDict,
    startDate: Entry<string>,
    endDate: Entry<Option<string>>,
    events: Entry<seq<ED>>,
    memories: Entry<seq<MD>>)

  predicate Dated<E, M>(t: TimePeriodCard<E, M>) {
    && Valid(t.base.createdAt) && (t.base.updatedAt.Some? ==> Valid(t.base.updatedAt.value)) && MediaValid(t.base.media)
    && Valid(t.startDate) && (t.endDate.Some? ==> Valid(t.endDate.value))
  }

  function ToDict<E, M, ED, MD>(t: TimePeriodCard<E, M>, writeEvent: E -> Result<ED>, writeMemory: M -> Result<MD>)
    : (r: Result<TimePeriodDict<ED, MD>>)
    requires Dated(t)
    ensures r.Ok? <==> MapAll(t.events, writeEvent).Ok? && MapAll(t.memories, writeMemory).Ok?
    ensures r.Ok? ==>
      && r.value.base == CardBase.ToDict(t.base)
      && r.value.startDate.Has? && IsoParse(r.value.startDate.value) == Ok(t.startDate)
      && r.value.endDate.Has? && (r.value.endDate.value.None? <==> t.endDate.None?)
      && (t.endDate.Some? ==> IsoParse(r.value.endDate.value.value) == Ok(t.endDate.value))
      && r.value.events == Has(MapAll(t.events, writeEvent).value)
      && r.value.memories == Has(MapAll(t.memories, writeMemory).value)
  {
    var events :- MapAll(t.events, writeEvent);
    var memories :- MapAll(t.memories, writeMemory);
    assert IsoParse(IsoFormat(t.startDate)) == Ok(t.startDate) by { IsoRoundTrip(t.startDate); }
    assert t.endDate.Some? ==> IsoParse(IsoFormat(t.endDate.value)) == Ok(t.endDate.value) by {
      if t.endDate.Some? { IsoRoundTrip(t.endDate.value); }
    }
    Ok(TimePeriodDict(CardBase.ToDict(t.base), Has(IsoFormat(t.startDate)),
                      Has(if t.endDate.Some? then Some(IsoFormat(t.endDate.value)) else None),
                      Has(events), Has(memories)))
  }

  /** `from_dict(data)` of a time-period class at clock reading `now`: the
      base card's `from_dict`, which runs the class's constructor and so
      leaves `ctorEnd` as the end date; then the start date, which must be
      present; then the end date, only when truthy; then the attached cards,
      only when their list is present and non-empty. */
  function FromDictAs<E, M, ED, MD>(d: TimePeriodDict<ED, MD>, now: DateTime, newId: Uuid, image: ImageOutcome,
                                    readEvent: ED -> Result<E>, readMemory: MD -> Result<M>,
                                    ctorEnd: Option<DateTime>): (r: Result<TimePeriodCard<E, M>>)
    requires Valid(now)
    ensures r.Ok? ==> CardBase.FromDict(d.base, now, newId, image) == Ok(r.value.base)
    ensures CardBase.FromDict(d.base, now, newId, image).Err? ==> r == Err(CardBase.FromDict(d.base, now, newId, image).error)
    ensures CardBase.FromDict(d.base, now, newId, image).Ok? && d.startDate.Missing? ==> r == Err(KeyError)
    ensures r.Ok? ==> d.startDate.Has? && IsoParse(d.startDate.value) == Ok(r.value.startDate)
    ensures r.Ok? && !TruthyText(d.endDate) ==> r.value.endDate == ctorEnd
    ensures r.Ok? && TruthyText(d.endDate) ==> r.value.endDate.Some? && IsoParse(d.endDate.value.value) == Ok(r.value.endDate.value)
    ensures r.Ok? && (d.events.Missing? || d.events.value == []) ==> r.value.events == []
    ensures r.Ok? && (d.memories.Missing? || d.memories.value == []) ==> r.value.memories == []
    // a non-empty list is read element by element, and an element's exception is raised
    ensures r.Ok? ==>
      && ReadListIfTruthy(d.events, readEvent) == Ok(r.value.events)
      && ReadListIfTruthy(d.memories, readMemory) == Ok(r.value.memories)
    ensures CardBase.FromDict(d.base, now, newId, image).Ok? && d.startDate.Has? && IsoParse(d.startDate.value).Ok?
            && ReadIfTruthy(d.endDate).Ok? && ReadListIfTruthy(d.events, readEvent).Err? ==>
      r == Err(ReadListIfTruthy(d.events, readEvent).error)
    ensures CardBase.FromDict(d.base, now, newId, image).Ok? && d.startDate.Has? && IsoParse(d.startDate.value).Ok?
            && ReadIfTruthy(d.endDate).Ok? && ReadListIfTruthy(d.events, readEvent).Ok?
            && ReadListIfTruthy(d.memories, readMemory).Err? ==>
      r == Err(ReadListIfTruthy(d.memories, readMemory).error)
    ensures r.Ok? <==>
      && CardBase.FromDict(d.base, now, newId, image).Ok? && d.startDate.Has? && IsoParse(d.startDate.value).Ok?
      && ReadIfTruthy(d.endDate).Ok? && ReadListIfTruthy(d.events, readEvent).Ok? && ReadListIfTruthy(d.memories, readMemory).Ok?
  {
    var base :- CardBase.FromDict(d.base, now, newId, image);
    if d.startDate.Missing? then Err(KeyError)
    else
      var start :- IsoParse(d.startDate.value);
      var end :- ReadIfTruthy(d.endDate);
      var events :- ReadListIfTruthy(d.events, readEvent);
      var memories :- ReadListIfTruthy(d.memories, readMemory);
      Ok(TimePeriodCard(base, start, if end.Some? then end else ctorEnd, events, memories))
  }

  /** `TimePeriodCard.from_dict(data)`: its constructor leaves no end date, so
      the end is set exactly when the dict's end date is truthy. */
  function FromDict<E, M, ED, MD>(d: TimePeriodDict<ED, MD>, now: DateTime, newId: Uuid, image: ImageOutcome,
                                  readEvent: ED -> Result<E>, readMemory: MD -> Result<M>): (r: Result<TimePeriodCard<E, M>>)
    requires Valid(now)
    ensures r.Ok? ==> (r.value.endDate.Some? <==> TruthyText(d.endDate))
    ensures r.Ok? ==> d.startDate.Has? && IsoParse(d.startDate.value) == Ok(r.value.startDate)
  {
    FromDictAs(d, now, newId, image, readEvent, readMemory, None)
  }

  /** With readers that undo the writers, `from_dict(to_dict(t))` gives `t`
      back whenever the base card survives its own round trip, except that an
      unset end date comes back as whatever the class's constructor left. */
  lemma DictRoundTrip<E, M, ED, MD>(t: TimePeriodCard<E, M>, now: DateTime, newId: Uuid, image: ImageOutcome,
                                    writeEvent: E -> Result<ED>, readEvent: ED -> Result<E>,
                                    writeMemory: M -> Result<MD>, readMemory: MD -> Result<M>)
    requires WellFormed(t.base) && t.base.imagePath != "" && t.base.updatedAt.Some? && t.base.metadata != Json.Null
    requires Dated(t) && Valid(now)
    requires forall i :: 0 <= i < |t.events| ==> writeEvent(t.events[i]).Ok? && readEvent(writeEvent(t.events[i]).value) == Ok(t.events[i])
    requires forall i :: 0 <= i < |t.memories| ==> writeMemory(t.memories[i]).Ok? && readMemory(writeMemory(t.memories[i]).value) == Ok(t.memories[i])
    ensures ToDict(t, writeEvent, writeMemory).Ok?
    ensures forall ctorEnd :: FromDictAs(ToDict(t, writeEvent, writeMemory).value, now, newId, image, readEvent, readMemory, ctorEnd)
                              == Ok(t.(endDate := if t.endDate.Some? then t.endDate else ctorEnd))
    ensures FromDict(ToDict(t, writeEvent, writeMemory).value, now, newId, image, readEvent, readMemory) == Ok(t)
  {
    forall ctorEnd: Option<DateTime>
      ensures FromDictAs(ToDict(t, writeEvent, writeMemory).value, now, newId, image, readEvent, readMemory, ctorEnd)
              == Ok(t.(endDate := if t.endDate.Some? then t.endDate else ctorEnd))
    {
      RoundTripAs(t, now, newId, image, writeEvent, readEvent, writeMemory, readMemory, ctorEnd);
    }
    RoundTripAs(t, now, newId, image, writeEvent, readEvent, writeMemory, readMemory, None);
  }

  /** The round trip for one end date left by the constructor. */
  lemma RoundTripAs<E, M, ED, MD>(t: TimePeriodCard<E, M>, now: DateTime, newId: Uuid, image: ImageOutcome,
                                  writeEvent: E -> Result<ED>, readEvent: ED -> Result<E>,
                                  writeMemory: M -> Result<MD>, readMemory: MD -> Result<M>,
                                  ctorEnd: Option<DateTime>)
    requires WellFormed(t.base) && t.base.imagePath != "" && t.base.updatedAt.Some? && t.base.metadata != Json.Null
    requires Dated(t) && Valid(now)
    requires forall i :: 0 <= i < |t.events| ==> writeEvent(t.events[i]).Ok? && readEvent(writeEvent(t.events[i]).value) == Ok(t.events[i])
    requires forall i :: 0 <= i < |t.memories| ==> writeMemory(t.memories[i]).Ok? && readMemory(writeMemory(t.memories[i]).value) == Ok(t.memories[i])
    ensures ToDict(t, writeEvent, writeMemory).Ok?
    ensures FromDictAs(ToDict(t, writeEvent, writeMemory).value, now, newId, image, readEvent, readMemory, ctorEnd)
            == Ok(t.(endDate := if t.endDate.Some? then t.endDate else ctorEnd))
  {
    MapAllInverse(t.events, writeEvent, readEvent);
    MapAllInverse(t.memories, writeMemory, readMemory);
    var d := ToDict(t, writeEvent, writeMemory).value;
    CardBase.DictRoundTrip(t.base, now, newId, image);
    EndDateRead(t.endDate);
    ListRoundTrip(t.events, writeEvent, readEvent);
    ListRoundTrip(t.memories, writeMemory, readMemory);
    FromDictAsParts(d, now, newId, image, readEvent, readMemory, ctorEnd,
                    t.base, t.startDate, t.endDate, t.events, t.memories);
  }

  /** The end date `to_dict` writes reads back as itself. */
  lemma EndDateRead(end: Option<DateTime>)
    requires end.Some? ==> Valid(end.value)
    ensures ReadIfTruthy(Has(if end.Some? then Some(IsoFormat(end.value)) else None)) == Ok(end)
  {
    if end.Some? {
      IsoRoundTrip(end.value);
    }
  }

  /** `FromDictAs` assembled from the results of its reads. */
  lemma FromDictAsParts<E, M, ED, MD>(d: TimePeriodDict<ED, MD>, now: DateTime, newId: Uuid, image: ImageOutcome,
                                      readEvent: ED -> Result<E>, readMemory: MD -> Result<M>, ctorEnd: Option<DateTime>,
                                      base: Card, start: DateTime, end: Option<DateTime>, events: seq<E>, memories: seq<M>)
    requires Valid(now)
    requires CardBase.FromDict(d.base, now, newId, image) == Ok(base)
    requires d.startDate.Has? && IsoParse(d.startDate.value) == Ok(start)
    requires ReadIfTruthy(d.endDate) == Ok(end)
    requires ReadListIfTruthy(d.events, readEvent) == Ok(events)
    requires ReadListIfTruthy(d.memories, readMemory) == Ok(memories)
    ensures FromDictAs(d, now, newId, image, readEvent, readMemory, ctorEnd)
            == Ok(TimePeriodCard(base, start, if end.Some? then end else ctorEnd, events, memories))
  {
  }
}

=== FILE: year_card.dfy ===
/** `YearCard` of cards/year_card.py: a time period that spans one calendar
    year, from 1 January 00:00:00 to 31 December 23:59:59.  The constructor
    and `set_year` compute both bounds from the year; `from_dict` reads them
    back from the dict instead.
 */
module YearCards {
  import opened Outcomes
  import opened Calendar
  import Json
  import opened CardBase
  import MediaRecord
  import opened TimePeriodCards

  datatype YearCard<E, M> = YearCard(period: TimePeriodCard<E, M>, year: int)

  function YearStart(year: int): DateTime {
    DateTime(year, 1, 1, 0, 0, 0, 0)
  }

  function YearEnd(year: int): DateTime {
    DateTime(year, 12, 31, 23, 59, 59, 0)
  }

  /** `datetime(year, 1, 1)` and then `datetime(year, 12, 31, 23, 59, 59)`:
      ValueError for a year outside 1..9999. */
  function YearBounds(year: int): (r: Result<(DateTime, DateTime)>)
    ensures r.Ok? <==> MinYear <= year <= MaxYear
    ensures r.Err? ==> r.error == ValueError
    ensures r.Ok? ==> r.value == (YearStart(year), YearEnd(year))
    ensures r.Ok? ==> Valid(r.value.0) && Valid(r.value.1) && Before(r.value.0, r.value.1)
  {
    if MinYear <= year <= MaxYear then Ok((YearStart(year), YearEnd(year))) else Err(ValueError)
  }

  /** The dates of a year card are the bounds of its year. */
  predicate Consistent<E, M>(y: YearCard<E, M>) {
    && MinYear <= y.year <= MaxYear
    && y.period.startDate == YearStart(y.year)
    && y.period.endDate == Some(YearEnd(y.year))
  }

  /** `YearCard(...)` at clock reading `now`: the year defaults to the current
      year; its bounds are computed (and may raise) before the base card's
      checks run.  Any start or end date passed in is overwritten, so none is
      taken here. */
  function New<E, M>(title: string, description: string, id: Option<string>, createdAt: DateTime,
                     updatedAt: Option<DateTime>, metadata: Json.Value, imagePath: string, media: seq<MediaRecord.Media>,
                     events: seq<E>, memories: seq<M>, year: Option<int>,
                     now: DateTime, newId: Uuid, image: ImageOutcome): (r: Result<YearCard<E, M>>)
    ensures var y := if year.Some? then year.value else now.year;
      && (r.Err? <==> !(MinYear <= y <= MaxYear)
                      || CardBase.New(title, description, id, createdAt, updatedAt, metadata, imagePath, media, newId, image).Err?)
      && (!(MinYear <= y <= MaxYear) ==> r == Err(ValueError))
      && (r.Ok? ==> Consistent(r.value) && r.value.year == y)
    ensures r.Ok? ==>
      && r.value.period.base == CardBase.New(title, description, id, createdAt, updatedAt, metadata, imagePath, media, newId, image).value
      && r.value.period.events == events && r.value.period.memories == memories
  {
    var y := if year.Some? then year.value else now.year;
    var bounds :- YearBounds(y);
    var p :- TimePeriodCards.New(title, description, id, createdAt, updatedAt, metadata, imagePath, media,
                                 bounds.0, Some(bounds.1), events, memories, newId, image);
    Ok(YearCard(p, y))
  }

  /** A year card together with the exception a method raised part-way, if any. */
  datatype Step<E, M> = Step(card: YearCard<E, M>, raised: Option<PyError>)

  /** `set_year(year)`: the year is assigned first, then the bounds are
      computed; an out-of-range year raises ValueError with the new year
      already stored and the old dates left in place.  The card is not stamped. */
  function SetYear<E, M>(y: YearCard<E, M>, year: int): (r: Step<E, M>)
    ensures r.card.year == year
    ensures r.raised.None? <==> MinYear <= year <= MaxYear
    ensures r.raised.None? ==> Consistent(r.card)
    ensures r.raised.Some? ==> r.raised.value == ValueError && r.card.period == y.period
    ensures r.card.period.base == y.period.base
    ensures r.card.period.events == y.period.events && r.card.period.memories == y.period.memories
  {
    var y' := y.(year := year);
    match YearBounds(year)
    case Err(e) => Step(y', Some(e))
    case Ok(bounds) => Step(y'.(period := SetDates(y.period, bounds.0, Some(bounds.1))), None)
  }

  /** A failed `set_year` leaves a card whose dates belong to another year;
      a later successful one repairs it. */
  lemma SetYearFailureLeavesStaleDates<E, M>(y: YearCard<E, M>, bad: int, good: int)
    requires Consistent(y) && !(MinYear <= bad <= MaxYear) && MinYear <= good <= MaxYear
    ensures !Consistent(SetYear(y, bad).card)
    ensures SetYear(y, bad).card.period.startDate.year != SetYear(y, bad).card.year
    ensures Consistent(SetYear(SetYear(y, bad).card, good).card)
  {
  }

  /** Every valid moment between the bounds of a consistent card lies in its
      year, and every moment of the year up to its last whole second lies
      between the bounds.  A moment in the final second with a non-zero
      microsecond (23:59:59.5 on 31 December) is after the end. */
  lemma BoundsCoverYear<E, M>(y: YearCard<E, M>, d: DateTime)
    requires Consistent(y) && Valid(d)
    ensures AtOrBefore(y.period.startDate, d) && AtOrBefore(d, y.period.endDate.value) ==> d.year == y.year
    ensures d.year == y.year && AtOrBefore(d, DateTime(d.year, 12, 31, 23, 59, 59, 0)) ==>
      AtOrBefore(y.period.startDate, d) && AtOrBefore(d, y.period.endDate.value)
    ensures (d.year == y.year && d.month == 12 && d.day == 31 && d.hour == 23 && d.minute == 59 && d.second == 59
             && d.microsecond > 0) ==> Before(y.period.endDate.value, d)
  {
  }

  // ---------------------------------------------------------------------
  // The dict form

  /** `to_dict()`: the time period's dict plus the year. */
  datatype YearDict<ED, MD> = YearDict(period: TimePeriodDict<ED, MD>, year: Entry<int>)

  function ToDict<E, M, ED, MD>(y: YearCard<E, M>, writeEvent: E -> Result<ED>, writeMemory: M -> Result<MD>)
    : (r: Result<YearDict<ED, MD>>)
    requires TimePeriodCards.Dated(y.period)
    ensures r.Ok? <==> TimePeriodCards.ToDict(y.period, writeEvent, writeMemory).Ok?
    ensures r.Ok? ==> r.value.period == TimePeriodCards.ToDict(y.period, writeEvent, writeMemory).value
    ensures r.Ok? ==> r.value.year == Has(y.year)
  {
    var p :- TimePeriodCards.ToDict(y.period, writeEvent, writeMemory);
    Ok(YearDict(p, Has(y.year)))
  }

  /** `YearCard.from_dict(data)` at clock reading `now`: the constructor runs
      for the current year, the time period's `from_dict` then reads the
      dates, and finally the year is read (current year when absent).  The
      dates are not recomputed from the year read. */
  function FromDict<E, M, ED, MD>(d: YearDict<ED, MD>, now: DateTime, newId: Uuid, image: ImageOutcome,
                                  readEvent: ED -> Result<E>, readMemory: MD -> Result<M>): (r: Result<YearCard<E, M>>)
    requires Valid(now)
    ensures r.Ok? <==> FromDictAs(d.period, now, newId, image, readEvent, readMemory, Some(YearEnd(now.year))).Ok?
    ensures r.Ok? ==> r.value.period == FromDictAs(d.period, now, newId, image, readEvent, readMemory, Some(YearEnd(now.year))).value
    ensures r.Ok? ==> r.value.year == d.year.GetOr(now.year)
    ensures r.Ok? && !TruthyText(d.period.endDate) ==> r.value.period.endDate == Some(YearEnd(now.year))
  {
    var p :- FromDictAs(d.period, now, newId, image, readEvent, readMemory, Some(YearEnd(now.year)));
    Ok(YearCard(p, d.year.GetOr(now.year)))
  }

  /** With readers that undo the writers, `from_dict(to_dict(y))` gives a
      consistent year card back whenever its base card survives its own
      round trip. */
  lemma DictRoundTrip<E, M, ED, MD>(y: YearCard<E, M>, now: DateTime, newId: Uuid, image: ImageOutcome,
                                    writeEvent: E -> Result<ED>, readEvent: ED -> Result<E>,
                                    writeMemory: M -> Result<MD>, readMemory: MD -> Result<M>)
    requires Consistent(y)
    requires WellFormed(y.period.base) && y.period.base.imagePath != "" && y.period.base.updatedAt.Some?
    requires y.period.base.metadata != Json.Null && TimePeriodCards.Dated(y.period) && Valid(now)
    requires forall i :: 0 <= i < |y.period.events| ==>
      writeEvent(y.period.events[i]).Ok? && readEvent(writeEvent(y.period.events[i]).value) == Ok(y.period.events[i])
    requires forall i :: 0 <= i < |y.period.memories| ==>
      writeMemory(y.period.memories[i]).Ok? && readMemory(writeMemory(y.period.memories[i]).value) == Ok(y.period.memories[i])
    ensures ToDict(y, writeEvent, writeMemory).Ok?
    ensures FromDict(ToDict(y, writeEvent, writeMemory).value, now, newId, image, readEvent, readMemory) == Ok(y)
  {
    TimePeriodCards.DictRoundTrip(y.period, now, newId, image, writeEvent, readEvent, writeMemory, readMemory);
  }

  /** A dict whose year disagrees with its dates gives an inconsistent card. */
  lemma FromDictTrustsDates<E, M, ED, MD>(d: YearDict<ED, MD>, now: DateTime, newId: Uuid, image: ImageOutcome,
                                          readEvent: ED -> Result<E>, readMemory: MD -> Result<M>)
    requires Valid(now) && FromDict(d, now, newId, image, readEvent, readMemory).Ok?
    requires d.period.startDate.Has? && IsoParse(d.period.startDate.value).Ok?
    requires IsoParse(d.period.startDate.value).value.year != d.year.GetOr(now.year)
    ensures !Consistent(FromDict(d, now, newId, image, readEvent, readMemory).value)
  {
  }
}
